=== FILE: README.md ===
# rustwide, modelled in Dafny

rustwide is a Rust library for running builds of Rust crates inside throwaway Docker
containers. It manages a *workspace*: a cargo home, a rustup home, a cache of downloaded crates
and git repositories, and build directories. Its core pieces are these:

- **Commands.** `Command` runs a program either on the host or inside a `SandboxBuilder`
  container. It enforces a total timeout and a no-output timeout, and it can capture output line
  by line. Per-line callbacks may rewrite or drop lines through `ProcessLinesActions`.
- **Sandboxes.** `docker create` is given mount, environment and limit arguments. The container
  is started and inspected for an out-of-memory kill, then always deleted.
- **Crates.** A crate comes from crates.io, an alternative registry, a git repository or a local
  directory. Each kind is fetched into the cache and copied into a build's source directory.
- **Builds.** A build directory is prepared in five steps:
  - copy the source;
  - validate `Cargo.toml`;
  - remove `.cargo/config`;
  - tweak the manifest (drop missing examples and tests, parent workspaces, unstable features and
    path dependencies; add `[patch.crates-io]` entries);
  - generate the lockfile and fetch dependencies.

  Then the caller's closure runs, and the source directory is removed afterwards.
- **Toolchains and tools.** rustup and the helper binaries are installed and listed; Unix and
  Windows each have their own process-killing and executable-bit helpers.

The model is pure and functional. Every effect the library performs is handled in one of three
ways:

- the outcome of an effect is an input: a filesystem call's result, a process's output lines and
  exit status, a Docker inspection;
- an external helper is a function parameter: `norm` for `normalize_path`, `present` for
  `Path::exists`, `download`, `setPermissions`;
- the effects themselves are recorded as traces of events or calls, which the contracts speak
  about.

Paths are component lists with a root, and each platform has its own separator. Durations are
whole seconds. Panics the library can reach on bad data are an explicit `Panicked` outcome (the
`Exit` type in `Base`).

Modules follow the source files:

| module | source |
|---|---|
| `Cmd` | src/cmd/mod.rs |
| `Sandbox` | src/cmd/sandbox.rs |
| `LineActions` | src/cmd/process_lines_actions.rs |
| `Actions` | src/cmd/actions.rs |
| `Prepare` | src/prepare.rs, the steps of `prepare` |
| `TomlTweaker` | src/prepare.rs, the `TomlTweaker` half |
| `Toml` | the TOML value type |
| `Build` | src/build.rs |
| `Crates` | src/crates/mod.rs |
| `Registry` | src/crates/registry.rs |
| `Git` | src/crates/git.rs |
| `Local` | src/crates/local.rs |
| `Toolchain` | src/toolchain.rs |
| `Tools` | src/tools/mod.rs |
| `BinaryCrates` | src/tools/binary_crates.rs |
| `Utils` | src/utils.rs |
| `NativeUnix`, `ModeBits` | src/native/unix.rs |
| `NativeWindows` | src/native/windows.rs |

Shared modules:

- `Wrappers`: `Option` and `Result`.
- `Base`: paths, platforms, the workspace, errors and `Exit`.
- `Text`: splitting, joining, replacing and decimal formatting.
- `Seqs`: subsequences and collecting results.
- `Percent`: the percent-encoding set that utils.rs and git.rs each define.

## Model

| member | source | states |
|---|---|---|
| Actions.New | src/cmd/actions.rs:7-9 | A fresh object has no pending lines. |
| Actions.NextInput | src/cmd/actions.rs:11-13 | After `next_input` the pending lines are exactly the input line, whatever was pending before. |
| Actions.TakeLines | src/cmd/actions.rs:15-17 | Taking hands back the pending lines and leaves the object empty. |
| Actions.Perform | src/cmd/actions.rs:19-27 | `replace_with_lines` makes the given lines pending; `remove_line` leaves none. |
| Actions.AgreesWithLineActions | src/cmd/actions.rs:11-27 | For any sequence of callback calls on one line, the lines this object hands back equal what `log_command` records from the `ProcessLinesActions` state after the same calls. The two designs agree. |
| Actions.LastCallDecides | src/cmd/actions.rs:20-27 | With no call the object is unchanged; otherwise the last call alone decides it. |
| Actions.NoActionKeepsInput | src/cmd/actions.rs:58-62 | With no action, taking returns the input line, and a second take returns nothing. |
| LineActions.New | src/cmd/process_lines_actions.rs:10-28 | A fresh object is in the `Original` (default) state. |
| LineActions.Perform | src/cmd/process_lines_actions.rs:37-46 | A replace call sets `Replaced` with exactly the given lines; a remove call sets `Removed`. |
| LineActions.TakeLines | src/cmd/process_lines_actions.rs:30-32 | Taking returns the current state and resets the object to a fresh one. |
| LineActions.Recorded | src/cmd/mod.rs:634-638 | The lines recorded for a line: none when removed, the line itself when untouched, the replacement lines when replaced. |
| LineActions.LastCallWins | src/cmd/process_lines_actions.rs:37-46 | Over any call sequence, the last call determines the state; with no call the object is unchanged. |
| LineActions.TakeResets | src/cmd/process_lines_actions.rs:72-88 | A fresh object, or one just taken from, yields `Original`; after further calls, a take yields the effect of the last of them. |
| LineActions.ReplaceExample | src/cmd/process_lines_actions.rs:54-75 | The unit test's sequence of calls: each take sees the latest replacement, and a final take sees `Original`. |
| Cmd.Program | src/cmd/mod.rs:172-176 | A plain program name runs as that global binary with no default arguments. |
| Cmd.NewInner | src/cmd/mod.rs:240-267 | A new command has no arguments, environment or directory, and logs its output and command. Its cargo home mounts read-only. Its timeouts are the workspace defaults, or none without a workspace. |
| Cmd.New | src/cmd/mod.rs:219-221 | The command runs the runnable with its default arguments, in the workspace, unsandboxed, with the workspace's default timeouts. |
| Cmd.NewSandboxed | src/cmd/mod.rs:224-234 | As `new`, with the given sandbox kept for the run. |
| Cmd.NewWorkspaceless | src/cmd/mod.rs:236-238 | No workspace, no sandbox and no timeouts. |
| Cmd.BuilderAccumulates | src/cmd/mod.rs:277-290 | Any chain of `args`, `env` and `timeout` calls appends arguments and variables in call order. The binary and working directory stay as they were. |
| Cmd.EffectiveTimeouts | src/cmd/mod.rs:583-595 | No timeout means one week. No no-output timeout means the total timeout. Given values are used as they are. |
| Cmd.KilledError | src/cmd/mod.rs:612-615 | A timer that fired reports its timeout when the kill worked, and the kill failure otherwise. |
| Cmd.FoldCaptures | src/cmd/mod.rs:634-661 | When every line arrives within the timeout, the output fold succeeds. With capture, stdout and stderr gain exactly each stream's recorded lines, in order. Without capture, the output is unchanged. |
| Cmd.FoldOneLine | src/cmd/mod.rs:634-661 | Folding a line read in time is capturing that line, then folding the rest from a fresh actions object. |
| Cmd.LateLineTimesOut | src/cmd/mod.rs:626-628 | The first line that arrives after the total timeout ends the fold with `Timeout`, whatever follows it. |
| Cmd.FoldWithoutCapture | src/cmd/mod.rs:653-658 | Without capture, a successful fold leaves the output lists as they were. |
| Cmd.ClassifyWait | src/cmd/mod.rs:664-678 | The run succeeds exactly when the child finished, with its status. A timed-out child is `Timeout`, or the kill failure; a wait error is an I/O error. |
| Cmd.LogCommandRun | src/cmd/mod.rs:575-692 | A spawn failure comes first, then the output fold's error, then the wait's. Otherwise the result is the exit status with the folded output. |
| Cmd.Finish | src/cmd/mod.rs:514-521 | A non-success status becomes `ExecutionFailed` carrying the joined stderr. A success passes the output on. |
| Cmd.CapturedRun | src/cmd/mod.rs:575-692 | A successful captured process whose lines all arrive in time yields exactly the recorded lines of each stream. |
| Cmd.ExeName | src/cmd/mod.rs:694-698 | `.exe` is appended on Windows and nothing on Unix. |
| Cmd.HostInvocationOf | src/cmd/mod.rs:444-488 | A managed binary runs from `<normalised cargo home>/bin`, with `CARGO_HOME` and `RUSTUP_HOME` set before the user's variables. Without a workspace it panics. A global binary runs as named. Arguments and directory are passed on. |
| Cmd.RunHost | src/cmd/mod.rs:500-521 | The host result is `log_command` followed by the status check; a success implies the process spawned, finished and exited successfully. |
| Cmd.UncapturedHostRunIsEmpty | src/cmd/mod.rs:653-658 | A successful uncaptured host run returns empty output lists. |
| Cmd.CommandSteps | src/cmd/mod.rs:398-418 | The source directory (or `.`) is mounted read-only at the container workdir. `SOURCE_DIR` is set before the user's variables. The command line is the container-side program and the arguments. The working directory and, when known, the user are set. Image, network and limits are untouched. |
| Cmd.HomeSteps | src/cmd/mod.rs:420-432 | The cargo home is mounted with the command's kind and the rustup home read-only, their environment variables appended; nothing else changes. |
| Cmd.ConfigureSandbox | src/cmd/mod.rs:385-432 | The full sandbox: the three mounts and the environment, in the order `run_inner` adds them, after the sandbox's own. |
| Cmd.SandboxConfig | src/cmd/mod.rs:381-384 | A sandboxed command without a workspace panics; otherwise it is configured as above. |
| Cmd.StartCommand | src/cmd/sandbox.rs:429-438 | `docker start -a <id>` is an unsandboxed `docker` command that carries the sandboxed command's two timeouts and both logging flags. |
| Cmd.RunInner | src/cmd/mod.rs:380-523 | A sandboxed run is the configured container run, whose `docker start -a` goes through `log_command` with the command's capture flag, timeouts and line callbacks. An unsandboxed run is the host run. It panics exactly for a missing workspace. |
| Cmd.SandboxedCapturedRun | src/cmd/sandbox.rs:420-455 | A captured sandboxed run whose container exits successfully, in time and without an out-of-memory kill returns exactly the recorded lines of each stream of `docker start -a`. |
| Cmd.Run | src/cmd/mod.rs:365-368 | `run` succeeds or fails exactly as the uncaptured `run_inner`, with the same error. |
| Sandbox.Local | src/cmd/sandbox.rs:35-40 | A local image is accepted under its own name exactly when it exists locally; otherwise `SandboxImageMissing`. |
| Sandbox.PullReference | src/cmd/sandbox.rs:48-71 | Without a size limit the name is pulled. With one, an image whose summed layers exceed the limit is `SandboxImageTooLarge`; otherwise the part of the name before its first `:` is pinned to the manifest's digest, as rustwide computes it. |
| Sandbox.PassingImageLayersWithinLimit | src/cmd/sandbox.rs:56-58 | In an image that passes the size check, no single layer exceeds the limit. |
| Sandbox.LayerWithinTotal | src/cmd/sandbox.rs:56 | Every layer counts towards the summed size. |
| Sandbox.Remote | src/cmd/sandbox.rs:46-81 | A failed manifest or size check is returned as it is. A failed pull is `SandboxImagePullFailed`. After a pull the image is the hashed name when Docker reports one, else the name; it is returned when it exists locally, and is `SandboxImageMissing` otherwise. |
| Sandbox.RepositoryStripsTag | src/cmd/sandbox.rs:69 | The corrected repository of `<repo>:<tag>` is `<repo>`, even when `<repo>` holds a registry port. |
| Sandbox.RepositoryWithoutTag | src/cmd/sandbox.rs:69 | A name with no `:` is its own repository. |
| Sandbox.RepositoryAsWrittenDropsPort | src/cmd/sandbox.rs:69 | rustwide's split keeps only `localhost` of `localhost:5000/img:v1`. |
| Sandbox.RepositoryAgreesWithoutPort | src/cmd/sandbox.rs:69 | For `<repo>:<tag>` with no colon in `<repo>`, rustwide's split and the tag-free name both give `<repo>`. |
| Sandbox.RepositoryKeepsPort | src/cmd/sandbox.rs:69 | The corrected repository of the same name is `localhost:5000/img`. |
| Sandbox.TagColon | src/cmd/sandbox.rs:69 | The tag separator is a `:` with neither `:` nor `/` after it. Without one, every `:` is followed by a `/`. |
| Sandbox.Rebase | src/cmd/sandbox.rs:133-140 | Inside a container, a path is rebased onto the first mount whose destination prefixes it. There is a result exactly when some mount matches. |
| Sandbox.HostPath | src/cmd/sandbox.rs:128-144 | Outside a container the normalised path is used. Inside one, the path is rebased onto the first mount whose destination contains it, or the result is `WorkspaceNotMountedCorrectly` exactly when none matches. |
| Sandbox.ToVolumeArg | src/cmd/sandbox.rs:146-157 | A volume argument exists exactly when the host path resolves, and it carries the same error otherwise. |
| Sandbox.VolumeArgParses | src/cmd/sandbox.rs:146-157 | Split at `:`, a volume argument gives back the host path, the sandbox path, and `rw,Z` or `ro,Z`. |
| Sandbox.ToMountArg | src/cmd/sandbox.rs:159-172 | A mount argument exists exactly when the host path resolves, and it carries the same error otherwise. |
| Sandbox.MountArgParses | src/cmd/sandbox.rs:159-172 | Split at `,`, a mount argument gives `type=bind`, `src=<host>`, `dst=<sandbox>`, with `readonly` present exactly for read-only mounts. |
| Sandbox.New | src/cmd/sandbox.rs:192-204 | A new builder has no mounts, environment, command, limits, workdir, user or image, and networking on. |
| Sandbox.User | src/cmd/sandbox.rs:269-272 | The user text splits at `:` into two decimal numbers that read back as the uid and gid. |
| Sandbox.MountStep | src/cmd/sandbox.rs:278-288 | A mount's host directory is created first, and a creation failure is an I/O error. Then the argument is the platform's mount or volume form. |
| Sandbox.MountSteps | src/cmd/sandbox.rs:278-288 | One step per mount, in mount order. |
| Sandbox.FlagPairs | src/cmd/sandbox.rs:278-288 | When every step succeeds, the arguments are `flag, value` pairs in step order. Otherwise the first failing step's error is returned. |
| Sandbox.EnvArgs | src/cmd/sandbox.rs:291-294 | Each variable becomes `-e K=V`, in order. |
| Sandbox.CreateArgs | src/cmd/sandbox.rs:274-289 | `create` has arguments exactly when every mount step succeeds, and fails with the first mount error. |
| Sandbox.CreateArgsOrder | src/cmd/sandbox.rs:274-333 | The arguments are `create`, then one flag pair per mount in order, then the environment, the options, the image, and finally the command. |
| Sandbox.ClassifyOom | src/cmd/sandbox.rs:443-451 | An out-of-memory kill turns success or a failed execution into `SandboxOOM`. Any other error, or no kill, passes through. |
| Sandbox.Run | src/cmd/sandbox.rs:345-378 | The Docker calls are create, then start, inspect and delete on the created id. The outcome is the inspection's error or panic, or the OOM classification of the start. A failed create returns its error after the create call alone; a create that prints no id panics. |
| Sandbox.DeletedOnEveryPath | src/cmd/sandbox.rs:355-368 | Once the container exists it is deleted exactly once, as the last Docker call, whatever start and inspect did. |
| Sandbox.DeleteFailureIgnored | src/cmd/sandbox.rs:359-367 | The delete's outcome never changes the run's result. |
| Prepare.ValidateManifest | src/prepare.rs:49-70 | It succeeds exactly when `Cargo.toml` is a file and `cargo metadata` succeeds. Otherwise the error is `MissingCargoToml` or `InvalidCargoTomlSyntax` respectively. |
| Prepare.Setup | src/prepare.rs:38-79 | The first three steps succeed exactly when the copy, the validation and any needed removal of `.cargo/config` succeed. Their trace is copy, metadata, then the optional removal. |
| Prepare.TweakToml | src/prepare.rs:81-87 | An unreadable manifest is `MissingCargoToml` and an unparsable one `InvalidCargoTomlSyntax`. A parsed manifest panics exactly when the crate's display panics or the tweak does. Otherwise a failed save is its I/O error, and a successful one returns exactly the tweaked table. |
| Prepare.CaptureLockfile | src/prepare.rs:89-125 | Unforced, an existing lockfile is kept. Otherwise `generate-lockfile` runs once, with `-Zno-index-update` and the nightly override when index fetching is off. A failure that mentions a yanked requirement is `YankedDependencies`. |
| Prepare.FetchDeps | src/prepare.rs:127-152 | `cargo fetch --locked` runs first. Its success is returned, and so is its failure unless it printed the outdated-lockfile message before a lockfile was captured. In that case, and only then, the lockfile is regenerated; the regeneration's failure (or `YankedDependencies`) is returned, and after a success the second fetch decides. |
| Prepare.FetchRetriesAtMostOnce | src/prepare.rs:140-150 | Fetching runs at most twice, and twice only after an outdated-lockfile failure with no lockfile captured. |
| Prepare.LockAndFetch | src/prepare.rs:42-44 | With an existing lockfile the next command is the fetch. Without one, successful steps run `generate-lockfile` and then the fetch. |
| Prepare.RunPrepare | src/prepare.rs:38-47 | A successful prepare means every step succeeded. Its trace is the set-up steps, then the write of exactly the tweaked manifest, then the lockfile and fetch commands. After a successful set-up on a parsed manifest it panics exactly when the crate's display panics or the tweak does, so a crate of an alternative registry is never prepared. |
| TomlTweaker.TestExistence | src/prepare.rs:207-226 | It panics exactly when an item has a non-string `path`. Otherwise it keeps, in order, exactly the named items whose file exists at the given or default path, each as many times as it occurs. |
| TomlTweaker.RemoveMissingItems | src/prepare.rs:228-237 | Without a directory or an array it does nothing. Otherwise only that category's array changes, filtered as above, duplicates included. |
| TomlTweaker.RemoveParentWorkspaces | src/prepare.rs:239-248 | Only `package.workspace` is removed; every other entry and package key is kept as it was. |
| TomlTweaker.ScanFeatures | src/prepare.rs:256-268 | The kept features are, in order, exactly the strings other than the two stripped ones, each as often as listed. Each flag is set exactly when its feature was listed. |
| TomlTweaker.ScanFeaturesKeepsAll | src/prepare.rs:256-268 | A list holding only kept features comes through unchanged. |
| TomlTweaker.RemoveUnwantedCargoFeatures | src/prepare.rs:250-285 | The feature list keeps, in order, exactly the string entries other than the two stripped ones, each as often as it is listed. `package.publish-lockfile` and `package.default-run` disappear exactly when listed. Nothing else changes. |
| TomlTweaker.RemoveDependenciesFromTable | src/prepare.rs:339-354 | In each dependency section, every table-valued dependency loses exactly its `path` key; everything else is unchanged. |
| TomlTweaker.RemoveDependencies | src/prepare.rs:287-300 | The top-level keys are kept; each table under `target` stays a table with its keys. |
| TomlTweaker.RemoveDependenciesKeeps | src/prepare.rs:287-300 | Entries that are neither dependency sections nor `target` pass through unchanged. |
| TomlTweaker.StrippedTarget | src/prepare.rs:292-299 | A target-specific path dependency loses its path. |
| TomlTweaker.InsertPatches | src/prepare.rs:326-334 | The patched names are added to the table; other entries are unchanged. |
| TomlTweaker.InsertPatchesLastWins | src/prepare.rs:326-334 | Each patched name holds the entry of the last patch with that name. |
| TomlTweaker.ApplyPatches | src/prepare.rs:302-336 | No patches change nothing. It panics exactly when `patch`, or `patch.crates-io`, exists but is not a table. Otherwise `patch.crates-io` gains the patches, last one winning, and every other entry survives. |
| TomlTweaker.ApplyOnePatchFresh | src/prepare.rs:302-336 | One patch on a manifest without `[patch]` adds exactly `[patch.crates-io]` holding that patch's git and branch. |
| TomlTweaker.Rewrite | src/prepare.rs:198-201 | The infallible steps keep the top-level keys and leave no parent workspace. |
| TomlTweaker.RewriteFrame | src/prepare.rs:198-201 | A top-level entry that no step touches survives them unchanged. |
| TomlTweaker.Tweak | src/prepare.rs:193-204 | A tweaked manifest never has a parent workspace. |
| TomlTweaker.TweakCrate | src/prepare.rs:239-240 | For a crate that formats, the tweak is `tweak`; for one that does not, every tweak panics, since `remove_parent_workspaces` formats the crate unconditionally. |
| TomlTweaker.TweakNoop | src/prepare.rs:193-204 | A manifest with nothing to rewrite comes through unchanged, given no directory and no patches. |
| TomlTweaker.TweakKeys | src/prepare.rs:193-204 | `tweak` removes no top-level key and adds only `patch`, when there are patches. |
| TomlTweaker.TweakFrame | src/prepare.rs:193-204 | Every top-level entry that no step touches (such as `[workspace]`) survives unchanged. |
| TomlTweaker.TweakThenPatch | src/prepare.rs:193-204 | Tweaking with patches is tweaking without them, then applying the patches. |
| TomlTweaker.FeaturesStripped | src/prepare.rs:250-285 | A list naming both stripped features keeps only the others, and the package loses both keys. |
| TomlTweaker.TweakNoopExample | src/prepare.rs:395-423 | The library's no-op manifest is left unchanged. |
| TomlTweaker.TweakChangesExample | src/prepare.rs:425-478 | The library's manifest with features, a parent workspace and path dependencies gives exactly the expected table. |
| TomlTweaker.TweakOnePatch | src/prepare.rs:302-336 | With nothing else to rewrite, one patch only adds `[patch.crates-io]` holding it. |
| TomlTweaker.TweakPatchesExample | src/prepare.rs:479-529 | The library's patch test gives the input plus the expected `[patch.crates-io]`. |
| Build.New | src/build.rs:97-103 | A new build directory does not purge on drop. |
| Build.BuildDir | src/build.rs:184-186 | The build directory is `<builds>/<name>`. |
| Build.SourceDir | src/build.rs:188-190 | The source directory is `<builds>/<name>/source`. |
| Build.TargetDir | src/build.rs:192-194 | The target directory is `<builds>/<name>/target`. |
| Build.BuildLayout | src/build.rs:184-194 | The source and target directories differ and lie directly inside the build directory. |
| Build.BuildDirsDisjoint | src/build.rs:184-194 | Two different build names that are each one plain path component (non-empty, not `.` or `..`, no separator) never nest one build directory inside the other. |
| Build.PurgeOnDrop | src/build.rs:180-182 | Only the purge flag changes. |
| Build.Purge | src/build.rs:169-175 | An absent directory is left alone. A present one is removed, and the result is that removal's. |
| Build.Drop | src/build.rs:197-205 | The directory is removed exactly when purging was requested and it exists. A removal failure is logged exactly when it happens, never raised. |
| Build.DropPurgesOnlyWhenAsked | src/build.rs:197-205 | A fresh directory is never removed on drop; after `purge_on_drop(true)` it is removed exactly when present. |
| Build.Builder | src/build.rs:126-139 | A builder starts with no patches and the given directory, toolchain, crate and sandbox. |
| Build.PatchesInCallOrder | src/build.rs:58-65 | A chain of `patch_with_git` calls records the patches in call order and changes nothing else. |
| Build.Run | src/build.rs:90-93 | Running a builder takes a prefix of the steps; the closure runs exactly when stale-source removal, prepare of the builder's crate and patches, and target creation succeed; a success is the closure's value after the source is removed; it panics exactly when prepare or the closure does; a crate of an alternative registry never reaches the closure. |
| Build.Sequence | src/build.rs:141-166 | The steps taken are a prefix of the full order. The closure runs exactly when stale-source removal, prepare and target creation all succeed. The source is removed exactly after a successful closure, and a success returns the closure's value. It panics exactly when prepare or the closure does. |
| Build.HostDirs | src/build.rs:283-290 | The host source and target directories differ and are the `source` and `target` children of the build directory. |
| Build.Command | src/build.rs:241-253 | A build command is sandboxed, with the target directory mounted read-write at the container target. It runs in the source directory with `CARGO_TARGET_DIR` set. |
| Build.BuildCommandMounts | src/build.rs:241-253 | Combined with `run_inner`, the container sees the target read-write, then the source, cargo home and rustup home read-only, and has `CARGO_TARGET_DIR`. |
| Build.Cargo | src/build.rs:278-280 | The build's cargo runs through the proxy with `+<toolchain>` as its only default argument. |
| Crates.FromRegistry | src/crates/mod.rs:27-33 | An alternative-registry crate with the given index, name and version. |
| Crates.CratesIo | src/crates/mod.rs:36-42 | A crates.io crate with the given name and version. |
| Crates.RegistryConstructors | src/crates/mod.rs:27-42 | The two registry constructors differ only in the registry. |
| Crates.FromGit | src/crates/mod.rs:46-48 | A git crate for the URL. |
| Crates.FromLocal | src/crates/mod.rs:51-53 | A local crate for the path. |
| Crates.Fetch | src/crates/mod.rs:57-59 | Fetching dispatches to the variant. A local crate always succeeds; a cached registry crate succeeds without downloading. |
| Crates.PurgeFromCache | src/crates/mod.rs:62-64 | Purging dispatches to the variant. A registry crate removes its archive only when present; a local crate does nothing. |
| Crates.GitCommit | src/crates/mod.rs:68-74 | Only a git crate has a commit. |
| Crates.CopySourceTo | src/crates/mod.rs:77-94 | An existing destination is removed first, and a removal failure stops the copy with that error. Otherwise the variant copies: a registry crate succeeds exactly when its archive unpacks, with the same error; a git crate reports the clone's outcome with the checkout context; a local crate succeeds exactly when every walked entry is copied, and otherwise fails with the first failing entry's error. |
| Crates.Describe | src/crates/mod.rs:97-101 | Display dispatches to the variant. It panics exactly for a crate of an alternative registry; every other crate gets the corrected display. |
| Registry.CachePath | src/crates/registry.rs:22-28 | The archive lives at `<cache>/<cache folder>/<name>/<name>-<version>.crate`, with the raw `<index>-sources` folder for an alternative registry. |
| Registry.CachePathInjective | src/crates/registry.rs:22-28 | Two crates of one registry share a cache path only when they are the same crate. |
| Registry.IndexFolder | src/crates/registry.rs:92-98 | Every unsafe character of the index URL becomes `-`; the others are kept, and the length is unchanged. |
| Registry.IndexFolderIsSafe | src/crates/registry.rs:92-98 | An index folder has no separator or other unsafe character. |
| Registry.IndexFolderIdempotent | src/crates/registry.rs:92-98 | Sanitising twice changes nothing more. |
| Registry.CacheFolderAsWrittenHasSeparators | src/crates/registry.rs:107-112 | As written, an `https://` index gives a cache folder containing `:` and `/`. |
| Registry.CacheFolderIsSafe | src/crates/registry.rs:107-112 | The corrected cache folder is always one safe directory name. |
| Registry.FetchUrl | src/crates/registry.rs:30-69 | crates.io uses the fixed static layout. An alternative registry clones its index when missing, and a failed clone is reported with the index. Then `config.json` is read and parsed, each failure reported as rustwide reports it, and the `dl` template gives the URL. |
| Registry.TemplateWithoutPlaceholders | src/crates/registry.rs:62-64 | A template without placeholders gets `/<name>/<version>/download` appended. |
| Registry.TemplateSubstitutes | src/crates/registry.rs:51-61 | `{crate}` and `{version}` are replaced by the name and version. |
| Registry.VersionPlaceholderSurvives | src/crates/registry.rs:51-61 | Replacing `{crate}` leaves a `{version}` placeholder intact. |
| Registry.Fetch | src/crates/registry.rs:129-149 | A cached archive is not downloaded again. Otherwise a directory-creation failure, then a URL failure, is reported. Once the URL is known, a failed download returns its error and a successful one is a download of that URL into the cache path. |
| Registry.PurgeFromCache | src/crates/registry.rs:151-157 | The archive is removed exactly when present, and the result is that removal's. |
| Registry.UnpackTarget | src/crates/registry.rs:205-208 | An entry is written under the destination with its first component dropped. |
| Registry.Unpack | src/crates/registry.rs:196-216 | Unpacking succeeds exactly when every entry reads and unpacks, each to its target, in order. |
| Registry.CopySourceTo | src/crates/registry.rs:159-181 | An open failure is an I/O error. A failed unpack is reported with the crate's name and version, and the destination is cleaned exactly then. |
| Registry.DisplayAsWrittenPanics | src/crates/registry.rs:114-119 | As written, displaying any alternative-registry crate panics. |
| Registry.Display | src/crates/registry.rs:184-194 | The total display agrees with rustwide wherever rustwide returns, and names the index for alternative registries. |
| Git.CachedPath | src/crates/git.rs:53-58 | The repository is cached at `<cache>/git-repos/<percent-encoded URL>`. |
| Git.CachedPathIsOneComponent | src/crates/git.rs:53-58 | The encoded directory name has no `/`, `\` or `:`. |
| Git.CachedPathInjective | src/crates/git.rs:53-58 | Two ASCII URLs without `%` are cached in different directories. |
| Git.SuppressPasswordPromptArgs | src/crates/git.rs:60-75 | The arguments clear the credential helpers and then set `git-credential-null` by its path. Backslashes become `/`, and nothing else changes. |
| Git.FetchCommand | src/crates/git.rs:92-112 | With a `HEAD` file the bare clone is updated in place; otherwise the URL is bare-cloned into the cache. In both cases the password-prompt arguments come first. |
| Git.FetchOutcome | src/crates/git.rs:79-119 | A fetch succeeds exactly when git does. On failure, a credential-helper quit line means `PrivateGitRepository`. Otherwise the error says update or clone, with the URL. |
| Git.PrivateOnlyOnFailure | src/crates/git.rs:114-118 | A private repository is reported only for a failed run that printed the marker. |
| Git.CopySourceCommand | src/crates/git.rs:121-128 | Copying clones the cached repository into the destination. |
| Git.CopySourceOutcome | src/crates/git.rs:121-128 | A failed clone is reported as failing to check out the URL. |
| Git.CommitCommand | src/crates/git.rs:31-35 | `git rev-parse HEAD` runs inside the cached repository. |
| Git.GitCommit | src/crates/git.rs:31-51 | There is a commit exactly when the run succeeds with a non-empty first stdout line, and it is that line. |
| Git.Display | src/crates/git.rs:131-135 | `git repo ` followed by the URL. |
| Local.Fetch | src/crates/local.rs:19-22 | Nothing to download; always succeeds. |
| Local.PurgeFromCache | src/crates/local.rs:24-27 | Nothing to purge; always succeeds. |
| Local.Describe | src/crates/local.rs:40-44 | `local crate ` followed by the path. |
| Local.RelativePath | src/crates/local.rs:50-59 | The relative path is the entry's components after as many as the source directory has, in order; a shorter path leaves nothing. |
| Local.RelativePathOfJoin | src/crates/local.rs:50-59 | Joining then taking the relative path gives the components back. |
| Local.ActionOf | src/crates/local.rs:67-71 | A directory is created, and a file copied, at the same relative place below the destination. |
| Local.CopyDir | src/crates/local.rs:46-74 | The copy succeeds exactly when every entry of the walk is skipped or handled. It performs the walk's actions in order. A failure stops at the first failing entry, after exactly the actions before it. |
| Local.SkipsOnlyTopLevelTarget | src/crates/local.rs:61-66 | An entry is skipped exactly when it is the top-level `target` directory or lies below it. |
| Local.ActionsAvoidTarget | src/crates/local.rs:61-66 | Nothing the copy writes lies at or below the destination's top-level `target`. |
| Local.ActionsCreateEveryDir | src/crates/local.rs:61-68 | Every directory outside the top-level `target` is created. |
| Local.ActionsCopyEveryFile | src/crates/local.rs:61-71 | Every file outside the top-level `target` is copied to the same relative place. |
| Toolchain.AsDist | src/toolchain.rs:238-244 | There is a dist name exactly for dist toolchains, and it rebuilds the toolchain. |
| Toolchain.AsCi | src/toolchain.rs:249-255 | There is a hash and alt flag exactly for CI toolchains, and they rebuild the toolchain. |
| Toolchain.IsNeededByRustwide | src/toolchain.rs:192-198 | Needed exactly when it is a dist toolchain whose name starts with `stable`. |
| Toolchain.NeededByRustwideExamples | src/toolchain.rs:181-191 | The documented examples: stable is needed, nightly is not. |
| Toolchain.RustupBinary | src/toolchain.rs:486-499 | A proxied binary has `+<rustup name>` as its only default argument. |
| Toolchain.ProxyArgumentsFirst | src/toolchain.rs:486-499 | A proxied command passes the toolchain selector before the caller's arguments. |
| Toolchain.InstallCommand | src/toolchain.rs:43-57 | A dist toolchain installs with `rustup toolchain install <name> --profile <profile>`. A CI toolchain installs with `rustup-toolchain-install-master <sha> -c cargo`, plus `--alt` for alt builds (lines 133-139). |
| Toolchain.Install | src/toolchain.rs:126-149 | Installation fails exactly when the run does, and the error names the toolchain and the installer: rustup for dist (lines 53-54), the install-master tool for CI. |
| Toolchain.UninstallCommand | src/toolchain.rs:396-398 | `rustup toolchain uninstall <rustup name>`. |
| Toolchain.Uninstall | src/toolchain.rs:395-402 | Uninstalling succeeds exactly when rustup does; a failure carries "unable to uninstall toolchain <rustup name> via rustup". |
| Toolchain.ChangeRustupThingCommand | src/toolchain.rs:321-343 | CI toolchains are refused with the "… on CI toolchains is not supported yet" message. A dist toolchain runs `rustup <thing> <action> --toolchain <name> <item>`. |
| Toolchain.ChangeRustupThing | src/toolchain.rs:306-352 | A CI toolchain is refused whatever rustup would do. For a dist toolchain the change succeeds exactly when rustup does, and a failure carries "unable to <action> <thing> <item> for toolchain <name> via rustup". |
| Toolchain.ChangeRustupThingDistinct | src/toolchain.rs:269-300 | The four public wrappers produce four different command lines. |
| Toolchain.NonEmptyLines | src/toolchain.rs:378-383 | The result is a subsequence of the lines with no empty line, and holds every non-empty line as many times as the input does. |
| Toolchain.NonEmptyLinesKeepsAll | src/toolchain.rs:378-383 | Every non-empty line survives the filter. |
| Toolchain.ListCommand | src/toolchain.rs:367-369 | `rustup <thing> list --installed --toolchain <name>`, with output not logged. |
| Toolchain.ListRustupThings | src/toolchain.rs:354-392 | CI toolchains are unsupported, and a success lists the non-empty stdout lines. A failure is `NotInstalled` when rustup said so, otherwise a context error. |
| Toolchain.ClassifyInstalled | src/toolchain.rs:514-525 | A dist entry keeps its name. Otherwise it is a CI toolchain, alt exactly when its name ends in `-alt`. |
| Toolchain.InstalledNameRoundTrip | src/toolchain.rs:469-525 | The directory name of an installed toolchain reads back as that toolchain, unless a non-alt hash itself ends in `-alt`. |
| Toolchain.AltSuffixIsAmbiguous | src/toolchain.rs:519-523 | A non-alt hash ending in `-alt` reads back as an alt build. |
| Toolchain.EntryToolchain | src/toolchain.rs:505-526 | Each directory-entry failure is reported as rustwide reports it. Otherwise a symlink or a name with a hash file is dist, and anything else is CI. |
| Toolchain.ListInstalled | src/toolchain.rs:501-529 | Listing succeeds exactly when every entry does, giving one toolchain per entry in directory order. |
| Toolchain.ListInstalledExample | src/toolchain.rs:564-620 | The unit test's directory gives a dist toolchain, a linked toolchain, and a CI toolchain with its alt build. |
| Tools.BinaryPath | src/tools/mod.rs:40-46 | A tool lives at `<normalised cargo home>/bin/<name><exe suffix>`. |
| Tools.BinaryPathIsProgram | src/tools/mod.rs:40-46 | The path a tool is looked for at is the program an unsandboxed command for it runs. |
| Tools.IsInstalled | src/tools/binary_crates.rs:41-48 | A missing file is not installed; otherwise the answer is whether it is executable. |
| Tools.InstallCommand | src/tools/binary_crates.rs:50-59 | `cargo +stable install <crate>`, plus `--debug` for fast installs, with no timeout. |
| Tools.Visit | src/tools/mod.rs:51-60 | An installed tool is updated; a missing one is installed and must then be present. Every failure is reported. |
| Tools.InstallAll | src/tools/mod.rs:49-65 | The tools are visited in order until the first failure, whose error is returned. |
| Tools.UpdatedIffInstalled | src/tools/mod.rs:51-60 | A tool the loop reaches is updated exactly when it was installed before. |
| Tools.AllPresentUpdatesInOrder | src/tools/mod.rs:27-65 | With every tool present, rustup, then the installer, then the credential helper are updated. |
| BinaryCrates.AsRunnable | src/tools/binary_crates.rs:20-33 | A crate with a cargo subcommand runs as `cargo <sub>`; otherwise it runs as its own binary. |
| BinaryCrates.CommandArguments | src/tools/binary_crates.rs:28-33 | The subcommand, if any, precedes the caller's arguments. |
| Utils.EscapePath | src/utils.rs:8-22 | The escaped name contains only safe characters and `%`. |
| Utils.EscapesByte | src/utils.rs:8-22 | An escaped byte becomes `%` and two upper-case hex digits that denote it. |
| Utils.KeepsPlainAscii | src/utils.rs:8-22 | Bytes outside the set are kept, one for one. |
| Utils.EscapeRoundTrip | src/utils.rs:20-22 | Decoding gives back any byte string without `%`. |
| Utils.FileLock | src/utils.rs:24-51 | An open failure stops before locking. A blocking-lock failure stops with its error. Contention is warned about once. Otherwise the closure runs, the file is unlocked, and the closure's result or panic is handed back. |
| Utils.StripVerbatimFromPrefix | src/utils.rs:56-68 | Verbatim prefixes lose `\\?\`, and a verbatim disk becomes `<drive>:\`. Non-verbatim prefixes give nothing, and a verbatim UNC prefix panics. |
| Utils.StripVerbatimExamples | src/utils.rs:172-192 | The Windows test cases. |
| Utils.RemoveErrorText | src/utils.rs:91-99 | The message is `failed to remove '<path>' : <debug of the error>`. |
| Utils.ImproveRemoveError | src/utils.rs:101-109 | The new error has the same kind and carries the original error and the path. |
| Utils.RemoveErrorExample | src/utils.rs:115-128 | The library's example message for `test/path`. |
| Utils.Remove | src/utils.rs:70-77 | A removal fails exactly when the filesystem call does, with the improved error. |
| Percent.DecodeEncode | src/crates/git.rs:10-20 | Decoding undoes the encoding of any byte string without `%`. |
| Percent.EncodeInjective | src/crates/git.rs:10-20 | Two `%`-free inputs never share an encoding. |
| Percent.EncodePlain | src/crates/git.rs:10-20 | Bytes outside the set pass through unchanged. |
| Percent.EncodeCollision | src/crates/git.rs:10-20 | With a literal `%` allowed, `a/b` and `a%2Fb` share an encoding, so injectivity needs the `%`-free premise. |
| Percent.Utf8Char | src/crates/git.rs:57 | A character is one byte exactly when it is ASCII, and that byte is its code; otherwise every byte is at least 0x80. |
| ModeBits.AddBits | src/native/unix.rs:62 | All expected bits are set and every other bit is kept. |
| ModeBits.AddBitsPresent | src/native/unix.rs:62 | Adding bits already present changes nothing. |
| NativeUnix.ExecutableModeFor | src/native/unix.rs:36-48 | The owner's read and execute bits (0o500) for the file's owner. Otherwise the group's (0o050) for its group, otherwise the others' (0o005). A metadata failure is an I/O error. |
| NativeUnix.IsExecutable | src/native/unix.rs:50-55 | Executable exactly when the mode holds every expected bit; either metadata failure is reported. |
| NativeUnix.MakeExecutable | src/native/unix.rs:57-67 | The new mode is the old one with the expected bits added, and the result is the permission call's. |
| NativeUnix.MakeThenIsExecutable | src/native/unix.rs:57-67 | After a successful `make_executable` the file is executable for the same user. |
| NativeUnix.MakeExecutablePreserves | src/native/unix.rs:62-63 | Bits outside the expected ones are kept, and an already-executable mode is unchanged. |
| NativeUnix.MakeExecutableIdempotent | src/native/unix.rs:62-63 | Doing it twice sets the same mode as once. |
| NativeUnix.FreshFileExample | src/native/unix.rs:99-110 | A fresh 0o644 file is not executable; after `make_executable` it has mode 0o744 and is. |
| NativeUnix.KillTarget | src/native/unix.rs:15 | The id cast to `i32`: ids of 2^31 and above wrap to negative. |
| NativeUnix.KillProcess | src/native/unix.rs:14-26 | It succeeds exactly when the kill does. A failure names the id, and carries the OS error number exactly for an OS error. |
| NativeUnix.GetCurrentUser | src/native/unix.rs:29-34 | Always the effective user and group ids. |
| NativeWindows.CurrentUser | src/native/windows.rs:28-30 | Windows has no user to report. |
| NativeWindows.KillProcess | src/native/windows.rs:9-26 | It succeeds exactly when the handle is valid and both calls succeed. Termination is attempted only with a valid handle, and the handle is closed only after a successful termination. |
| NativeWindows.ExtensionMeans | src/native/windows.rs:34 | The extension is what follows a non-leading dot with no dot after it, in both directions. |
| NativeWindows.PathEndsInExe | src/native/windows.rs:32-37 | A name without an extension is an error. Otherwise the answer is whether the extension is exactly `exe`. |
| NativeWindows.EndsInExeIffSuffix | src/native/windows.rs:32-37 | A file name counts as executable exactly when it ends in `.exe` with something before it. |
| NativeWindows.IsExecutable | src/native/windows.rs:40-45 | The file must open; then the answer is the name's extension check. |
| NativeWindows.MakeExecutable | src/native/windows.rs:47-53 | It succeeds exactly when the file is executable already. A non-executable file is the error "Downloaded binaries should be executable by default", and a check failure is passed on. |
| NativeWindows.MakeExecutableNeedsExe | src/native/windows.rs:47-53 | For a file that opens, success means exactly a name ending in `.exe`. |

## Left out

- Asynchronous execution (tokio), pipes and the interleaving of stdout and stderr are out of the model. A process's output is an input list of timed lines, and the timers are whole seconds.
- Every external program and its real behaviour is out: Docker, git, cargo, rustup and the rustup installer. Their outputs are inputs. So are the JSON of `docker inspect` and `docker manifest inspect`, and `inside_docker`'s probe of the current container.
- HTTP downloads, `git2` index cloning and tar/gzip decoding are out; the archive is a list of entry paths.
- Filesystem effects are inputs or parameters. `normalize_path`/`canonicalize` are an abstract `norm`, `WalkDir` is an input entry list, and `Path::exists` is a predicate.
- The system calls (`kill`, `geteuid`, `OpenProcess`, `TerminateProcess`, `CloseHandle`, permissions) are represented by their return values.
- NativeWindows.KillProcess: the handle that a failed `TerminateProcess` leaves open is only visible in the call trace; it is not modelled as a leak.
- The `cpu_limit` floating-point value is an opaque string argument.
- Logging (`info!`, `warn!`, `log_command`'s output logging) is out, except where a warning is part of the contract.
- lib.rs, the workspace builder and Cargo glue outside the core are out, as is the crate's own test harness.
- Per-line callbacks are modelled as stateless functions of the line; a closure that keeps state across lines is not modelled.
- Sandbox.PullReference: the layer sizes are summed as unbounded naturals, so the `usize` overflow of the sum in src/cmd/sandbox.rs:56 is not modelled.
- Crates.PurgeFromCache: the git variant's `purge_from_cache` is not part of this model, so its result is an input.
- Tools.Visit: an update's result is an input; the update commands are not modelled: the `CARGO_INSTALL_UPDATE` tool run with the crate name and no timeout (src/tools/binary_crates.rs:61-68), or, with the `unstable` feature, `cargo -Zinstall-upgrade install <crate>` on the main toolchain with `--debug` for fast installs (src/tools/binary_crates.rs:70-80), and `rustup update stable --no-self-update` for rustup (src/tools/rustup.rs:79-85).
- NativeWindows.FileName: a trailing `.` component, which `Path::file_name` also rejects, is not modelled; paths are component lists.
- `CommandError` has more variants in the model than this part of the library raises; the unused ones are harmless.
- src/cmd/actions.rs is not compiled into the library (no module declares it); it is modelled on its own and compared with the line-actions object in Actions.AgreesWithLineActions.
- CI toolchains are modelled with the `unstable-toolchain-ci` feature enabled, a superset of the default build.
- TomlTweaker.Tweak: its own contract states only the workspace removal; the full behaviour is in TweakKeys, TweakFrame, TweakThenPatch and TweakNoop.
- `Toml.Value` has no floating-point variant, so a manifest holding a float cannot be represented; the tweaker never reads or rewrites float values.
- Registry.CachePath: a joined string is one path component in the model, so the raw `<index>-sources` folder of an alternative registry, a crate name or a version holding `/` stays one component; its display is the path rustwide builds, but the directories it nests are not split out.
- Registry.CachePathInjective: holds for the component reading above; with rustwide's string join, name `a/a-b` at version `1` and name `a` at version `b/a/a-b-1` give the same archive path, so the property relies on crate names and versions holding no `/`, as registry names and semver versions never do.
- Build.BuildDirsDisjoint: requires both names to be plain components, because `builds_dir().join(name)` accepts any string and `foo/bar` nests inside `foo` while `..` leaves the builds directory; build names with separators are not modelled as nested paths.
- TomlTweaker.TestExistence: `dir.join(path)` with an absolute manifest path replaces `dir` in rustwide, while the model always appends; existence is an input function of the joined path, so no stated property depends on it.
- Cmd.RunInner: the container id passed to `docker start -a` is the first line `docker create` printed; the process run of `docker start -a` is an input like every other process.

## Findings

| source | as written | input that shows it | evidently intended | confidence | as-written member | corrected member |
|---|---|---|---|---|---|---|
| src/cmd/sandbox.rs:69 | The repository of a pinned image is `name.split(':').next()`, everything before the first `:` | `localhost:5000/img:v1` gives `localhost`, dropping the port and the image path | The name without its tag: the part before the last `:` that has no `/` after it, here `localhost:5000/img` | not executed | Sandbox.RepositoryAsWrittenDropsPort | Sandbox.RepositoryKeepsPort |
| src/crates/registry.rs:117 | `Registry::name` is `todo!()` for an alternative registry, so `Display for RegistryCrate` panics. The tweaker formats the crate unconditionally (src/prepare.rs:240), so preparing such a crate panics too. | any crate built with `Crate::registry(..)` | A display naming the registry, as for crates.io | not executed | Registry.DisplayAsWrittenPanics | Registry.Display |
| src/crates/registry.rs:110 | The cache folder of an alternative registry is the raw index URL plus `-sources` | index `https://example.com/index` gives a folder containing `:` and `/`, which nests directories below the cache | A single sanitised directory name, as `index_folder` already builds for the index | not executed | Registry.CacheFolderAsWrittenHasSeparators | Registry.CacheFolderIsSafe |

=== FILE: actions.dfy ===
/**
 * `Actions` (src/cmd/actions.rs), the earlier form of the line actions: it holds the pending lines
 * directly, seeded by `next_input` with the line just read. The file is not declared as a module of
 * the library, so nothing else uses it; it is modelled on its own and related to `LineActions`.
 */
module Actions {
  import LineActions

  datatype Actions = Actions(lines: seq<string>)

  /** `Actions::new`. */
  function New(): (a: Actions)
    ensures a.lines == []
  {
    Actions([])
  }

  /** `next_input`: the pending lines become exactly the input line. */
  function NextInput(a: Actions, input: string): (r: Actions)
    ensures r.lines == [input]
  {
    Actions([input])
  }

  /** `take_lines`: the pending lines, and the object left empty. */
  function TakeLines(a: Actions): (r: (seq<string>, Actions))
    ensures r.0 == a.lines
    ensures r.1.lines == []
  {
    (a.lines, Actions([]))
  }

  /** `replace_with_lines` / `remove_line`, as the same calls the line-actions object accepts. */
  function Perform(a: Actions, call: LineActions.Call): (r: Actions)
    ensures call.ReplaceWithLines? ==> r.lines == call.newLines
    ensures call.RemoveLine? ==> r.lines == []
  {
    match call
    case ReplaceWithLines(lines) => Actions(lines)
    case RemoveLine => Actions([])
  }

  function PerformAll(a: Actions, calls: seq<LineActions.Call>): Actions
    decreases |calls|
  {
    if |calls| == 0 then a else PerformAll(Perform(a, calls[0]), calls[1..])
  }

  /**
   * One line through this object (`next_input`, the callback's calls, `take_lines`) yields the
   * lines `log_command` records for the same calls through `ProcessLinesActions`.
   */
  lemma {:induction false} AgreesWithLineActions(a: Actions, la: LineActions.ProcessLinesActions, input: string,
                                                 calls: seq<LineActions.Call>)
    requires la.state == LineActions.Original
    ensures TakeLines(PerformAll(NextInput(a, input), calls)).0
         == LineActions.Recorded(LineActions.TakeLines(LineActions.PerformAll(la, calls)).0, input)
  {
    LineActions.LastCallWins(la, calls);
    LastCallDecides(NextInput(a, input), calls);
    if |calls| > 0 {
      match calls[|calls| - 1]
      case ReplaceWithLines(lines) =>
      case RemoveLine =>
    }
  }

  /** The last call decides the pending lines; with no call they stay as they were. */
  lemma {:induction false} LastCallDecides(a: Actions, calls: seq<LineActions.Call>)
    ensures |calls| == 0 ==> PerformAll(a, calls) == a
    ensures |calls| > 0 ==> PerformAll(a, calls) == Perform(a, calls[|calls| - 1])
    decreases |calls|
  {
    if |calls| > 1 {
      LastCallDecides(Perform(a, calls[0]), calls[1..]);
      assert calls[1..][|calls[1..]| - 1] == calls[|calls| - 1];
    }
  }

  /** With no action after `next_input`, taking returns the input line; a second take is empty. */
  lemma NoActionKeepsInput(a: Actions, input: string)
    ensures TakeLines(NextInput(a, input)).0 == [input]
    ensures TakeLines(TakeLines(NextInput(a, input)).1).0 == []
  {
  }
}

=== FILE: base.dfy ===
/**
 * Types shared by every part of the core: paths, the host platform, the workspace
 * configuration, the error taxonomy and the outcome of code that may panic.
 */
module Base {
  import opened Wrappers
  import Text

  /** The platform the library was compiled for (`cfg!(windows)`). */
  datatype Platform = Unix | Windows

  /** `std::env::consts::EXE_SUFFIX`. */
  function ExeSuffix(p: Platform): string {
    if p == Windows then ".exe" else ""
  }

  function Separator(p: Platform): string {
    if p == Windows then "\\" else "/"
  }

  /**
   * A path: a root ("" for a relative path, "/" or a drive such as "C:\\") and its
   * components. `PathBuf::join` with a relative component appends it.
   */
  datatype Path = Path(root: string, parts: seq<string>) {
    function Join(component: string): Path {
      Path(root, parts + [component])
    }

    function JoinAll(components: seq<string>): Path {
      Path(root, parts + components)
    }
  }

  /**
   * A string that `join` adds as exactly one component: non-empty, not `.` or `..`, and free of
   * either platform's separator.
   */
  predicate PlainComponent(s: string) {
    |s| > 0 && s != "." && s != ".." && '/' !in s && '\\' !in s
  }

  /** `Path::display` / `to_string_lossy` on the given platform. */
  function Display(p: Path, platform: Platform): string {
    p.root + Text.Join(p.parts, Separator(platform))
  }

  /** `Path::strip_prefix`: component-wise, the remaining components when `prefix` is a prefix of `p`. */
  function StripPrefix(p: Path, prefix: Path): (rest: Option<seq<string>>)
    ensures rest.Some? <==> p.root == prefix.root && |prefix.parts| <= |p.parts| && p.parts[..|prefix.parts|] == prefix.parts
    ensures rest.Some? ==> prefix.JoinAll(rest.value) == p
  {
    if p.root == prefix.root && |prefix.parts| <= |p.parts| && p.parts[..|prefix.parts|] == prefix.parts then
      assert prefix.parts + p.parts[|prefix.parts|..] == p.parts;
      Some(p.parts[|prefix.parts|..])
    else
      None
  }

  // The fixed directories inside the sandbox (`container_dirs` in src/cmd/mod.rs).

  function ContainerRootDir(p: Platform): Path {
    if p == Windows then Path("C:\\", ["rustwide"]) else Path("/", ["opt", "rustwide"])
  }

  function WorkDir(p: Platform): Path { ContainerRootDir(p).Join("workdir") }

  function ContainerTargetDir(p: Platform): Path { ContainerRootDir(p).Join("target") }

  function ContainerCargoHome(p: Platform): Path { ContainerRootDir(p).Join("cargo-home") }

  function ContainerRustupHome(p: Platform): Path { ContainerRootDir(p).Join("rustup-home") }

  function ContainerCargoBinDir(p: Platform): Path { ContainerCargoHome(p).Join("bin") }

  /** `MountKind`. */
  datatype MountKind = ReadWrite | ReadOnly

  /** `std::io::ErrorKind`, reduced to the kinds the core distinguishes. */
  datatype IoErrorKind = NotFound | PermissionDenied | AlreadyExists | WouldBlock | Other

  /** An `std::io::Error`: its kind and its `Debug` rendering. */
  datatype IoError = IoError(kind: IoErrorKind, debug: string)

  /** `std::process::ExitStatus`. */
  datatype ExitStatus = Exited(code: int) | Signaled(signal: nat) {
    predicate Success() {
      Exited? && code == 0
    }
  }

  /** `ProcessOutput`: the captured standard output and standard error lines. */
  datatype ProcessOutput = ProcessOutput(stdout: seq<string>, stderr: seq<string>)

  /** `SandboxImage`: the name of a Docker image that is known to be available. */
  datatype SandboxImage = SandboxImage(name: string)

  /** `KillFailedError`: the pid, and on Unix the OS error number when there is one. */
  datatype KillFailedError = KillFailedError(pid: nat, errno: Option<int>)

  /**
   * `CommandError`. This is a superset of the enum in src/cmd/mod.rs: src/cmd/sandbox.rs also
   * builds `SandboxImageTooLarge` and `InvalidDockerManifestInspectOutput`.
   */
  datatype CommandError =
    | NoOutputFor(seconds: nat)
    | Timeout(seconds: nat)
    | ExecutionFailed(status: ExitStatus, stderr: string)
    | KillAfterTimeoutFailed(kill: KillFailedError)
    | SandboxOOM
    | SandboxImagePullFailed(pullCause: CommandError)
    | SandboxImageMissing(missingCause: CommandError)
    | SandboxContainerCreate(createCause: CommandError)
    | WorkspaceNotMountedCorrectly
    | InvalidDockerInspectOutput(inspectMessage: string)
    | InvalidDockerManifestInspectOutput(manifestMessage: string)
    | SandboxImageTooLarge(size: nat)
    | IO(io: IoError)

  /** `PrepareError`. */
  datatype PrepareError = PrivateGitRepository | MissingCargoToml | InvalidCargoTomlSyntax | YankedDependencies

  /** `ToolchainError`. */
  datatype ToolchainError = NotInstalled | UnsupportedOperation

  /** The dynamic error type (`failure::Error` / `anyhow::Error`) returned by most operations. */
  datatype Error =
    | Command(command: CommandError)
    | Prepare(prepare: PrepareError)
    | Toolchain(toolchain: ToolchainError)
    | Io(io: IoError)
    | Message(text: string)
    | Context(context: string, cause: Error)

  /** How a piece of code ended: it returned a value, or it panicked (and unwound). */
  datatype Exit<+T> = Returned(value: T) | Panicked {

    predicate IsFailure() {
      Panicked?
    }

    function PropagateFailure<U>(): Exit<U>
      requires Panicked?
    {
      Panicked
    }

    function Extract(): T
      requires Returned?
    {
      value
    }
  }

  /** `CratePatch` (src/build.rs): a `[patch.crates-io]` entry pointing a crate at a git branch. */
  datatype CratePatch = CratePatch(name: string, uri: string, branch: string)

  /** A bind mount of the container rustwide itself runs in (`inside_docker::Mount`). */
  datatype ContainerMount = ContainerMount(source: Path, destination: Path)

  /** The parts of a `Workspace` the core reads. */
  datatype Workspace = Workspace(
    platform: Platform,
    cacheDir: Path,
    buildsDir: Path,
    cargoHome: Path,
    rustupHome: Path,
    defaultTimeout: Option<nat>,
    defaultNoOutputTimeout: Option<nat>,
    sandboxImage: string,
    currentContainer: Option<seq<ContainerMount>>,
    fetchRegistryIndexDuringBuilds: bool,
    rustupProfile: string)
}

=== FILE: binary_crates.dfy ===
/**
 * Tools installed with `cargo install` (src/tools/binary_crates.rs), the crates the library
 * installs (src/tools/mod.rs) and the runnable for rustup itself.
 */
module BinaryCrates {
  import opened Wrappers
  import Cmd
  import Base

  /** `BinaryCrate`: the crate to install, the binary it provides, and an optional cargo subcommand. */
  datatype BinaryCrate = BinaryCrate(crateName: string, binary: string, cargoSubcommand: Option<string>)

  /** `RUSTUP_TOOLCHAIN_INSTALL_MASTER`. */
  const InstallMaster := BinaryCrate("rustup-toolchain-install-master", "rustup-toolchain-install-master", None)

  /** `GIT_CREDENTIAL_NULL`. */
  const GitCredentialNull := BinaryCrate("git-credential-null", "git-credential-null", None)

  /** `RUSTUP` as a runnable: the managed `rustup` binary, no extra arguments. */
  const Rustup := Cmd.Runnable(Cmd.ManagedByRustwide("rustup"), [])

  /**
   * `impl Runnable for BinaryCrate`: a crate with a cargo subcommand runs as `cargo <subcommand>`,
   * any other runs its own binary with nothing prepended.
   */
  function AsRunnable(c: BinaryCrate): (r: Cmd.Runnable)
    ensures c.cargoSubcommand.Some? ==>
      r.name == Cmd.ManagedByRustwide("cargo") && r.defaultArgs == [c.cargoSubcommand.value]
    ensures c.cargoSubcommand.None? ==>
      r.name == Cmd.ManagedByRustwide(c.binary) && r.defaultArgs == []
  {
    match c.cargoSubcommand
    case Some(sub) => Cmd.Runnable(Cmd.ManagedByRustwide("cargo"), [sub])
    case None => Cmd.Runnable(Cmd.ManagedByRustwide(c.binary), [])
  }

  /**
   * A command built for a binary crate and then given `args` starts with the subcommand, if any,
   * followed by `args`.
   */
  lemma CommandArguments(ws: Base.Workspace, c: BinaryCrate, args: seq<string>)
    ensures Cmd.Args(Cmd.New(ws, AsRunnable(c)), args).args
         == (if c.cargoSubcommand.Some? then [c.cargoSubcommand.value] else []) + args
  {
  }
}

=== FILE: build.dfy ===
/**
 * Build directories (src/build.rs): where a build keeps its source and target directories, the
 * order in which `run` prepares the source, runs the caller's closure and cleans up, purging, and
 * the commands a running build spawns. The file system's answers, `prepare`'s world and the
 * closure's outcome are inputs.
 */
module Build {
  import opened Wrappers
  import opened Base
  import Cmd
  import Sandbox
  import Toolchain
  import Crates
  import Prepare

  /** `BuildDirectory`. */
  datatype BuildDirectory = BuildDirectory(workspace: Workspace, name: string, purgeOnDrop: bool)

  /** `BuildDirectory::new`: purging on drop is off. */
  function New(ws: Workspace, name: string): (d: BuildDirectory)
    ensures d.workspace == ws && d.name == name && !d.purgeOnDrop
  {
    BuildDirectory(ws, name, false)
  }

  /** `build_dir`: `<builds>/<name>`. */
  function BuildDir(d: BuildDirectory): (p: Path)
    ensures p.root == d.workspace.buildsDir.root && p.parts == d.workspace.buildsDir.parts + [d.name]
  {
    d.workspace.buildsDir.Join(d.name)
  }

  /** `source_dir`: `<builds>/<name>/source`. */
  function SourceDir(d: BuildDirectory): (p: Path)
    ensures p.root == d.workspace.buildsDir.root && p.parts == d.workspace.buildsDir.parts + [d.name, "source"]
  {
    BuildDir(d).Join("source")
  }

  /** `target_dir`: `<builds>/<name>/target`. */
  function TargetDir(d: BuildDirectory): (p: Path)
    ensures p.root == d.workspace.buildsDir.root && p.parts == d.workspace.buildsDir.parts + [d.name, "target"]
  {
    BuildDir(d).Join("target")
  }

  /** The source and target directories are distinct, and both lie directly inside the build directory. */
  lemma BuildLayout(d: BuildDirectory)
    ensures SourceDir(d) != TargetDir(d)
    ensures StripPrefix(SourceDir(d), BuildDir(d)) == Some(["source"])
    ensures StripPrefix(TargetDir(d), BuildDir(d)) == Some(["target"])
  {
    assert SourceDir(d).parts[|BuildDir(d).parts|] == "source";
    assert TargetDir(d).parts[|BuildDir(d).parts|] == "target";
  }

  /**
   * Different build directory names in one workspace never share a directory, provided each name
   * is one plain component: `join` would nest `foo/bar` inside `foo` and lift `..` out of `builds`.
   */
  lemma BuildDirsDisjoint(ws: Workspace, a: string, b: string)
    requires PlainComponent(a) && PlainComponent(b)
    requires a != b
    ensures StripPrefix(BuildDir(New(ws, a)), BuildDir(New(ws, b))).None?
    ensures StripPrefix(BuildDir(New(ws, b)), BuildDir(New(ws, a))).None?
  {
    var n := |ws.buildsDir.parts|;
    assert BuildDir(New(ws, a)).parts[n] == a;
    assert BuildDir(New(ws, b)).parts[n] == b;
  }

  /** `purge_on_drop`. */
  function PurgeOnDrop(d: BuildDirectory, yes: bool): (r: BuildDirectory)
    ensures r.purgeOnDrop == yes && r.workspace == d.workspace && r.name == d.name
  {
    d.(purgeOnDrop := yes)
  }

  /** What purging did: whether it tried to remove the build directory, and the result. */
  datatype Purged = Purged(removed: bool, result: Result<(), Error>)

  /** `purge`: nothing when the build directory is absent; otherwise its removal. */
  function Purge(d: BuildDirectory, present: bool, remove: Path -> Result<(), Error>): (r: Purged)
    ensures r.removed <==> present
    ensures !present ==> r.result.Ok?
    ensures present ==> r.result == remove(BuildDir(d))
  {
    if present then Purged(true, remove(BuildDir(d))) else Purged(false, Ok(()))
  }

  /** What dropping a build directory did: whether it tried to remove it, and the error it logged. */
  datatype Dropped = Dropped(removed: bool, logged: Option<Error>)

  /** `Drop for BuildDirectory`: purge only when asked to; a failure is logged, never raised. */
  function Drop(d: BuildDirectory, present: bool, remove: Path -> Result<(), Error>): (r: Dropped)
    ensures r.removed <==> d.purgeOnDrop && present
    ensures r.logged.Some? <==> d.purgeOnDrop && present && remove(BuildDir(d)).Err?
    ensures r.logged.Some? ==> r.logged.value == remove(BuildDir(d)).error
  {
    if !d.purgeOnDrop then Dropped(false, None)
    else
      var p := Purge(d, present, remove);
      Dropped(p.removed, if p.result.Err? then Some(p.result.error) else None)
  }

  /** A fresh build directory is left alone when dropped; asking for a purge on drop removes it. */
  lemma DropPurgesOnlyWhenAsked(ws: Workspace, name: string, present: bool, remove: Path -> Result<(), Error>)
    ensures !Drop(New(ws, name), present, remove).removed
    ensures Drop(PurgeOnDrop(New(ws, name), true), present, remove).removed <==> present
  {
  }

  /** `BuildBuilder`. */
  datatype BuildBuilder = BuildBuilder(
    dir: BuildDirectory,
    toolchain: Toolchain.Toolchain,
    krate: Crates.Crate,
    sandbox: Sandbox.SandboxBuilder,
    patches: seq<CratePatch>)

  /** `BuildDirectory::build`: no patches yet. */
  function Builder(d: BuildDirectory, t: Toolchain.Toolchain, k: Crates.Crate, sb: Sandbox.SandboxBuilder): (b: BuildBuilder)
    ensures b.patches == [] && b.dir == d && b.toolchain == t && b.krate == k && b.sandbox == sb
  {
    BuildBuilder(d, t, k, sb, [])
  }

  /** `patch_with_git`: appends one patch. */
  function PatchWithGit(b: BuildBuilder, name: string, uri: string, branch: string): BuildBuilder {
    b.(patches := b.patches + [CratePatch(name, uri, branch)])
  }

  /** `patch_with_git` called once per element, in order. */
  function PatchAll(b: BuildBuilder, patches: seq<CratePatch>): BuildBuilder
    decreases |patches|
  {
    if |patches| == 0 then b
    else PatchAll(PatchWithGit(b, patches[0].name, patches[0].uri, patches[0].branch), patches[1..])
  }

  /** A chain of `patch_with_git` calls records the patches in call order, after any earlier ones, and changes nothing else. */
  lemma {:induction false} PatchesInCallOrder(b: BuildBuilder, patches: seq<CratePatch>)
    ensures PatchAll(b, patches).patches == b.patches + patches
    ensures PatchAll(b, patches) == b.(patches := b.patches + patches)
    decreases |patches|
  {
    if |patches| > 0 {
      var p := patches[0];
      PatchesInCallOrder(PatchWithGit(b, p.name, p.uri, p.branch), patches[1..]);
      assert b.patches + [p] + patches[1..] == b.patches + patches;
    }
  }

  /** A step of `BuildDirectory::run`. */
  datatype Step = RemoveStaleSource | RunPrepare | CreateTargetDir | RunClosure | RemoveSource

  /** Every step `run` may take, in order. */
  function AllSteps(sourceExists: bool): seq<Step> {
    (if sourceExists then [RemoveStaleSource] else []) + [RunPrepare, CreateTargetDir, RunClosure, RemoveSource]
  }

  /** How the outside world answers `run`. */
  datatype RunEnv<R> = RunEnv(
    sourceExists: bool,
    removeStale: Result<(), Error>,
    prepare: Prepare.Env,
    createTarget: Result<(), IoError>,
    closure: Exit<Result<R, Error>>,
    removeSource: Result<(), Error>)

  /** The outcome of `prepare` for this build: its source directory, crate and patches. */
  function PrepareOutcome<R>(b: BuildBuilder, env: RunEnv<R>): Exit<Result<(), Error>> {
    match Prepare.RunPrepare(env.prepare, SourceDir(b.dir), b.krate, b.patches)
    case Panicked => Panicked
    case Returned((_, res)) => Returned(res)
  }

  /** What `run` did: the steps it took, in order, and how it ended. */
  datatype BuildRun<R> = BuildRun(steps: seq<Step>, outcome: Exit<Result<R, Error>>)

  /**
   * The steps of `run` once the outcome of `prepare` is known: each step runs only when every step
   * before it succeeded, and the first failure or panic is the outcome.
   */
  function Sequence<R>(sourceExists: bool, removeStale: Result<(), Error>, prepared: Exit<Result<(), Error>>,
                       createTarget: Result<(), IoError>, closure: Exit<Result<R, Error>>,
                       removeSource: Result<(), Error>): (r: BuildRun<R>)
    ensures 0 < |r.steps| <= |AllSteps(sourceExists)| && r.steps == AllSteps(sourceExists)[..|r.steps|]
    ensures RunClosure in r.steps <==>
      (!sourceExists || removeStale.Ok?) && prepared.Returned? && prepared.value.Ok? && createTarget.Ok?
    ensures RemoveSource in r.steps <==> RunClosure in r.steps && closure.Returned? && closure.value.Ok?
    ensures RemoveSource in r.steps ==> (r.outcome.Returned? && r.outcome.value.Ok? <==> removeSource.Ok?)
    ensures r.outcome.Returned? && r.outcome.value.Ok? ==>
      RemoveSource in r.steps && r.outcome.value.value == closure.value.value
    ensures r.outcome.Panicked? <==>
      (!sourceExists || removeStale.Ok?)
      && (prepared.Panicked? || (prepared.Returned? && prepared.value.Ok? && createTarget.Ok? && closure.Panicked?))
  {
    var first := if sourceExists then [RemoveStaleSource] else [];
    var all := AllSteps(sourceExists);
    assert all == first + [RunPrepare, CreateTargetDir, RunClosure, RemoveSource];
    var upToPrepare := first + [RunPrepare];
    var upToCreate := first + [RunPrepare, CreateTargetDir];
    var upToClosure := first + [RunPrepare, CreateTargetDir, RunClosure];
    assert RunClosure !in upToCreate && RemoveSource !in upToClosure;
    assert RunClosure in upToClosure && RemoveSource in all;
    assert upToPrepare == all[..|upToPrepare|] && upToCreate == all[..|upToCreate|] && upToClosure == all[..|upToClosure|];
    if sourceExists && removeStale.Err? then
      BuildRun(first, Returned(Err(removeStale.error)))
    else if prepared.Panicked? then BuildRun(upToPrepare, Panicked)
    else if prepared.value.Err? then BuildRun(upToPrepare, Returned(Err(prepared.value.error)))
    else if createTarget.Err? then BuildRun(upToCreate, Returned(Err(Io(createTarget.error))))
    else if closure.Panicked? then BuildRun(upToClosure, Panicked)
    else if closure.value.Err? then BuildRun(upToClosure, Returned(Err(closure.value.error)))
    else if removeSource.Err? then BuildRun(all, Returned(Err(removeSource.error)))
    else BuildRun(all, Returned(Ok(closure.value.value)))
  }

  /**
   * `BuildBuilder::run`, which hands the builder's toolchain, crate, sandbox and patches to
   * `BuildDirectory::run`: remove a stale source directory, prepare the source, create the target
   * directory, run the closure, remove the source. A crate whose display panics never gets as far
   * as the closure.
   */
  function Run<R>(b: BuildBuilder, env: RunEnv<R>): (r: BuildRun<R>)
    ensures 0 < |r.steps| <= |AllSteps(env.sourceExists)| && r.steps == AllSteps(env.sourceExists)[..|r.steps|]
    ensures RunClosure in r.steps <==>
      (!env.sourceExists || env.removeStale.Ok?) && PrepareOutcome(b, env) == Returned(Ok(())) && env.createTarget.Ok?
    ensures r.outcome.Returned? && r.outcome.value.Ok? ==>
      RemoveSource in r.steps && env.closure == Returned(Ok(r.outcome.value.value)) && env.removeSource.Ok?
    ensures r.outcome.Panicked? <==>
      (!env.sourceExists || env.removeStale.Ok?)
      && (PrepareOutcome(b, env).Panicked? || (PrepareOutcome(b, env).Returned? && PrepareOutcome(b, env).value.Ok?
                                               && env.createTarget.Ok? && env.closure.Panicked?))
    ensures Crates.DisplayPanics(b.krate) ==> RunClosure !in r.steps
  {
    var prepared := PrepareOutcome(b, env);
    assert prepared.Returned? && prepared.value.Ok? <==> prepared == Returned(Ok(()));
    Sequence(env.sourceExists, env.removeStale, prepared, env.createTarget, env.closure, env.removeSource)
  }

  /** `Build`: the handle the closure gets. */
  datatype BuildHandle = BuildHandle(dir: BuildDirectory, toolchain: Toolchain.Toolchain, sandbox: Sandbox.SandboxBuilder)

  /**
   * `Build::cmd`: a sandboxed command whose sandbox also mounts the target directory read-write at
   * the container's target directory, run inside the source directory, with `CARGO_TARGET_DIR`
   * pointing at the mount.
   */
  function Command(b: BuildHandle, r: Cmd.Runnable): (c: Cmd.Command)
    ensures var p := b.dir.workspace.platform;
      && c.sandbox == Some(b.sandbox.(mounts := b.sandbox.mounts + [Sandbox.MountConfig(TargetDir(b.dir), ContainerTargetDir(p), ReadWrite)]))
      && c.workspace == Some(b.dir.workspace)
      && c.cd == Some(SourceDir(b.dir))
      && c.env == [("CARGO_TARGET_DIR", Display(ContainerTargetDir(p), p))]
      && c.binary == r.name && c.args == r.defaultArgs
  {
    var ws := b.dir.workspace;
    var p := ws.platform;
    var sb := Sandbox.Mount(b.sandbox, TargetDir(b.dir), ContainerTargetDir(p), ReadWrite);
    Cmd.Env(Cmd.Cd(Cmd.NewSandboxed(ws, sb, r), SourceDir(b.dir)), "CARGO_TARGET_DIR", Display(ContainerTargetDir(p), p))
  }

  /** `Build::cargo`: the build toolchain's cargo. */
  function Cargo(b: BuildHandle): (c: Cmd.Command)
    ensures c == Command(b, Toolchain.Cargo(b.toolchain))
    ensures c.binary == Cmd.ManagedByRustwide("cargo") && |c.args| == 1 && c.args[0][1..] == Toolchain.RustupName(b.toolchain)
  {
    Command(b, Toolchain.Cargo(b.toolchain))
  }

  /**
   * What a build command's container sees: after `run_inner` configures the sandbox, the build's
   * target directory is mounted read-write, then its source directory read-only at the work
   * directory, then cargo home and rustup home; and `CARGO_TARGET_DIR` names the target mount.
   */
  lemma BuildCommandMounts(b: BuildHandle, r: Cmd.Runnable, currentUser: Option<(nat, nat)>)
    requires b.sandbox.mounts == []
    ensures var ws := b.dir.workspace;
      var p := ws.platform;
      var c := Command(b, r);
      var sb := Cmd.ConfigureSandbox(c.sandbox.value, ws, c, currentUser);
      && sb.mounts == [Sandbox.MountConfig(TargetDir(b.dir), ContainerTargetDir(p), ReadWrite),
                       Sandbox.MountConfig(SourceDir(b.dir), WorkDir(p), ReadOnly),
                       Sandbox.MountConfig(ws.cargoHome, ContainerCargoHome(p), ReadOnly),
                       Sandbox.MountConfig(ws.rustupHome, ContainerRustupHome(p), ReadOnly)]
      && ("CARGO_TARGET_DIR", Display(ContainerTargetDir(p), p)) in sb.env
  {
    var ws := b.dir.workspace;
    var p := ws.platform;
    var c := Command(b, r);
    var target := Sandbox.MountConfig(TargetDir(b.dir), ContainerTargetDir(p), ReadWrite);
    var cargoTarget := ("CARGO_TARGET_DIR", Display(ContainerTargetDir(p), p));
    assert c.sandbox.value.mounts == [target];
    assert c.env == [cargoTarget];
    assert Cmd.SourceDir(c) == SourceDir(b.dir);
    assert c.cargoHomeMountKind == ReadOnly;
    var sb := Cmd.ConfigureSandbox(c.sandbox.value, ws, c, currentUser);
    var env := c.sandbox.value.env + [("SOURCE_DIR", Display(WorkDir(p), p))] + c.env;
    assert env[|env| - 1] == cargoTarget;
    assert sb.env[|env| - 1] == cargoTarget;
  }

  /**
   * `host_source_dir` and `host_target_dir`: two different directories directly inside the build
   * directory, the `source` and `target` children the build's commands mount.
   */
  function HostDirs(b: BuildHandle): (r: (Path, Path))
    ensures r.0 != r.1
    ensures StripPrefix(r.0, BuildDir(b.dir)) == Some(["source"])
    ensures StripPrefix(r.1, BuildDir(b.dir)) == Some(["target"])
  {
    BuildLayout(b.dir);
    (SourceDir(b.dir), TargetDir(b.dir))
  }
}

=== FILE: command.dfy ===
/**
 * The command engine (src/cmd/mod.rs): the `Command` builder, the per-line fold of `log_command`
 * with its timeouts, the classification of how a process ended, and what `run_inner` hands to the
 * host or to the sandbox. Processes, timers and the kill syscall are inputs: the stream of output
 * events, the elapsed seconds at each line, how waiting ended, and whether each kill succeeded.
 */
module Cmd {
  import opened Wrappers
  import opened Text
  import opened Base
  import LineActions
  import Sandbox
  import Seqs

  /** `Binary`. */
  datatype Binary = Global(path: string) | ManagedByRustwide(name: string)

  /**
   * A `Runnable`: its binary and the arguments its `prepare_command` appends (every runnable of the
   * library only appends arguments; `&str` and `String` append none).
   */
  datatype Runnable = Runnable(name: Binary, defaultArgs: seq<string>)

  /** A `Runnable` for a plain program name (`impl Runnable for &str`). */
  function Program(name: string): (r: Runnable)
    ensures r.name == Global(name) && r.defaultArgs == []
  {
    Runnable(Global(name), [])
  }

  /** `Command`, without the line callback, which is passed to the run separately. */
  datatype Command = Command(
    workspace: Option<Workspace>,
    sandbox: Option<Sandbox.SandboxBuilder>,
    binary: Binary,
    args: seq<string>,
    env: seq<(string, string)>,
    cd: Option<Path>,
    timeout: Option<nat>,
    noOutputTimeout: Option<nat>,
    logOutput: bool,
    logCommand: bool,
    cargoHomeMountKind: MountKind)

  /** `new_inner`: the workspace's default timeouts when there is a workspace, none otherwise. */
  function NewInner(binary: Binary, workspace: Option<Workspace>, sandbox: Option<Sandbox.SandboxBuilder>): (c: Command)
    ensures workspace.None? ==> c.timeout.None? && c.noOutputTimeout.None?
    ensures workspace.Some? ==>
      c.timeout == workspace.value.defaultTimeout && c.noOutputTimeout == workspace.value.defaultNoOutputTimeout
    ensures c.args == [] && c.env == [] && c.cd.None?
    ensures c.logOutput && c.logCommand && c.cargoHomeMountKind == ReadOnly
    ensures c.binary == binary && c.workspace == workspace && c.sandbox == sandbox
  {
    var (timeout, noOutputTimeout) :=
      if workspace.Some? then (workspace.value.defaultTimeout, workspace.value.defaultNoOutputTimeout) else (None, None);
    Command.Command(workspace, sandbox, binary, [], [], None, timeout, noOutputTimeout, true, true, ReadOnly)
  }

  /** `Command::args`: appends, in order. */
  function Args(c: Command, args: seq<string>): Command {
    c.(args := c.args + args)
  }

  /** `Command::env`: appends one variable. */
  function Env(c: Command, key: string, value: string): Command {
    c.(env := c.env + [(key, value)])
  }

  function Cd(c: Command, path: Path): Command {
    c.(cd := Some(path))
  }

  function WithTimeout(c: Command, timeout: Option<nat>): Command {
    c.(timeout := timeout)
  }

  function WithNoOutputTimeout(c: Command, timeout: Option<nat>): Command {
    c.(noOutputTimeout := timeout)
  }

  function RwCargoHome(c: Command): Command {
    c.(cargoHomeMountKind := ReadWrite)
  }

  function WithLogOutput(c: Command, logOutput: bool): Command {
    c.(logOutput := logOutput)
  }

  function WithLogCommand(c: Command, logCommand: bool): Command {
    c.(logCommand := logCommand)
  }

  /**
   * `Command::new`: `new_inner` with the workspace, then the runnable's `prepare_command`, which
   * only adds the runnable's own arguments.
   */
  function New(ws: Workspace, r: Runnable): (c: Command)
    ensures c.binary == r.name && c.args == r.defaultArgs && c.env == []
    ensures c.workspace == Some(ws) && c.sandbox.None?
    ensures c.timeout == ws.defaultTimeout && c.noOutputTimeout == ws.defaultNoOutputTimeout
  {
    Args(NewInner(r.name, Some(ws), None), r.defaultArgs)
  }

  /** `Command::new_sandboxed`: as `new`, with the sandbox kept for the run. */
  function NewSandboxed(ws: Workspace, sandbox: Sandbox.SandboxBuilder, r: Runnable): (c: Command)
    ensures c.binary == r.name && c.args == r.defaultArgs && c.env == []
    ensures c.workspace == Some(ws) && c.sandbox == Some(sandbox)
    ensures c.timeout == ws.defaultTimeout && c.noOutputTimeout == ws.defaultNoOutputTimeout
  {
    Args(NewInner(r.name, Some(ws), Some(sandbox)), r.defaultArgs)
  }

  /** `Command::new_workspaceless`: no workspace, so no timeouts. */
  function NewWorkspaceless(r: Runnable): (c: Command)
    ensures c.binary == r.name && c.args == r.defaultArgs && c.env == []
    ensures c.workspace.None? && c.sandbox.None? && c.timeout.None? && c.noOutputTimeout.None?
  {
    Args(NewInner(r.name, None, None), r.defaultArgs)
  }

  /** A builder call, for stating what a chain of them does. */
  datatype Setter =
    | AddArgs(added: seq<string>)
    | AddEnv(key: string, value: string)
    | SetTimeout(timeout: Option<nat>)

  function Apply(c: Command, s: Setter): Command {
    match s
    case AddArgs(a) => Args(c, a)
    case AddEnv(k, v) => Env(c, k, v)
    case SetTimeout(t) => WithTimeout(c, t)
  }

  function ApplyAll(c: Command, setters: seq<Setter>): Command
    decreases |setters|
  {
    if |setters| == 0 then c else ApplyAll(Apply(c, setters[0]), setters[1..])
  }

  /** The arguments a chain of calls adds, in call order. */
  function AddedArgs(setters: seq<Setter>): seq<string>
    decreases |setters|
  {
    if |setters| == 0 then []
    else (if setters[0].AddArgs? then setters[0].added else []) + AddedArgs(setters[1..])
  }

  /** The variables a chain of calls adds, in call order. */
  function AddedEnv(setters: seq<Setter>): seq<(string, string)>
    decreases |setters|
  {
    if |setters| == 0 then []
    else (if setters[0].AddEnv? then [(setters[0].key, setters[0].value)] else []) + AddedEnv(setters[1..])
  }

  /** `args` and `env` accumulate across calls in call order; the other settings are untouched. */
  lemma {:induction false} BuilderAccumulates(c: Command, setters: seq<Setter>)
    ensures ApplyAll(c, setters).args == c.args + AddedArgs(setters)
    ensures ApplyAll(c, setters).env == c.env + AddedEnv(setters)
    ensures ApplyAll(c, setters).binary == c.binary && ApplyAll(c, setters).cd == c.cd
    decreases |setters|
  {
    if |setters| > 0 {
      BuilderAccumulates(Apply(c, setters[0]), setters[1..]);
      assert c.args + AddedArgs(setters)
          == c.args + (if setters[0].AddArgs? then setters[0].added else []) + AddedArgs(setters[1..]);
      assert c.env + AddedEnv(setters)
          == c.env + (if setters[0].AddEnv? then [(setters[0].key, setters[0].value)] else []) + AddedEnv(setters[1..]);
    }
  }

  // ---------------------------------------------------------------------------------------
  // `log_command`
  // ---------------------------------------------------------------------------------------

  /** The timeout used when none is set: one week, in seconds. */
  const DisabledTimeout: nat := 7 * 24 * 60 * 60

  /** The total and the no-output timeout `log_command` enforces. */
  function EffectiveTimeouts(timeout: Option<nat>, noOutputTimeout: Option<nat>): (r: (nat, nat))
    ensures timeout.None? ==> r.0 == 604800
    ensures timeout.Some? ==> r.0 == timeout.value
    ensures noOutputTimeout.None? ==> r.1 == r.0
    ensures noOutputTimeout.Some? ==> r.1 == noOutputTimeout.value
  {
    var total := if timeout.Some? then timeout.value else DisabledTimeout;
    (total, if noOutputTimeout.Some? then noOutputTimeout.value else total)
  }

  datatype OutputKind = Stdout | Stderr

  /**
   * One item of the merged output stream: a line (with the seconds elapsed since the start when it
   * was read), a read error, or the no-output timer firing.
   */
  datatype StreamItem =
    | Line(kind: OutputKind, text: string, elapsed: nat)
    | ReadError(io: IoError)
    | Silence

  /** The error of a timer that fired: the timeout when the kill worked, the kill failure otherwise. */
  function KilledError(expired: CommandError, kill: Option<KillFailedError>): (r: CommandError)
    ensures kill.None? ==> r == expired
    ensures kill.Some? ==> r == KillAfterTimeoutFailed(kill.value)
  {
    if kill.Some? then KillAfterTimeoutFailed(kill.value) else expired
  }

  /** The lines one output line turns into once the callback (`calls`) has run on it. */
  function LinesFor(text: string, calls: string -> seq<LineActions.Call>): seq<string> {
    LineActions.Recorded(LineActions.TakeLines(LineActions.PerformAll(LineActions.New(), calls(text))).0, text)
  }

  /**
   * The fold over the output stream: a line read after the total timeout is `Timeout`; otherwise
   * the callback runs, the actions decide the recorded lines, and with `capture` they are appended
   * to the list of their stream. The first error ends the fold.
   */
  function FoldOutput(items: seq<StreamItem>, calls: string -> seq<LineActions.Call>, capture: bool,
                      timeout: nat, noOutputTimeout: nat, kill: Option<KillFailedError>,
                      actions: LineActions.ProcessLinesActions, acc: ProcessOutput): (r: Result<ProcessOutput, CommandError>)
    decreases |items|
  {
    if |items| == 0 then Ok(acc)
    else
      match items[0]
      case Silence => Err(KilledError(NoOutputFor(noOutputTimeout), kill))
      case ReadError(e) => Err(IO(e))
      case Line(kind, text, elapsed) =>
        if elapsed > timeout then Err(Timeout(timeout))
        else
          var (state, reset) := LineActions.TakeLines(LineActions.PerformAll(actions, calls(text)));
          var lines := LineActions.Recorded(state, text);
          var acc' :=
            if !capture then acc
            else if kind == Stdout then acc.(stdout := acc.stdout + lines)
            else acc.(stderr := acc.stderr + lines);
          FoldOutput(items[1..], calls, capture, timeout, noOutputTimeout, kill, reset, acc')
  }

  /** The recorded lines of one stream, as a plain filter over the items (the reference for the fold). */
  function StreamLines(items: seq<StreamItem>, kind: OutputKind, calls: string -> seq<LineActions.Call>): seq<string>
    decreases |items|
  {
    if |items| == 0 then []
    else (if items[0].Line? && items[0].kind == kind then LinesFor(items[0].text, calls) else [])
         + StreamLines(items[1..], kind, calls)
  }

  /** The first `k` items are lines read within the total timeout. */
  predicate InTimeBefore(items: seq<StreamItem>, k: nat, timeout: nat)
    requires k <= |items|
  {
    forall i | 0 <= i < k :: items[i].Line? && items[i].elapsed <= timeout
  }

  /** Every item is a line read within the total timeout. */
  predicate AllInTime(items: seq<StreamItem>, timeout: nat) {
    InTimeBefore(items, |items|, timeout)
  }

  /**
   * When every item is a line read in time, the fold succeeds; with `capture` each list holds the
   * recorded lines of its own stream in order, without it both lists stay empty.
   */
  lemma {:induction false} FoldCaptures(items: seq<StreamItem>, calls: string -> seq<LineActions.Call>, capture: bool,
                                        timeout: nat, noOutputTimeout: nat, kill: Option<KillFailedError>, acc: ProcessOutput)
    requires AllInTime(items, timeout)
    ensures var r := FoldOutput(items, calls, capture, timeout, noOutputTimeout, kill, LineActions.New(), acc);
      && r.Ok?
      && (capture ==> r.value == ProcessOutput(acc.stdout + StreamLines(items, Stdout, calls), acc.stderr + StreamLines(items, Stderr, calls)))
      && (!capture ==> r.value == acc)
    decreases |items|
  {
    if |items| > 0 {
      var acc' := Captured(acc, items[0], calls, capture);
      AllInTimeTail(items, timeout);
      FoldOneLine(items, calls, capture, timeout, noOutputTimeout, kill, acc);
      FoldCaptures(items[1..], calls, capture, timeout, noOutputTimeout, kill, acc');
      if capture {
        CapturedStreams(items, calls, acc);
      }
    }
  }

  /** Capturing the first line and then the rest's streams gives the streams of all the items. */
  lemma CapturedStreams(items: seq<StreamItem>, calls: string -> seq<LineActions.Call>, acc: ProcessOutput)
    requires |items| > 0 && items[0].Line?
    ensures var acc' := Captured(acc, items[0], calls, true);
      && acc'.stdout + StreamLines(items[1..], Stdout, calls) == acc.stdout + StreamLines(items, Stdout, calls)
      && acc'.stderr + StreamLines(items[1..], Stderr, calls) == acc.stderr + StreamLines(items, Stderr, calls)
  {
    var acc' := Captured(acc, items[0], calls, true);
    var lines := LinesFor(items[0].text, calls);
    if items[0].kind == Stdout {
      assert acc' == acc.(stdout := acc.stdout + lines);
      assert StreamLines(items, Stdout, calls) == lines + StreamLines(items[1..], Stdout, calls);
      assert StreamLines(items, Stderr, calls) == StreamLines(items[1..], Stderr, calls);
      Seqs.AppendAssoc(acc.stdout, lines, StreamLines(items[1..], Stdout, calls));
    } else {
      assert acc' == acc.(stderr := acc.stderr + lines);
      assert StreamLines(items, Stderr, calls) == lines + StreamLines(items[1..], Stderr, calls);
      assert StreamLines(items, Stdout, calls) == StreamLines(items[1..], Stdout, calls);
      Seqs.AppendAssoc(acc.stderr, lines, StreamLines(items[1..], Stderr, calls));
    }
  }

  /** The output after one line, as the fold accumulates it. */
  function Captured(acc: ProcessOutput, item: StreamItem, calls: string -> seq<LineActions.Call>, capture: bool): ProcessOutput
    requires item.Line?
  {
    var lines := LinesFor(item.text, calls);
    if !capture then acc
    else if item.kind == Stdout then acc.(stdout := acc.stdout + lines)
    else acc.(stderr := acc.stderr + lines)
  }

  lemma AllInTimeTail(items: seq<StreamItem>, timeout: nat)
    requires |items| > 0 && AllInTime(items, timeout)
    ensures items[0].Line? && items[0].elapsed <= timeout
    ensures AllInTime(items[1..], timeout)
  {
    forall i | 0 <= i < |items| - 1 ensures items[1..][i].Line? && items[1..][i].elapsed <= timeout {
      assert items[1..][i] == items[i + 1];
    }
  }

  /** A line read in time, from the fresh state, records its lines and leaves the state fresh. */
  lemma FoldOneLine(items: seq<StreamItem>, calls: string -> seq<LineActions.Call>, capture: bool,
                    timeout: nat, noOutputTimeout: nat, kill: Option<KillFailedError>, acc: ProcessOutput)
    requires |items| > 0 && items[0].Line? && items[0].elapsed <= timeout
    ensures FoldOutput(items, calls, capture, timeout, noOutputTimeout, kill, LineActions.New(), acc)
         == FoldOutput(items[1..], calls, capture, timeout, noOutputTimeout, kill, LineActions.New(),
                       Captured(acc, items[0], calls, capture))
  {
  }

  /**
   * A line read after the total timeout, preceded only by lines read in time, ends the fold with
   * `Timeout(timeout)`.
   */
  lemma {:induction false} LateLineTimesOut(items: seq<StreamItem>, k: nat, calls: string -> seq<LineActions.Call>, capture: bool,
                                            timeout: nat, noOutputTimeout: nat, kill: Option<KillFailedError>,
                                            actions: LineActions.ProcessLinesActions, acc: ProcessOutput)
    requires k < |items| && InTimeBefore(items, k, timeout)
    requires items[k].Line? && items[k].elapsed > timeout
    ensures FoldOutput(items, calls, capture, timeout, noOutputTimeout, kill, actions, acc) == Err(Timeout(timeout))
    decreases k
  {
    if k > 0 {
      var rest := items[1..];
      assert InTimeBefore(rest, k - 1, timeout) by {
        forall i | 0 <= i < k - 1 ensures rest[i].Line? && rest[i].elapsed <= timeout {
          assert rest[i] == items[i + 1];
        }
      }
      var (state, reset) := LineActions.TakeLines(LineActions.PerformAll(actions, calls(items[0].text)));
      var lines := LineActions.Recorded(state, items[0].text);
      var acc' :=
        if !capture then acc
        else if items[0].kind == Stdout then acc.(stdout := acc.stdout + lines)
        else acc.(stderr := acc.stderr + lines);
      LateLineTimesOut(rest, k - 1, calls, capture, timeout, noOutputTimeout, kill, reset, acc');
    }
  }

  /** Without `capture` a successful fold leaves the output lists as they were, whatever the callback did. */
  lemma {:induction false} FoldWithoutCapture(items: seq<StreamItem>, calls: string -> seq<LineActions.Call>,
                                             timeout: nat, noOutputTimeout: nat, kill: Option<KillFailedError>,
                                             actions: LineActions.ProcessLinesActions, acc: ProcessOutput)
    ensures var r := FoldOutput(items, calls, false, timeout, noOutputTimeout, kill, actions, acc);
      r.Ok? ==> r.value == acc
    decreases |items|
  {
    if |items| > 0 && items[0].Line? && items[0].elapsed <= timeout {
      var reset := LineActions.TakeLines(LineActions.PerformAll(actions, calls(items[0].text))).1;
      FoldWithoutCapture(items[1..], calls, timeout, noOutputTimeout, kill, reset, acc);
    }
  }

  /** How waiting for the process ended: it exited, the total timer fired, or waiting failed. */
  datatype WaitOutcome = Finished(status: ExitStatus) | WaitTimedOut | WaitFailed(io: IoError)

  /** The `child` future of `log_command`. */
  function ClassifyWait(w: WaitOutcome, timeout: nat, kill: Option<KillFailedError>): (r: Result<ExitStatus, CommandError>)
    ensures w.Finished? <==> r.Ok?
    ensures w.Finished? ==> r.value == w.status
    ensures w.WaitTimedOut? && kill.None? ==> r == Err(Timeout(timeout))
    ensures w.WaitTimedOut? && kill.Some? ==> r == Err(KillAfterTimeoutFailed(kill.value))
    ensures w.WaitFailed? ==> r == Err(IO(w.io))
  {
    match w
    case Finished(status) => Ok(status)
    case WaitTimedOut => Err(KilledError(Timeout(timeout), kill))
    case WaitFailed(e) => Err(IO(e))
  }

  /** What the host process did, as inputs to `log_command`. */
  datatype ProcessRun = ProcessRun(
    spawn: Option<IoError>,
    items: seq<StreamItem>,
    outputKill: Option<KillFailedError>,
    wait: WaitOutcome,
    waitKill: Option<KillFailedError>)

  /** `InnerProcessOutput`. */
  datatype InnerOutput = InnerOutput(status: ExitStatus, output: ProcessOutput)

  /** `log_command`: a spawn failure first, then the output's error, then the wait's. */
  function LogCommandRun(p: ProcessRun, calls: string -> seq<LineActions.Call>, capture: bool,
                         timeout: Option<nat>, noOutputTimeout: Option<nat>): (r: Result<InnerOutput, CommandError>)
    ensures p.spawn.Some? ==> r == Err(IO(p.spawn.value))
    ensures p.spawn.None? ==>
      var (total, silent) := EffectiveTimeouts(timeout, noOutputTimeout);
      var output := FoldOutput(p.items, calls, capture, total, silent, p.outputKill, LineActions.New(), ProcessOutput([], []));
      var child := ClassifyWait(p.wait, total, p.waitKill);
      && (output.Err? ==> r == Err(output.error))
      && (output.Ok? && child.Err? ==> r == Err(child.error))
      && (output.Ok? && child.Ok? ==> r == Ok(InnerOutput(child.value, output.value)))
  {
    if p.spawn.Some? then Err(IO(p.spawn.value))
    else
      var (total, silent) := EffectiveTimeouts(timeout, noOutputTimeout);
      var output :- FoldOutput(p.items, calls, capture, total, silent, p.outputKill, LineActions.New(), ProcessOutput([], []));
      var status :- ClassifyWait(p.wait, total, p.waitKill);
      Ok(InnerOutput(status, output))
  }

  /** The end of the host branch of `run_inner`: a non-success status is `ExecutionFailed` with stderr joined. */
  function Finish(out: Result<InnerOutput, CommandError>): (r: Result<ProcessOutput, CommandError>)
    ensures out.Err? ==> r == Err(out.error)
    ensures out.Ok? && out.value.status.Success() ==> r == Ok(out.value.output)
    ensures out.Ok? && !out.value.status.Success() ==>
      r == Err(ExecutionFailed(out.value.status, Join(out.value.output.stderr, "\n")))
  {
    var o :- out;
    if o.status.Success() then Ok(o.output)
    else Err(ExecutionFailed(o.status, Join(o.output.stderr, "\n")))
  }

  /**
   * A process whose every line arrives in time and which exits successfully yields, when
   * captured, exactly the recorded lines of each stream.
   */
  lemma CapturedRun(p: ProcessRun, calls: string -> seq<LineActions.Call>, timeout: Option<nat>, noOutputTimeout: Option<nat>)
    requires p.spawn.None? && p.wait.Finished? && p.wait.status.Success()
    requires AllInTime(p.items, EffectiveTimeouts(timeout, noOutputTimeout).0)
    ensures Finish(LogCommandRun(p, calls, true, timeout, noOutputTimeout))
         == Ok(ProcessOutput(StreamLines(p.items, Stdout, calls), StreamLines(p.items, Stderr, calls)))
  {
    var (total, silent) := EffectiveTimeouts(timeout, noOutputTimeout);
    FoldCaptures(p.items, calls, true, total, silent, p.outputKill, ProcessOutput([], []));
    var out := StreamLines(p.items, Stdout, calls);
    var err := StreamLines(p.items, Stderr, calls);
    assert [] + out == out && [] + err == err;
    assert LogCommandRun(p, calls, true, timeout, noOutputTimeout) == Ok(InnerOutput(p.wait.status, ProcessOutput(out, err)));
  }

  // ---------------------------------------------------------------------------------------
  // `run_inner`
  // ---------------------------------------------------------------------------------------

  /** `exe_suffix`. */
  function ExeName(file: string, platform: Platform): (r: string)
    ensures platform == Unix ==> r == file
    ensures platform == Windows ==> r == file + ".exe"
  {
    file + ExeSuffix(platform)
  }

  /** The program, arguments, environment and directory of an unsandboxed run. */
  datatype HostInvocation = HostInvocation(program: Path, args: seq<string>, env: seq<(string, string)>, cd: Option<Path>)

  /** A global binary's path as given: relative, one component. */
  function GlobalPath(path: string): Path {
    Path("", [path])
  }

  /**
   * The host branch of `run_inner`: a managed binary lives in `<normalised cargo home>/bin` and
   * gets `CARGO_HOME` and `RUSTUP_HOME` before the command's own variables; a managed binary
   * without a workspace panics.
   */
  function HostInvocationOf(c: Command, norm: Path -> Path): (r: Exit<HostInvocation>)
    requires c.sandbox.None?
    ensures r.Panicked? <==> c.binary.ManagedByRustwide? && c.workspace.None?
    ensures r.Returned? ==> r.value.args == c.args && r.value.cd == c.cd
    ensures r.Returned? && c.binary.Global? ==> r.value.program == GlobalPath(c.binary.path) && r.value.env == c.env
    ensures r.Returned? && c.binary.ManagedByRustwide? ==>
      var ws := c.workspace.value;
      && r.value.program == norm(ws.cargoHome).Join("bin").Join(ExeName(c.binary.name, ws.platform))
      && r.value.env == [("CARGO_HOME", Display(norm(ws.cargoHome), ws.platform)),
                         ("RUSTUP_HOME", Display(norm(ws.rustupHome), ws.platform))] + c.env
  {
    match c.binary
    case Global(path) => Returned(HostInvocation(GlobalPath(path), c.args, c.env, c.cd))
    case ManagedByRustwide(name) =>
      if c.workspace.None? then Panicked
      else
        var ws := c.workspace.value;
        var program := norm(ws.cargoHome).Join("bin").Join(ExeName(name, ws.platform));
        var env := [("CARGO_HOME", Display(norm(ws.cargoHome), ws.platform)),
                    ("RUSTUP_HOME", Display(norm(ws.rustupHome), ws.platform))];
        Returned(HostInvocation(program, c.args, env + c.env, c.cd))
  }

  /** The host branch's result: `log_command` on the process, then the exit status check. */
  function RunHost(c: Command, p: ProcessRun, calls: string -> seq<LineActions.Call>, capture: bool): (r: Result<ProcessOutput, CommandError>)
    ensures r == Finish(LogCommandRun(p, calls, capture, c.timeout, c.noOutputTimeout))
    ensures r.Ok? ==> p.spawn.None? && p.wait.Finished? && p.wait.status.Success()
  {
    Finish(LogCommandRun(p, calls, capture, c.timeout, c.noOutputTimeout))
  }

  /** The program name a sandboxed run starts: as given, or the managed binary in the sandbox's cargo bin directory. */
  function SandboxProgram(b: Binary, platform: Platform): string {
    match b
    case Global(path) => path
    case ManagedByRustwide(name) => Display(ContainerCargoBinDir(platform).Join(ExeName(name, platform)), platform)
  }

  /** The source directory, read-only at the work directory, or `.` when the command has no `cd`. */
  function SourceDir(c: Command): Path {
    if c.cd.Some? then c.cd.value else Path("", ["."])
  }

  /**
   * The first half of the sandbox set-up in `run_inner`: the source mount, `SOURCE_DIR`, the work
   * directory, the command line, the current user when there is one, the command's variables.
   */
  function CommandSteps(sb: Sandbox.SandboxBuilder, p: Platform, c: Command, currentUser: Option<(nat, nat)>)
    : (b: Sandbox.SandboxBuilder)
    ensures b.mounts == sb.mounts + [Sandbox.MountConfig(SourceDir(c), WorkDir(p), ReadOnly)]
    ensures b.env == sb.env + [("SOURCE_DIR", Display(WorkDir(p), p))] + c.env
    ensures b.cmd == [SandboxProgram(c.binary, p)] + c.args
    ensures b.workdir == Some(Display(WorkDir(p), p))
    ensures b.user == (if currentUser.Some? then Sandbox.User(sb, currentUser.value.0, currentUser.value.1).user else sb.user)
    ensures b.image == sb.image && b.enableNetworking == sb.enableNetworking
    ensures b.memoryLimit == sb.memoryLimit && b.cpuLimit == sb.cpuLimit
  {
    var b0 := Sandbox.Mount(sb, SourceDir(c), WorkDir(p), ReadOnly);
    var b1 := Sandbox.Env(b0, "SOURCE_DIR", Display(WorkDir(p), p));
    var b2 := Sandbox.Cmd(Sandbox.Workdir(b1, Display(WorkDir(p), p)), [SandboxProgram(c.binary, p)] + c.args);
    var user := if currentUser.Some? then Sandbox.User(b2, currentUser.value.0, currentUser.value.1).user else b2.user;
    b2.(user := user, env := b2.env + c.env)
  }

  /** The second half: cargo home with the chosen kind, rustup home read-only, and their variables. */
  function HomeSteps(sb: Sandbox.SandboxBuilder, ws: Workspace, kind: MountKind): (b: Sandbox.SandboxBuilder)
    ensures var p := ws.platform;
      && b.mounts == sb.mounts + [Sandbox.MountConfig(ws.cargoHome, ContainerCargoHome(p), kind),
                                  Sandbox.MountConfig(ws.rustupHome, ContainerRustupHome(p), ReadOnly)]
      && b.env == sb.env + [("CARGO_HOME", Display(ContainerCargoHome(p), p)), ("RUSTUP_HOME", Display(ContainerRustupHome(p), p))]
    ensures b == sb.(mounts := b.mounts, env := b.env)
  {
    var p := ws.platform;
    var b0 := Sandbox.Mount(Sandbox.Mount(sb, ws.cargoHome, ContainerCargoHome(p), kind), ws.rustupHome, ContainerRustupHome(p), ReadOnly);
    Sandbox.Env(Sandbox.Env(b0, "CARGO_HOME", Display(ContainerCargoHome(p), p)), "RUSTUP_HOME", Display(ContainerRustupHome(p), p))
  }

  /** The whole sandbox set-up of `run_inner`, on top of the sandbox the command was given. */
  function ConfigureSandbox(sb: Sandbox.SandboxBuilder, ws: Workspace, c: Command, currentUser: Option<(nat, nat)>)
    : (b: Sandbox.SandboxBuilder)
    ensures var p := ws.platform;
      && b.mounts == sb.mounts + [Sandbox.MountConfig(SourceDir(c), WorkDir(p), ReadOnly),
                                  Sandbox.MountConfig(ws.cargoHome, ContainerCargoHome(p), c.cargoHomeMountKind),
                                  Sandbox.MountConfig(ws.rustupHome, ContainerRustupHome(p), ReadOnly)]
      && b.env == sb.env + [("SOURCE_DIR", Display(WorkDir(p), p))] + c.env
                  + [("CARGO_HOME", Display(ContainerCargoHome(p), p)), ("RUSTUP_HOME", Display(ContainerRustupHome(p), p))]
    ensures b.cmd == [SandboxProgram(c.binary, ws.platform)] + c.args
  {
    HomeSteps(CommandSteps(sb, ws.platform, c, currentUser), ws, c.cargoHomeMountKind)
  }

  /** The sandboxed branch of `run_inner` panics without a workspace. */
  function SandboxConfig(c: Command, currentUser: Option<(nat, nat)>): (r: Exit<Sandbox.SandboxBuilder>)
    requires c.sandbox.Some?
    ensures r.Panicked? <==> c.workspace.None?
    ensures r.Returned? ==> r.value == ConfigureSandbox(c.sandbox.value, c.workspace.value, c, currentUser)
  {
    if c.workspace.None? then Panicked
    else Returned(ConfigureSandbox(c.sandbox.value, c.workspace.value, c, currentUser))
  }

  /**
   * `Container::run`'s `docker start -a <id>`: an unsandboxed `docker` command in the workspace
   * that carries the sandboxed command's timeouts and logging flags.
   */
  function StartCommand(c: Command, ws: Workspace, id: string): (s: Command)
    ensures s.binary == Global("docker") && s.args == Sandbox.StartArgs(id)
    ensures s.sandbox.None? && s.workspace == Some(ws)
    ensures s.timeout == c.timeout && s.noOutputTimeout == c.noOutputTimeout
    ensures s.logOutput == c.logOutput && s.logCommand == c.logCommand
  {
    var docker := New(ws, Program("docker"));
    Args(docker, Sandbox.StartArgs(id)).(timeout := c.timeout, noOutputTimeout := c.noOutputTimeout,
                                         logOutput := c.logOutput, logCommand := c.logCommand)
  }

  /** The container id `docker create` printed, or nothing when it failed or printed no line. */
  function CreatedId(create: Result<ProcessOutput, CommandError>): string {
    if create.Ok? && |create.value.stdout| > 0 then create.value.stdout[0] else ""
  }

  /**
   * `run_inner`: with a sandbox, the configured container run, where the other `docker` calls are
   * in `d` and `docker start -a` is the process `start`, run through `log_command` with the
   * command's capture flag, timeouts and line callbacks; without one, the host process `p`.
   */
  function RunInner(c: Command, capture: bool, calls: string -> seq<LineActions.Call>, p: ProcessRun,
                    d: Sandbox.DockerEnv, start: ProcessRun, currentUser: Option<(nat, nat)>, norm: Path -> Path)
    : (r: Exit<Result<ProcessOutput, CommandError>>)
    ensures c.sandbox.Some? && c.workspace.None? ==> r.Panicked?
    ensures c.sandbox.Some? && c.workspace.Some? ==>
      var ws := c.workspace.value;
      var started := RunHost(StartCommand(c, ws, CreatedId(d.create)), start, calls, capture);
      r == Sandbox.Run(ConfigureSandbox(c.sandbox.value, ws, c, currentUser), ws, d.(start := started)).outcome
    ensures c.sandbox.None? ==>
      && (r.Panicked? <==> c.binary.ManagedByRustwide? && c.workspace.None?)
      && (r.Returned? ==> r.value == RunHost(c, p, calls, capture))
  {
    match c.sandbox
    case Some(sb) =>
      var b :- SandboxConfig(c, currentUser);
      var ws := c.workspace.value;
      var started := RunHost(StartCommand(c, ws, CreatedId(d.create)), start, calls, capture);
      Sandbox.Run(b, ws, d.(start := started)).outcome
    case None =>
      var _ :- HostInvocationOf(c, norm);
      Returned(RunHost(c, p, calls, capture))
  }

  /**
   * A sandboxed run whose container is created, and found not to have been killed for memory,
   * returns what `docker start -a` gave through `log_command`: captured, the recorded lines of each
   * stream, when every line arrived within the command's own timeout and the container exited
   * successfully.
   */
  lemma SandboxedCapturedRun(c: Command, calls: string -> seq<LineActions.Call>, p: ProcessRun,
                             d: Sandbox.DockerEnv, start: ProcessRun, currentUser: Option<(nat, nat)>, norm: Path -> Path)
    requires c.sandbox.Some? && c.workspace.Some?
    requires Sandbox.CreateArgs(ConfigureSandbox(c.sandbox.value, c.workspace.value, c, currentUser), c.workspace.value, d.norm, d.mkdir).Ok?
    requires d.create.Ok? && |d.create.value.stdout| > 0 && d.inspect == Returned(Ok(false))
    requires start.spawn.None? && start.wait.Finished? && start.wait.status.Success()
    requires AllInTime(start.items, EffectiveTimeouts(c.timeout, c.noOutputTimeout).0)
    ensures RunInner(c, true, calls, p, d, start, currentUser, norm)
         == Returned(Ok(ProcessOutput(StreamLines(start.items, Stdout, calls), StreamLines(start.items, Stderr, calls))))
  {
    var ws := c.workspace.value;
    var s := StartCommand(c, ws, CreatedId(d.create));
    CapturedRun(start, calls, s.timeout, s.noOutputTimeout);
  }

  /** `Command::run`: `run_inner` without capturing, the output dropped. */
  function Run(c: Command, calls: string -> seq<LineActions.Call>, p: ProcessRun,
               d: Sandbox.DockerEnv, start: ProcessRun, currentUser: Option<(nat, nat)>, norm: Path -> Path)
    : (r: Exit<Result<(), CommandError>>)
    ensures var inner := RunInner(c, false, calls, p, d, start, currentUser, norm);
      && (r.Panicked? <==> inner.Panicked?)
      && (r.Returned? ==> (r.value.Ok? <==> inner.value.Ok?) && (r.value.Err? ==> r.value.error == inner.value.error))
  {
    var res :- RunInner(c, false, calls, p, d, start, currentUser, norm);
    Returned(if res.Ok? then Ok(()) else Err(res.error))
  }

  /** An unsandboxed run that is not captured returns empty output lists, whatever was printed. */
  lemma UncapturedHostRunIsEmpty(c: Command, calls: string -> seq<LineActions.Call>, p: ProcessRun)
    requires RunHost(c, p, calls, false).Ok?
    ensures RunHost(c, p, calls, false).value == ProcessOutput([], [])
  {
    var (total, silent) := EffectiveTimeouts(c.timeout, c.noOutputTimeout);
    FoldWithoutCapture(p.items, calls, total, silent, p.outputKill, LineActions.New(), ProcessOutput([], []));
  }
}

=== FILE: crates.dfy ===
/**
 * The public `Crate` (src/crates/mod.rs): its constructors and the dispatch of fetching, purging,
 * copying and displaying to the registry, git or local variant.
 */
module Crates {
  import opened Wrappers
  import opened Base
  import Registry
  import Git
  import Local

  /** `CrateType`, the single field of `Crate`. */
  datatype Crate =
    | RegistryCrate(krate: Registry.RegistryCrate)
    | GitCrate(repo: Git.GitRepo)
    | LocalCrate(local: Local.Local)

  /** `Crate::registry`: a crate of an alternative registry. */
  function FromRegistry(index: string, name: string, version: string): (c: Crate)
    ensures c.RegistryCrate? && c.krate.registry == Registry.Alternative(index)
    ensures c.krate.name == name && c.krate.version == version
  {
    RegistryCrate(Registry.RegistryCrate(Registry.Alternative(index), name, version))
  }

  /** `Crate::crates_io`. */
  function CratesIo(name: string, version: string): (c: Crate)
    ensures c.RegistryCrate? && c.krate.registry == Registry.CratesIo
    ensures c.krate.name == name && c.krate.version == version
  {
    RegistryCrate(Registry.RegistryCrate(Registry.CratesIo, name, version))
  }

  /** `Crate::git`. */
  function FromGit(url: string): (c: Crate)
    ensures c.GitCrate? && c.repo.url == url
  {
    GitCrate(Git.GitRepo(url))
  }

  /** `Crate::local`. */
  function FromLocal(path: Path): (c: Crate)
    ensures c.LocalCrate? && c.local.path == path
  {
    LocalCrate(Local.Local(path))
  }

  /** Everything fetching may consult: the registry's inputs and the git run's. */
  datatype FetchEnv = FetchEnv(
    present: Path -> bool,
    createDir: Result<(), IoError>,
    index: Registry.IndexEnv,
    download: string -> Result<(), Error>,
    headIsFile: bool,
    gitLines: seq<string>,
    gitRun: Result<(), Error>)

  /** `Crate::fetch`, dispatched to the variant. */
  function Fetch(c: Crate, ws: Workspace, env: FetchEnv): (r: Result<(), Error>)
    ensures c.LocalCrate? ==> r.Ok?
    ensures c.RegistryCrate? ==>
      var inner := Registry.Fetch(c.krate, ws, env.present, env.createDir, env.index, env.download);
      (r.Ok? <==> inner.Ok?) && (r.Err? ==> r.error == inner.error)
    ensures c.RegistryCrate? && env.present(Registry.CachePath(c.krate, ws)) ==> r.Ok?
    ensures c.GitCrate? ==> r == Git.FetchOutcome(c.repo, env.headIsFile, env.gitLines, env.gitRun)
  {
    match c
    case RegistryCrate(k) =>
      var fetched :- Registry.Fetch(k, ws, env.present, env.createDir, env.index, env.download);
      Ok(())
    case GitCrate(repo) => Git.FetchOutcome(repo, env.headIsFile, env.gitLines, env.gitRun)
    case LocalCrate(l) => Local.Fetch(l)
  }

  /**
   * `Crate::purge_from_cache`, dispatched to the variant. The git variant's purge is not in
   * src/crates/git.rs, so its outcome is an input.
   */
  function PurgeFromCache(c: Crate, ws: Workspace, present: Path -> bool, remove: Path -> Result<(), Error>,
                          gitPurge: Result<(), Error>): (r: Result<(), Error>)
    ensures c.LocalCrate? ==> r.Ok?
    ensures c.RegistryCrate? && !present(Registry.CachePath(c.krate, ws)) ==> r.Ok?
    ensures c.RegistryCrate? && present(Registry.CachePath(c.krate, ws)) ==> r == remove(Registry.CachePath(c.krate, ws))
    ensures c.GitCrate? ==> r == gitPurge
  {
    match c
    case RegistryCrate(k) => Registry.PurgeFromCache(k, ws, present, remove).1
    case GitCrate(_) => gitPurge
    case LocalCrate(l) => Local.PurgeFromCache(l)
  }

  /** `Crate::git_commit`: only a git crate has one. */
  function GitCommit(c: Crate, run: Result<ProcessOutput, CommandError>): (sha: Option<string>)
    ensures !c.GitCrate? ==> sha.None?
    ensures c.GitCrate? ==> sha == Git.GitCommit(run)
  {
    match c
    case GitCrate(_) => Git.GitCommit(run)
    case _ => None
  }

  /** What `copy_source_to` did to the destination before the variant's copy, and the result. */
  datatype CopyReport = CopyReport(removedDest: bool, copied: bool, result: Result<(), Error>)

  /**
   * Everything the variants' copies consult: the registry archive's entries and each unpack, the
   * git clone's outcome, and the local walk with the file system.
   */
  datatype CopyEnv = CopyEnv(
    open: Result<seq<Result<seq<string>, IoError>>, IoError>,
    unpack: Path -> Result<(), IoError>,
    gitRun: Result<(), Error>,
    norm: Path -> Path,
    walk: Path -> seq<Local.WalkEntry>,
    fs: Local.FileSystem)

  /**
   * `Crate::copy_source_to`: an existing destination is removed first, and a failure to remove it
   * stops the copy; then the variant copies: the registry crate unpacks its archive, the git crate
   * clones its cached repository, the local crate copies its directory.
   */
  method CopySourceTo(c: Crate, dest: Path, destExists: bool, removeDest: Result<(), Error>, env: CopyEnv)
    returns (r: CopyReport)
    ensures r.removedDest <==> destExists
    ensures r.copied <==> !destExists || removeDest.Ok?
    ensures !r.copied ==> r.result == removeDest
    ensures r.copied && c.RegistryCrate? ==>
      var inner := Registry.CopySourceTo(c.krate, dest, env.open, env.unpack).1;
      (r.result.Ok? <==> inner.Ok?) && (r.result.Err? ==> r.result.error == inner.error)
    ensures r.copied && c.GitCrate? ==> r.result == Git.CopySourceOutcome(c.repo, env.gitRun)
    ensures r.copied && c.LocalCrate? ==>
      var s := env.norm(c.local.path); var d := env.norm(dest); var entries := env.walk(s);
      && (r.result.Ok? <==> forall i | 0 <= i < |entries| :: Local.Succeeds(entries[i], s, d, env.fs))
      && (r.result.Err? ==> exists k | 0 <= k < |entries| ::
            && (forall i | 0 <= i < k :: Local.Succeeds(entries[i], s, d, env.fs))
            && !Local.Succeeds(entries[k], s, d, env.fs)
            && r.result.error == Local.StepError(entries[k], s, d, env.fs))
  {
    if destExists && removeDest.Err? {
      return CopyReport(true, false, removeDest);
    }
    var copy: Result<(), Error>;
    match c {
      case RegistryCrate(k) =>
        var unpacked := Registry.CopySourceTo(k, dest, env.open, env.unpack).1;
        copy := if unpacked.Ok? then Ok(()) else Err(unpacked.error);
      case GitCrate(repo) =>
        copy := Git.CopySourceOutcome(repo, env.gitRun);
      case LocalCrate(l) =>
        var done;
        done, copy := Local.CopyDir(l.path, dest, env.norm, env.walk, env.fs);
    }
    r := CopyReport(destExists, true, copy);
  }

  /** Formatting the crate panics: `Registry::name` is `todo!()` for an alternative registry. */
  predicate DisplayPanics(c: Crate) {
    c.RegistryCrate? && c.krate.registry.Alternative?
  }

  /**
   * `Display for Crate`, dispatched to the variant, with the registry variant as rustwide writes it:
   * a crate of an alternative registry panics, every other crate has the corrected display.
   */
  function Describe(c: Crate, platform: Platform): (s: Exit<string>)
    ensures s.Panicked? <==> DisplayPanics(c)
    ensures c.RegistryCrate? && s.Returned? ==> s.value == Registry.Display(c.krate)
    ensures c.GitCrate? ==> s == Returned(Git.Display(c.repo))
    ensures c.LocalCrate? ==> s == Returned(Local.Describe(c.local, platform))
  {
    match c
    case RegistryCrate(k) => Registry.DisplayAsWritten(k)
    case GitCrate(repo) => Returned(Git.Display(repo))
    case LocalCrate(l) => Returned(Local.Describe(l, platform))
  }

  /** The two registry constructors only differ in the registry they name. */
  lemma RegistryConstructors(index: string, name: string, version: string)
    ensures FromRegistry(index, name, version).krate.(registry := Registry.CratesIo) == CratesIo(name, version).krate
    ensures FromRegistry(index, name, version) != CratesIo(name, version)
  {
  }
}

=== FILE: git.dfy ===
/**
 * Crates taken from a git repository (src/crates/git.rs): the bare clone kept in the cache, the
 * commands that clone, update and check it out, how a private repository is recognised, and how
 * the commit hash is read back. The outcome of each git run and the lines it printed are inputs.
 */
module Git {
  import opened Wrappers
  import opened Text
  import opened Base
  import Percent
  import Cmd
  import BinaryCrates
  import Tools

  /** `GitRepo`. */
  datatype GitRepo = GitRepo(url: string)

  /** `cached_path`: `<cache>/git-repos/<percent-encoded URL>`. */
  function CachedPath(r: GitRepo, ws: Workspace): (p: Path)
    ensures p.root == ws.cacheDir.root
    ensures p.parts == ws.cacheDir.parts + ["git-repos", Percent.EncodeStr(r.url)]
  {
    ws.cacheDir.Join("git-repos").Join(Percent.EncodeStr(r.url))
  }

  /** The repository's directory name is one component: it holds no separator of either platform. */
  lemma CachedPathIsOneComponent(r: GitRepo, ws: Workspace)
    ensures var name := CachedPath(r, ws).parts[|ws.cacheDir.parts| + 1];
      '/' !in name && '\\' !in name && ':' !in name
  {
    var name := Percent.EncodeStr(r.url);
    assert CachedPath(r, ws).parts[|ws.cacheDir.parts| + 1] == name;
    forall i | 0 <= i < |name| ensures name[i] != '/' && name[i] != '\\' && name[i] != ':' {
      assert Percent.SafeChar(name[i]) || name[i] == '%';
    }
  }

  /** A string of ASCII characters only. */
  predicate Ascii(s: string) {
    forall i | 0 <= i < |s| :: s[i] as int < 0x80
  }

  /** The UTF-8 bytes of ASCII text are its character codes. */
  lemma {:induction false} Utf8OfAscii(s: string)
    requires Ascii(s)
    ensures |Percent.Utf8(s)| == |s|
    ensures forall i | 0 <= i < |s| :: Percent.Utf8(s)[i] as int == s[i] as int
  {
    if |s| > 0 {
      Utf8OfAscii(s[1..]);
      var rest := Percent.Utf8(s[1..]);
      assert Percent.Utf8(s) == Percent.Utf8Char(s[0]) + rest;
      forall i | 0 <= i < |s| ensures Percent.Utf8(s)[i] as int == s[i] as int {
        if i > 0 {
          assert Percent.Utf8(s)[i] == rest[i - 1];
        }
      }
    }
  }

  /** Two ASCII URLs without `%` are kept in different directories. */
  lemma CachedPathInjective(a: GitRepo, b: GitRepo, ws: Workspace)
    requires Ascii(a.url) && Ascii(b.url) && '%' !in a.url && '%' !in b.url
    requires CachedPath(a, ws) == CachedPath(b, ws)
    ensures a == b
  {
    var n := |ws.cacheDir.parts|;
    assert CachedPath(a, ws).parts[n + 1] == Percent.EncodeStr(a.url);
    assert CachedPath(b, ws).parts[n + 1] == Percent.EncodeStr(b.url);
    Utf8OfAscii(a.url);
    Utf8OfAscii(b.url);
    var ba := Percent.Utf8(a.url);
    var bb := Percent.Utf8(b.url);
    assert forall i | 0 <= i < |ba| :: ba[i] != 0x25 by {
      forall i | 0 <= i < |ba| ensures ba[i] != 0x25 {
        assert ba[i] as int == a.url[i] as int;
        assert a.url[i] != '%';
      }
    }
    assert forall i | 0 <= i < |bb| :: bb[i] != 0x25 by {
      forall i | 0 <= i < |bb| ensures bb[i] != 0x25 {
        assert bb[i] as int == b.url[i] as int;
        assert b.url[i] != '%';
      }
    }
    Percent.EncodeInjective(ba, bb);
    assert forall i | 0 <= i < |a.url| :: a.url[i] as int == ba[i] as int == bb[i] as int == b.url[i] as int;
  }

  /**
   * `suppress_password_prompt_args`: clear the credential helpers, then install
   * `git-credential-null`, its path written with forward slashes.
   */
  function SuppressPasswordPromptArgs(ws: Workspace, norm: Path -> Path): (args: seq<string>)
    ensures |args| == 4 && args[0] == "-c" && args[1] == "credential.helper=" && args[2] == "-c"
    ensures var helper := Base.Display(Tools.BinaryPath(Tools.Crate(BinaryCrates.GitCredentialNull), ws, norm), ws.platform);
      && StartsWith(args[3], "credential.helper=")
      && |args[3]| == |"credential.helper="| + |helper|
      && forall i | 0 <= i < |helper| ::
        args[3][|"credential.helper="| + i] == (if helper[i] == '\\' then '/' else helper[i])
    ensures '\\' !in args[3]
  {
    var helper := Base.Display(Tools.BinaryPath(Tools.Crate(BinaryCrates.GitCredentialNull), ws, norm), ws.platform);
    var value := ReplaceChars(helper, {'\\'}, '/');
    var arg := "credential.helper=" + value;
    assert arg[..|"credential.helper="|] == "credential.helper=";
    assert forall i | 0 <= i < |helper| :: arg[|"credential.helper="| + i] == value[i];
    ["-c", "credential.helper=", "-c", arg]
  }

  /** The command `git` for a workspace: the global `git` program. */
  function Git(ws: Workspace): (c: Cmd.Command)
    ensures c.binary == Cmd.Global("git") && c.args == [] && c.cd.None?
  {
    Cmd.New(ws, Cmd.Program("git"))
  }

  /** The arguments that update an existing bare clone: fetch every branch, forcing and pruning. */
  const UpdateArgs := ["-c", "remote.origin.fetch=refs/heads/*:refs/heads/*", "fetch", "origin", "--force", "--prune"]

  /**
   * The command `fetch` runs: with a `HEAD` file in the cache directory, an update run inside it;
   * otherwise a bare clone into it. Both start with the prompt-suppressing arguments.
   */
  function FetchCommand(r: GitRepo, ws: Workspace, norm: Path -> Path, headIsFile: bool): (c: Cmd.Command)
    ensures c.binary == Cmd.Global("git")
    ensures c.args == SuppressPasswordPromptArgs(ws, norm) +
      (if headIsFile then UpdateArgs else ["clone", "--bare", r.url, Base.Display(CachedPath(r, ws), ws.platform)])
    ensures c.cd == (if headIsFile then Some(CachedPath(r, ws)) else None)
  {
    var path := CachedPath(r, ws);
    var base := Cmd.Args(Git(ws), SuppressPasswordPromptArgs(ws, norm));
    if headIsFile then
      Cmd.Cd(Cmd.Args(base, UpdateArgs), path)
    else
      Cmd.Args(Cmd.Args(base, ["clone", "--bare", r.url]), [Base.Display(path, ws.platform)])
  }

  /** The line `git-credential-null` makes git print when a repository asks for credentials. */
  predicate IsPrivateMarker(line: string) {
    StartsWith(line, "fatal: credential helper") && EndsWith(line, "told us to quit")
  }

  /**
   * `fetch`, given whether `HEAD` was there, every line the run printed and how it ended: a failed
   * run that printed the credential marker is a private repository; any other failure names the
   * URL and what was attempted.
   */
  function FetchOutcome(r: GitRepo, headIsFile: bool, lines: seq<string>, run: Result<(), Error>): (res: Result<(), Error>)
    ensures res.Ok? <==> run.Ok?
    ensures run.Err? && (exists i | 0 <= i < |lines| :: IsPrivateMarker(lines[i])) ==>
      res == Err(Prepare(PrivateGitRepository))
    ensures run.Err? && (forall i | 0 <= i < |lines| :: !IsPrivateMarker(lines[i])) ==>
      res == Err(Context((if headIsFile then "failed to update " else "failed to clone ") + r.url, run.error))
  {
    var privateRepository := exists i | 0 <= i < |lines| :: IsPrivateMarker(lines[i]);
    if privateRepository && run.Err? then Err(Prepare(PrivateGitRepository))
    else
      match run
      case Ok(_) => Ok(())
      case Err(e) => Err(Context((if headIsFile then "failed to update " else "failed to clone ") + r.url, e))
  }

  /** A private repository is reported only for a failing run, whatever was printed. */
  lemma PrivateOnlyOnFailure(r: GitRepo, headIsFile: bool, lines: seq<string>, run: Result<(), Error>)
    requires FetchOutcome(r, headIsFile, lines, run) == Err(Prepare(PrivateGitRepository))
    ensures run.Err?
    ensures exists i | 0 <= i < |lines| :: IsPrivateMarker(lines[i])
  {
  }

  /** `copy_source_to`: `git clone <cached repository> <dest>`. */
  function CopySourceCommand(r: GitRepo, ws: Workspace, dest: Path): (c: Cmd.Command)
    ensures c.binary == Cmd.Global("git")
    ensures c.args == ["clone", Base.Display(CachedPath(r, ws), ws.platform), Base.Display(dest, ws.platform)]
  {
    Cmd.Args(Cmd.Args(Git(ws), ["clone"]), [Base.Display(CachedPath(r, ws), ws.platform), Base.Display(dest, ws.platform)])
  }

  /** The result of `copy_source_to` given how the clone ran. */
  function CopySourceOutcome(r: GitRepo, run: Result<(), Error>): (res: Result<(), Error>)
    ensures res.Ok? <==> run.Ok?
    ensures run.Err? ==> res == Err(Context("failed to checkout " + r.url, run.error))
  {
    match run
    case Ok(_) => Ok(())
    case Err(e) => Err(Context("failed to checkout " + r.url, e))
  }

  /** The command `git_commit` captures: `git rev-parse HEAD` inside the cached repository. */
  function CommitCommand(r: GitRepo, ws: Workspace): (c: Cmd.Command)
    ensures c.binary == Cmd.Global("git") && c.args == ["rev-parse", "HEAD"] && c.cd == Some(CachedPath(r, ws))
  {
    Cmd.Cd(Cmd.Args(Git(ws), ["rev-parse", "HEAD"]), CachedPath(r, ws))
  }

  /** `git_commit`: the first line of a successful run's standard output, unless it is empty. */
  function GitCommit(run: Result<ProcessOutput, CommandError>): (sha: Option<string>)
    ensures sha.Some? <==> run.Ok? && |run.value.stdout| > 0 && run.value.stdout[0] != ""
    ensures sha.Some? ==> sha.value == run.value.stdout[0] && |sha.value| > 0
  {
    match run
    case Err(_) => None
    case Ok(out) => if |out.stdout| > 0 && out.stdout[0] != "" then Some(out.stdout[0]) else None
  }

  /** `Display for GitRepo`. */
  function Display(r: GitRepo): (s: string)
    ensures StartsWith(s, "git repo ") && s[|"git repo "|..] == r.url
  {
    "git repo " + r.url
  }
}

=== FILE: line_actions.dfy ===
/**
 * `ProcessLinesActions` (src/cmd/process_lines_actions.rs): what a `process_lines` callback asked
 * to do with the line it was shown. The callback's calls are a sequence of `Call`s; each call
 * overwrites the state, and `take_lines` hands the state over and resets it.
 */
module LineActions {

  /** `InnerState`; the default is `Original`. */
  datatype InnerState = Removed | Original | Replaced(lines: seq<string>)

  datatype ProcessLinesActions = ProcessLinesActions(state: InnerState)

  /** A call the callback can make on the actions object. */
  datatype Call = ReplaceWithLines(newLines: seq<string>) | RemoveLine

  /** `ProcessLinesActions::new`. */
  function New(): (a: ProcessLinesActions)
    ensures a.state == Original
  {
    ProcessLinesActions(Original)
  }

  /** The state a single call leaves behind, whatever the state was before. */
  function Effect(call: Call): InnerState {
    match call
    case ReplaceWithLines(lines) => Replaced(lines)
    case RemoveLine => Removed
  }

  /** `replace_with_lines` / `remove_line`. */
  function Perform(a: ProcessLinesActions, call: Call): (r: ProcessLinesActions)
    ensures call.ReplaceWithLines? ==> r.state == Replaced(call.newLines)
    ensures call.RemoveLine? ==> r.state == Removed
  {
    match call
    case ReplaceWithLines(lines) => a.(state := Replaced(lines))
    case RemoveLine => a.(state := Removed)
  }

  /** The calls one callback invocation makes, in order. */
  function PerformAll(a: ProcessLinesActions, calls: seq<Call>): ProcessLinesActions
    decreases |calls|
  {
    if |calls| == 0 then a else PerformAll(Perform(a, calls[0]), calls[1..])
  }

  /** `take_lines`: the current state, and the object reset to its default. */
  function TakeLines(a: ProcessLinesActions): (r: (InnerState, ProcessLinesActions))
    ensures r.0 == a.state
    ensures r.1 == New()
  {
    (a.state, ProcessLinesActions(Original))
  }

  /** The lines `log_command` records for `line` given the state taken after the callback. */
  function Recorded(state: InnerState, line: string): (r: seq<string>)
    ensures state.Removed? ==> r == []
    ensures state.Original? ==> r == [line]
    ensures state.Replaced? ==> r == state.lines
  {
    match state
    case Removed => []
    case Original => [line]
    case Replaced(lines) => lines
  }

  /** The last call before `take_lines` decides the state; with no call the state is kept. */
  lemma {:induction false} LastCallWins(a: ProcessLinesActions, calls: seq<Call>)
    ensures |calls| == 0 ==> PerformAll(a, calls) == a
    ensures |calls| > 0 ==> PerformAll(a, calls).state == Effect(calls[|calls| - 1])
    decreases |calls|
  {
    if |calls| > 0 {
      LastCallWins(Perform(a, calls[0]), calls[1..]);
      if |calls| > 1 {
        assert calls[1..][|calls[1..]| - 1] == calls[|calls| - 1];
      }
    }
  }

  /** A fresh object, or one taken from with no calls since, yields `Original`; taking again too. */
  lemma TakeResets(a: ProcessLinesActions, calls: seq<Call>)
    ensures TakeLines(New()).0 == Original
    ensures TakeLines(TakeLines(a).1).0 == Original
    ensures |calls| > 0 ==> TakeLines(PerformAll(TakeLines(a).1, calls)).0 == Effect(calls[|calls| - 1])
  {
    LastCallWins(TakeLines(a).1, calls);
  }

  /** The sequence of calls in the `test_replace` unit test, one take after each. */
  lemma ReplaceExample()
    ensures var a1 := PerformAll(New(), [ReplaceWithLines(["ipsum"])]);
      var (s1, a2) := TakeLines(a1);
      var (s2, a3) := TakeLines(PerformAll(a2, [ReplaceWithLines(["lorem", "ipsum", "dolor"])]));
      && s1 == Replaced(["ipsum"])
      && s2 == Replaced(["lorem", "ipsum", "dolor"])
      && TakeLines(a3).0 == Original
  {
  }
}

=== FILE: local.dfy ===
/**
 * Crates in a local directory (src/crates/local.rs). There is nothing to fetch or purge; copying
 * the source directory walks it and recreates every directory and file below the destination,
 * except the top-level `target` directory and everything under it. The walk is given as the list
 * of entries the directory walker yields, in walk order; a broken or self-referential symbolic
 * link is an entry that failed to be read.
 */
module Local {
  import opened Wrappers
  import opened Base

  /** `Local`: the crate's directory. */
  datatype Local = Local(path: Path)

  /** `Local::fetch`: there is nothing to download. */
  function Fetch(l: Local): (r: Result<(), Error>)
    ensures r.Ok?
  {
    Ok(())
  }

  /** `Local::purge_from_cache`: there is no cache to purge. */
  function PurgeFromCache(l: Local): (r: Result<(), Error>)
    ensures r.Ok?
  {
    Ok(())
  }

  /** `Display for Local`. */
  function Describe(l: Local, platform: Platform): (s: string)
    ensures |s| >= |"local crate "| && s[..|"local crate "|] == "local crate "
    ensures s[|"local crate "|..] == Display(l.path, platform)
  {
    "local crate " + Display(l.path, platform)
  }

  /** One item of the walk: a path and whether it is a directory, or a path the walker could not read. */
  datatype WalkEntry = Entry(path: Path, isDir: bool) | Broken(path: Path, io: IoError)

  /** The entry's path with as many leading components dropped as the source directory has. */
  function RelativePath(p: Path, src: Path): (rel: seq<string>)
    ensures |p.parts| < |src.parts| ==> rel == []
    ensures |p.parts| >= |src.parts| ==>
      |rel| == |p.parts| - |src.parts| && forall i | 0 <= i < |rel| :: rel[i] == p.parts[|src.parts| + i]
  {
    if |p.parts| >= |src.parts| then p.parts[|src.parts|..] else []
  }

  /** Dropping the source's components from a path built below it gives back the relative path. */
  lemma RelativePathOfJoin(src: Path, rel: seq<string>)
    ensures RelativePath(src.JoinAll(rel), src) == rel
  {
    assert (src.parts + rel)[|src.parts|..] == rel;
  }

  /**
   * Whether the walk skips an entry: the top-level `target` directory itself, and everything the
   * walker would have found below it.
   */
  predicate Skipped(e: WalkEntry, src: Path) {
    var rel := RelativePath(e.path, src);
    (|rel| >= 2 && rel[0] == "target") || (e.Entry? && e.isDir && rel == ["target"])
  }

  /** What the copy does on disk. */
  datatype FsAction = CreateDir(dir: Path) | CopyFile(from: Path, to: Path)

  /** The action for a readable entry: create the directory, or copy the file to the same relative path. */
  function ActionOf(e: WalkEntry, src: Path, dest: Path): (a: FsAction)
    requires e.Entry?
    ensures e.isDir ==> a == CreateDir(dest.JoinAll(RelativePath(e.path, src)))
    ensures !e.isDir ==> a == CopyFile(src.JoinAll(RelativePath(e.path, src)), dest.JoinAll(RelativePath(e.path, src)))
  {
    var rel := RelativePath(e.path, src);
    if e.isDir then CreateDir(dest.JoinAll(rel)) else CopyFile(src.JoinAll(rel), dest.JoinAll(rel))
  }

  /** The actions a walk calls for, in order: one per readable entry that is not skipped. */
  function Actions(entries: seq<WalkEntry>, src: Path, dest: Path): (acts: seq<FsAction>)
    ensures |acts| <= |entries|
  {
    if |entries| == 0 then []
    else
      var last := entries[|entries| - 1];
      Actions(entries[..|entries| - 1], src, dest)
        + (if !Skipped(last, src) && last.Entry? then [ActionOf(last, src, dest)] else [])
  }

  /** How the file system answers `create_dir_all` and `copy`. */
  datatype FileSystem = FileSystem(createDir: Path -> Result<(), IoError>, copy: (Path, Path) -> Result<(), IoError>)

  function Perform(a: FsAction, fs: FileSystem): Result<(), IoError> {
    match a
    case CreateDir(d) => fs.createDir(d)
    case CopyFile(f, t) => fs.copy(f, t)
  }

  /** An entry the copy gets past: skipped, or readable with its action succeeding. */
  predicate Succeeds(e: WalkEntry, src: Path, dest: Path, fs: FileSystem) {
    Skipped(e, src) || (e.Entry? && Perform(ActionOf(e, src, dest), fs).Ok?)
  }

  /** The error an entry the copy does not get past stops it with. */
  function StepError(e: WalkEntry, src: Path, dest: Path, fs: FileSystem): Error
    requires !Succeeds(e, src, dest, fs)
  {
    if e.Broken? then Io(e.io) else Io(Perform(ActionOf(e, src, dest), fs).error)
  }

  /**
   * `copy_dir`: the source and destination are normalised, then each entry of the walk is handled
   * in order until one fails. `done` lists the actions carried out.
   */
  method CopyDir(src: Path, dest: Path, norm: Path -> Path, walk: Path -> seq<WalkEntry>, fs: FileSystem)
    returns (done: seq<FsAction>, r: Result<(), Error>)
    ensures var s := norm(src); var d := norm(dest); var entries := walk(s);
      && (r.Ok? <==> forall i | 0 <= i < |entries| :: Succeeds(entries[i], s, d, fs))
      && (r.Ok? ==> done == Actions(entries, s, d))
      && (r.Err? ==> exists k | 0 <= k < |entries| ::
            && (forall i | 0 <= i < k :: Succeeds(entries[i], s, d, fs))
            && !Succeeds(entries[k], s, d, fs)
            && done == Actions(entries[..k], s, d)
            && r.error == StepError(entries[k], s, d, fs))
  {
    var s := norm(src);
    var d := norm(dest);
    var entries := walk(s);
    done := [];
    var i := 0;
    while i < |entries|
      invariant 0 <= i <= |entries|
      invariant forall j | 0 <= j < i :: Succeeds(entries[j], s, d, fs)
      invariant done == Actions(entries[..i], s, d)
    {
      var e := entries[i];
      assert entries[..i + 1][..i] == entries[..i];
      if Skipped(e, s) {
        i := i + 1;
        continue;
      }
      if e.Broken? {
        return done, Err(Io(e.io));
      }
      var a := ActionOf(e, s, d);
      var res := Perform(a, fs);
      if res.Err? {
        return done, Err(Io(res.error));
      }
      done := done + [a];
      i := i + 1;
    }
    assert entries[..i] == entries;
    r := Ok(());
  }

  /**
   * Nothing the copy does lies below the destination's top-level `target`, and the only action at
   * `target` itself is copying a plain file of that name.
   */
  lemma {:induction false} ActionsAvoidTarget(entries: seq<WalkEntry>, src: Path, dest: Path)
    ensures forall k | 0 <= k < |Actions(entries, src, dest)| ::
      var a := Actions(entries, src, dest)[k];
      var to := if a.CreateDir? then a.dir else a.to;
      StripPrefix(to, dest).Some? &&
      var rel := StripPrefix(to, dest).value;
      !(|rel| >= 2 && rel[0] == "target") && !(a.CreateDir? && rel == ["target"])
  {
    if |entries| > 0 {
      ActionsAvoidTarget(entries[..|entries| - 1], src, dest);
    }
  }

  /** Every readable file outside the top-level `target` is copied to the same relative path. */
  lemma {:induction false} ActionsCopyEveryFile(entries: seq<WalkEntry>, src: Path, dest: Path, i: nat)
    requires i < |entries| && entries[i].Entry? && !entries[i].isDir && !Skipped(entries[i], src)
    ensures var rel := RelativePath(entries[i].path, src);
      CopyFile(src.JoinAll(rel), dest.JoinAll(rel)) in Actions(entries, src, dest)
  {
    var n := |entries|;
    if i < n - 1 {
      assert entries[..n - 1][i] == entries[i];
      ActionsCopyEveryFile(entries[..n - 1], src, dest, i);
    }
  }

  /** Every directory outside the top-level `target` is created at the same relative path. */
  lemma {:induction false} ActionsCreateEveryDir(entries: seq<WalkEntry>, src: Path, dest: Path, i: nat)
    requires i < |entries| && entries[i].Entry? && entries[i].isDir && !Skipped(entries[i], src)
    ensures CreateDir(dest.JoinAll(RelativePath(entries[i].path, src))) in Actions(entries, src, dest)
  {
    var n := |entries|;
    if i < n - 1 {
      assert entries[..n - 1][i] == entries[i];
      ActionsCreateEveryDir(entries[..n - 1], src, dest, i);
    }
  }

  /** A top-level directory named `target` and what lies below it are skipped; any other name is not. */
  lemma SkipsOnlyTopLevelTarget(src: Path, rel: seq<string>, isDir: bool)
    ensures Skipped(Entry(src.JoinAll(rel), isDir), src) <==>
      (|rel| >= 2 && rel[0] == "target") || (isDir && rel == ["target"])
  {
    RelativePathOfJoin(src, rel);
  }
}

=== FILE: native_unix.dfy ===
/**
 * Unix permission bits as the 32-bit values `PermissionsExt::mode` works with.
 */
module ModeBits {
  /** The mode with the expected bits added: they are all set, and every other bit is as it was. */
  function AddBits(mode: bv32, expected: bv32): (n: bv32)
    ensures n & expected == expected
    ensures n & !expected == mode & !expected
  {
    mode | expected
  }

  /** Adding bits that are all there already changes nothing. */
  lemma AddBitsPresent(mode: bv32, expected: bv32)
    requires mode & expected == expected
    ensures AddBits(mode, expected) == mode
  {
    OrAbsorbs(mode, expected);
  }

  /** What adding bits keeps: every other bit, and the whole mode when the bits were already set. */
  lemma AddBitsFrame(mode: bv32, expected: bv32)
    ensures AddBits(mode, expected) & !expected == mode & !expected
    ensures mode & expected == expected ==> AddBits(mode, expected) == mode
  {
    if mode & expected == expected {
      AddBitsPresent(mode, expected);
    }
  }

  lemma OrAbsorbs(mode: bv32, expected: bv32)
    requires mode & expected == expected
    ensures mode | expected == mode
  {
  }
}

/**
 * The Unix half of src/native: killing a process, and the permission bits that make a file
 * executable for the current user. File metadata and the system calls' outcomes are inputs; modes
 * are the 32-bit values `PermissionsExt::mode` works with.
 */
module NativeUnix {
  import opened Wrappers
  import opened Base
  import opened ModeBits

  /** `EXECUTABLE_BITS`: read and execute. */
  const ExecutableBits: bv32 := 5

  /** `CurrentUser`: the effective user and group ids. */
  datatype CurrentUser = CurrentUser(userId: nat, groupId: nat)

  /** The parts of a file's metadata these functions read. */
  datatype Metadata = Metadata(uid: nat, gid: nat, mode: bv32)

  /**
   * `executable_mode_for`: the read and execute bits of the owner when the current user owns the
   * file, else those of the group when the file's group is the user's, else those of others.
   */
  function ExecutableModeFor(meta: Result<Metadata, IoError>, user: CurrentUser): (r: Result<bv32, Error>)
    ensures meta.Err? ==> r == Err(Io(meta.error))
    ensures meta.Ok? ==> r.Ok?
    ensures meta.Ok? && meta.value.uid == user.userId ==> r.value == 0x140
    ensures meta.Ok? && meta.value.uid != user.userId && meta.value.gid == user.groupId ==> r.value == 0x28
    ensures meta.Ok? && meta.value.uid != user.userId && meta.value.gid != user.groupId ==> r.value == 0x5
  {
    if meta.Err? then Err(Io(meta.error))
    else
    var m := meta.value;
    if m.uid == user.userId then Ok(ExecutableBits << 6)
    else if m.gid == user.groupId then Ok(ExecutableBits << 3)
    else Ok(ExecutableBits)
  }

  /**
   * `is_executable`: the metadata is read once for the expected bits and once for the mode; the
   * file is executable when the mode holds every expected bit.
   */
  function IsExecutable(first: Result<Metadata, IoError>, second: Result<Metadata, IoError>, user: CurrentUser)
    : (r: Result<bool, Error>)
    ensures first.Err? ==> r == Err(Io(first.error))
    ensures first.Ok? && second.Err? ==> r == Err(Io(second.error))
    ensures first.Ok? && second.Ok? ==>
      var expected := ExecutableModeFor(first, user).value;
      r == Ok(second.value.mode & expected == expected)
  {
    var expected :- ExecutableModeFor(first, user);
    if second.Err? then Err(Io(second.error))
    else Ok(second.value.mode & expected == expected)
  }

  /** What `make_executable` did: the mode it asked for, when it got that far, and the result. */
  datatype MadeExecutable = MadeExecutable(newMode: Option<bv32>, result: Result<(), Error>)

  /**
   * `make_executable`: read the permissions, work out the expected bits (reading the metadata
   * again) and set the mode to the old one with those bits added.
   */
  function MakeExecutable(perms: Result<Metadata, IoError>, modeMeta: Result<Metadata, IoError>, user: CurrentUser,
                          setPermissions: bv32 -> Result<(), IoError>): (r: MadeExecutable)
    ensures perms.Err? ==> r == MadeExecutable(None, Err(Io(perms.error)))
    ensures perms.Ok? && modeMeta.Err? ==> r == MadeExecutable(None, Err(Io(modeMeta.error)))
    ensures perms.Ok? && modeMeta.Ok? ==>
      var newMode := AddBits(perms.value.mode, ExecutableModeFor(modeMeta, user).value);
      && r.newMode == Some(newMode)
      && (r.result.Ok? <==> setPermissions(newMode).Ok?)
      && (r.result.Err? ==> r.result.error == Io(setPermissions(newMode).error))
  {
    match perms
    case Err(e) => MadeExecutable(None, Err(Io(e)))
    case Ok(p) =>
      match ExecutableModeFor(modeMeta, user)
      case Err(e) => MadeExecutable(None, Err(e))
      case Ok(expected) =>
        var mode := AddBits(p.mode, expected);
        match setPermissions(mode)
        case Err(e) => MadeExecutable(Some(mode), Err(Io(e)))
        case Ok(_) => MadeExecutable(Some(mode), Ok(()))
  }

  /**
   * After a successful `make_executable`, the file (same owner and group, the new mode) is
   * executable for the same user.
   */
  lemma MakeThenIsExecutable(m: Metadata, user: CurrentUser, setPermissions: bv32 -> Result<(), IoError>)
    requires MakeExecutable(Ok(m), Ok(m), user, setPermissions).result.Ok?
    ensures var after := Ok(m.(mode := MakeExecutable(Ok(m), Ok(m), user, setPermissions).newMode.value));
      IsExecutable(after, after, user) == Ok(true)
  {
    var expected := ExecutableModeFor(Ok(m), user).value;
    var after := m.(mode := AddBits(m.mode, expected));
    assert ExecutableModeFor(Ok(after), user).value == expected;
  }

  /** The new mode keeps every bit outside the expected ones, and adds nothing when they are all there. */
  lemma MakeExecutablePreserves(m: Metadata, user: CurrentUser, setPermissions: bv32 -> Result<(), IoError>)
    ensures var expected := ExecutableModeFor(Ok(m), user).value;
      var newMode := MakeExecutable(Ok(m), Ok(m), user, setPermissions).newMode.value;
      && newMode & !expected == m.mode & !expected
      && (m.mode & expected == expected ==> newMode == m.mode)
  {
    KeepsOtherBits(m, user, setPermissions);
    KeepsExecutableMode(m, user, setPermissions);
  }

  /** The new mode agrees with the old one outside the expected bits. */
  lemma KeepsOtherBits(m: Metadata, user: CurrentUser, setPermissions: bv32 -> Result<(), IoError>)
    ensures var expected := ExecutableModeFor(Ok(m), user).value;
      MakeExecutable(Ok(m), Ok(m), user, setPermissions).newMode.value & !expected == m.mode & !expected
  {
    NewMode(m, user, setPermissions);
    AddBitsFrame(m.mode, ExecutableModeFor(Ok(m), user).value);
  }

  /** A mode that already has the expected bits is set again unchanged. */
  lemma KeepsExecutableMode(m: Metadata, user: CurrentUser, setPermissions: bv32 -> Result<(), IoError>)
    ensures var expected := ExecutableModeFor(Ok(m), user).value;
      m.mode & expected == expected ==> MakeExecutable(Ok(m), Ok(m), user, setPermissions).newMode.value == m.mode
  {
    NewMode(m, user, setPermissions);
    AddBitsFrame(m.mode, ExecutableModeFor(Ok(m), user).value);
  }

  /** The mode `make_executable` sets on a file whose metadata reads. */
  lemma NewMode(m: Metadata, user: CurrentUser, setPermissions: bv32 -> Result<(), IoError>)
    ensures MakeExecutable(Ok(m), Ok(m), user, setPermissions).newMode
      == Some(AddBits(m.mode, ExecutableModeFor(Ok(m), user).value))
  {
  }

  /** Making a file executable twice sets the same mode as doing it once. */
  lemma MakeExecutableIdempotent(m: Metadata, user: CurrentUser, setPermissions: bv32 -> Result<(), IoError>)
    ensures var once := MakeExecutable(Ok(m), Ok(m), user, setPermissions).newMode.value;
      var m1 := m.(mode := once);
      MakeExecutable(Ok(m1), Ok(m1), user, setPermissions).newMode.value == once
  {
    var expected := ExecutableModeFor(Ok(m), user).value;
    var m1 := m.(mode := AddBits(m.mode, expected));
    assert ExecutableModeFor(Ok(m1), user).value == expected;
    AddBitsPresent(m1.mode, expected);
  }

  /**
   * The library's own check: a freshly created file (mode 0o644) owned by the user is not
   * executable, and after `make_executable` it is.
   */
  lemma FreshFileExample(user: CurrentUser, setPermissions: bv32 -> Result<(), IoError>)
    requires setPermissions(0x1E4).Ok?
    ensures var created := Ok(Metadata(user.userId, user.groupId, 0x1A4));
      && IsExecutable(created, created, user) == Ok(false)
      && MakeExecutable(created, created, user, setPermissions) == MadeExecutable(Some(0x1E4), Ok(()))
  {
    assert AddBits(0x1A4, 0x140) == 0x1E4;
  }

  /** The outcome of the `kill` system call: success, an OS error number, or another failure. */
  datatype KillOutcome = Killed | Errno(errno: int) | OtherFailure

  /** The process id `Pid::from_raw(id as i32)` names: ids of 2^31 and above wrap to negative values. */
  function KillTarget(id: nat): (pid: int)
    requires id < 0x1_0000_0000
    ensures id < 0x8000_0000 ==> pid == id
    ensures id >= 0x8000_0000 ==> pid == id - 0x1_0000_0000 && pid < 0
  {
    if id < 0x8000_0000 then id else id - 0x1_0000_0000
  }

  /** `kill_process`: `SIGKILL`; a failure carries the id and, for an OS error, its number. */
  function KillProcess(id: nat, outcome: KillOutcome): (r: Result<(), KillFailedError>)
    ensures r.Ok? <==> outcome.Killed?
    ensures r.Err? ==> r.error.pid == id
    ensures r.Err? ==> (r.error.errno.Some? <==> outcome.Errno?)
    ensures r.Err? && outcome.Errno? ==> r.error.errno.value == outcome.errno
  {
    match outcome
    case Killed => Ok(())
    case Errno(n) => Err(KillFailedError(id, Some(n)))
    case OtherFailure => Err(KillFailedError(id, None))
  }

  /** `current_user`: always the effective ids. */
  function GetCurrentUser(effectiveUid: nat, effectiveGid: nat): (r: Option<CurrentUser>)
    ensures r == Some(CurrentUser(effectiveUid, effectiveGid))
  {
    Some(CurrentUser(effectiveUid, effectiveGid))
  }
}

=== FILE: native_windows.dfy ===
/**
 * The Windows half of src/native: killing a process through the Win32 API, and deciding whether a
 * file is executable by its `.exe` extension. The handles and return codes of the Win32 calls and
 * the outcome of opening the file are inputs.
 */
module NativeWindows {
  import opened Wrappers
  import opened Base
  import Text

  /** `current_user`: Windows has no user and group ids to compare against. */
  function CurrentUser(): (r: Option<(nat, nat)>)
    ensures r.None?
  {
    None
  }

  /** The Win32 calls `kill_process` makes, in order. */
  datatype WinCall = OpenProcess(pid: nat) | TerminateProcess(handle: int, exitCode: int) | CloseHandle(closed: int)

  /** The exit code a terminated process reports. */
  const TerminatedExitCode := 101

  /** What `kill_process` did and how it ended. */
  datatype Killed = Killed(calls: seq<WinCall>, result: Result<(), KillFailedError>)

  /**
   * `kill_process`: open the process for termination, terminate it with exit code 101 and close
   * the handle. A null or invalid handle, or a zero return from either call, is a failure naming
   * the process id; a failed termination leaves the handle open.
   */
  function KillProcess(id: nat, handle: int, terminated: int, closed: int): (k: Killed)
    ensures k.result.Ok? <==> handle != 0 && handle != -1 && terminated != 0 && closed != 0
    ensures k.result.Err? ==> k.result.error == KillFailedError(id, None)
    ensures |k.calls| >= 1 && k.calls[0] == OpenProcess(id)
    ensures TerminateProcess(handle, TerminatedExitCode) in k.calls <==> handle != 0 && handle != -1
    ensures CloseHandle(handle) in k.calls <==> handle != 0 && handle != -1 && terminated != 0
  {
    var failed := Err(KillFailedError(id, None));
    if handle == 0 || handle == -1 then Killed([OpenProcess(id)], failed)
    else if terminated == 0 then Killed([OpenProcess(id), TerminateProcess(handle, TerminatedExitCode)], failed)
    else
      var calls := [OpenProcess(id), TerminateProcess(handle, TerminatedExitCode), CloseHandle(handle)];
      Killed(calls, if closed == 0 then failed else Ok(()))
  }

  /** `Path::file_name`: the last component, unless the path has none or ends in `..`. */
  function FileName(p: Path): (name: Option<string>)
    ensures name.Some? <==> |p.parts| > 0 && p.parts[|p.parts| - 1] != ".."
    ensures name.Some? ==> name.value == p.parts[|p.parts| - 1]
  {
    if |p.parts| == 0 || p.parts[|p.parts| - 1] == ".." then None else Some(p.parts[|p.parts| - 1])
  }

  /** The index of the last `.` in `s`. */
  function LastDot(s: string): (i: Option<nat>)
    ensures i.Some? ==> i.value < |s| && s[i.value] == '.' && '.' !in s[i.value + 1..]
    ensures i.None? ==> '.' !in s
  {
    if |s| == 0 then None
    else if s[|s| - 1] == '.' then Some(|s| - 1)
    else
      var i := LastDot(s[..|s| - 1]);
      assert i.Some? ==> s[i.value + 1..] == s[..|s| - 1][i.value + 1..] + [s[|s| - 1]];
      assert i.None? ==> s == s[..|s| - 1] + [s[|s| - 1]];
      i
  }

  /**
   * `Path::extension` of a file name: what follows the last `.`, provided something precedes that
   * dot; `..` has none.
   */
  function Extension(name: string): (ext: Option<string>)
    ensures ext.Some? ==> |ext.value| < |name| && '.' !in ext.value
  {
    if name == ".." then None
    else
      match LastDot(name)
      case None => None
      case Some(i) => if i == 0 then None else Some(name[i + 1..])
  }

  /** The reference reading of `Path::extension`: a non-leading dot with no dot after it. */
  predicate ExtensionAt(name: string, i: nat) {
    0 < i < |name| && name[i] == '.' && '.' !in name[i + 1..]
  }

  /** `Extension` agrees with the reference reading, in both directions. */
  lemma ExtensionMeans(name: string, ext: string)
    requires name != ".."
    ensures Extension(name) == Some(ext) <==> exists i | 0 <= i < |name| :: ExtensionAt(name, i) && ext == name[i + 1..]
  {
    if Extension(name) == Some(ext) {
      ExtensionFound(name);
    }
    if exists i | 0 <= i < |name| :: ExtensionAt(name, i) && ext == name[i + 1..] {
      var i :| 0 <= i < |name| && ExtensionAt(name, i) && ext == name[i + 1..];
      ExtensionAtIsExtension(name, i);
    }
  }

  lemma ExtensionFound(name: string)
    requires Extension(name).Some?
    ensures var i := LastDot(name).value; ExtensionAt(name, i) && Extension(name).value == name[i + 1..]
  {
  }

  lemma ExtensionAtIsExtension(name: string, i: nat)
    requires name != ".." && ExtensionAt(name, i)
    ensures Extension(name) == Some(name[i + 1..])
  {
    LastDotUnique(name, i);
  }

  /** A dot with no dot after it is the last one. */
  lemma LastDotUnique(s: string, i: nat)
    requires i < |s| && s[i] == '.' && '.' !in s[i + 1..]
    ensures LastDot(s) == Some(i)
  {
  }

  /** The message of a file name without an extension. */
  const NoExtension := "Unable to get `Path` extension"

  /** `path_ends_in_exe`: whether the extension is exactly `exe`; a name without one is an error. */
  function PathEndsInExe(name: Option<string>): (r: Result<bool, Error>)
    ensures r.Err? <==> name.None? || Extension(name.value).None?
    ensures r.Err? ==> r.error == Message(NoExtension)
    ensures r.Ok? ==> (r.value <==> Extension(name.value) == Some("exe"))
  {
    if name.None? then Err(Message(NoExtension))
    else
      match Extension(name.value)
      case None => Err(Message(NoExtension))
      case Some(ext) => Ok(ext == "exe")
  }

  /** A file name counts as executable exactly when it ends in `.exe` with something before it. */
  lemma {:induction false} EndsInExeIffSuffix(name: string)
    ensures PathEndsInExe(Some(name)) == Ok(true) <==> |name| > 4 && Text.EndsWith(name, ".exe")
  {
    var n := |name|;
    if |name| > 4 && Text.EndsWith(name, ".exe") {
      assert name[n - 4..] == ".exe";
      assert name[n - 4] == '.';
      assert name[n - 3..] == "exe";
      LastDotUnique(name, n - 4);
      assert name != "..";
    }
    if PathEndsInExe(Some(name)) == Ok(true) {
      var i := LastDot(name).value;
      assert name[i + 1..] == "exe";
      assert i == n - 4;
      assert name[n - 4..] == [name[i]] + name[i + 1..];
    }
  }

  /** `is_executable`: the file must open, and then its name must end in `.exe`. */
  function IsExecutable(open: Result<(), IoError>, path: Path): (r: Result<bool, Error>)
    ensures open.Err? ==> r == Err(Io(open.error))
    ensures open.Ok? ==> r == PathEndsInExe(FileName(path))
  {
    match open
    case Err(e) => Err(Io(e))
    case Ok(_) => PathEndsInExe(FileName(path))
  }

  /** The message of a binary that is not an `.exe`. */
  const NotExecutable := "Downloaded binaries should be executable by default"

  /**
   * `make_executable`: nothing can be changed on Windows, so a file that is not executable
   * already is an error, and so is failing to tell.
   */
  function MakeExecutable(open: Result<(), IoError>, path: Path): (r: Result<(), Error>)
    ensures r.Ok? <==> IsExecutable(open, path) == Ok(true)
    ensures IsExecutable(open, path) == Ok(false) ==> r == Err(Message(NotExecutable))
    ensures IsExecutable(open, path).Err? ==> r == Err(IsExecutable(open, path).error)
  {
    var executable :- IsExecutable(open, path);
    if executable then Ok(()) else Err(Message(NotExecutable))
  }

  /** Making a file that opens executable succeeds exactly for a name ending in `.exe`. */
  lemma MakeExecutableNeedsExe(path: Path)
    requires |path.parts| > 0
    ensures var name := path.parts[|path.parts| - 1];
      MakeExecutable(Ok(()), path).Ok? <==> |name| > 4 && Text.EndsWith(name, ".exe")
  {
    var name := path.parts[|path.parts| - 1];
    EndsInExeIffSuffix(name);
  }
}

=== FILE: percent.dfy ===
/**
 * Percent-encoding as done by the `percent_encoding` crate with the ASCII set that both
 * `escape_path` (src/utils.rs) and the git cache path (src/crates/git.rs) use: the C0 controls
 * and DEL, plus `/ \ < > : " | ? *` and space. Every byte that is not ASCII is always encoded.
 * The result is a single safe file-name component.
 */
module Percent {

  newtype byte = b: int | 0 <= b < 256

  /** The set rustwide builds as `CONTROLS.add(b'/').add(b'\\')…add(b' ')`. */
  predicate InEncodeSet(b: byte) {
    b < 0x20 || b == 0x7F
    || b == 0x2F /* / */ || b == 0x5C /* \ */ || b == 0x3C /* < */ || b == 0x3E /* > */
    || b == 0x3A /* : */ || b == 0x22 /* " */ || b == 0x7C /* | */ || b == 0x3F /* ? */
    || b == 0x2A /* * */ || b == 0x20 /* space */
  }

  /** Bytes that `percent_encode` replaces by `%XX`: those in the set and every non-ASCII byte. */
  predicate Escaped(b: byte) {
    b >= 0x80 || InEncodeSet(b)
  }

  /** A character that may appear in an encoded component: printable ASCII outside the set. */
  predicate SafeChar(c: char) {
    0x20 < c as int < 0x7F && !InEncodeSet(c as int as byte)
  }

  function HexDigit(d: int): (c: char)
    requires 0 <= d < 16
    ensures SafeChar(c)
  {
    if d < 10 then (48 + d) as char else (55 + d) as char
  }

  predicate IsHexDigit(c: char) {
    ('0' <= c <= '9') || ('A' <= c <= 'F') || ('a' <= c <= 'f')
  }

  function HexValue(c: char): (d: int)
    requires IsHexDigit(c)
    ensures 0 <= d < 16
  {
    if '0' <= c <= '9' then c as int - 48
    else if 'A' <= c <= 'F' then c as int - 55
    else c as int - 87
  }

  /** One byte of output: `%XX` with upper-case hex digits, or the byte itself as an ASCII character. */
  function EncodeByte(b: byte): (r: string)
    ensures |r| == (if Escaped(b) then 3 else 1)
  {
    if Escaped(b) then ['%', HexDigit(b as int / 16), HexDigit(b as int % 16)]
    else [b as int as char]
  }

  /** `percent_encode(bytes, &ENCODE_SET).to_string()`. */
  function Encode(bytes: seq<byte>): (r: string)
    ensures forall i | 0 <= i < |r| :: SafeChar(r[i]) || r[i] == '%'
    ensures |r| >= |bytes|
  {
    if |bytes| == 0 then "" else EncodeByte(bytes[0]) + Encode(bytes[1..])
  }

  /**
   * A reference percent-decoder (`percent_decode`): `%` followed by two hex digits becomes that byte,
   * every other character stands for its own code (the encoded text is ASCII).
   */
  function Decode(s: string): seq<byte>
    decreases |s|
  {
    if |s| == 0 then []
    else if |s| >= 3 && s[0] == '%' && IsHexDigit(s[1]) && IsHexDigit(s[2]) then
      [(HexValue(s[1]) * 16 + HexValue(s[2])) as byte] + Decode(s[3..])
    else
      [(s[0] as int % 256) as byte] + Decode(s[1..])
  }

  lemma HexRoundTrip(d: int)
    requires 0 <= d < 16
    ensures IsHexDigit(HexDigit(d)) && HexValue(HexDigit(d)) == d
  {
  }

  /** Decoding undoes the encoding of any byte string that holds no literal `%`. */
  lemma {:induction false} DecodeEncode(bytes: seq<byte>)
    requires forall i | 0 <= i < |bytes| :: bytes[i] != 0x25
    ensures Decode(Encode(bytes)) == bytes
  {
    if |bytes| > 0 {
      var b := bytes[0];
      var rest := Encode(bytes[1..]);
      var s := EncodeByte(b) + rest;
      DecodeEncode(bytes[1..]);
      if Escaped(b) {
        HexRoundTrip(b as int / 16);
        HexRoundTrip(b as int % 16);
        assert s[3..] == rest;
      } else {
        assert s[0] != '%';
        assert s[1..] == rest;
      }
      assert [b] + bytes[1..] == bytes;
    }
  }

  /** Two `%`-free inputs never share an encoding. */
  lemma EncodeInjective(a: seq<byte>, b: seq<byte>)
    requires forall i | 0 <= i < |a| :: a[i] != 0x25
    requires forall i | 0 <= i < |b| :: b[i] != 0x25
    requires Encode(a) == Encode(b)
    ensures a == b
  {
    DecodeEncode(a);
    DecodeEncode(b);
  }

  /** ASCII outside the set passes through unchanged. */
  lemma {:induction false} EncodePlain(bytes: seq<byte>)
    requires forall i | 0 <= i < |bytes| :: !Escaped(bytes[i])
    ensures |Encode(bytes)| == |bytes|
    ensures forall i | 0 <= i < |bytes| :: Encode(bytes)[i] as int == bytes[i] as int
  {
    if |bytes| > 0 {
      EncodePlain(bytes[1..]);
    }
  }

  /**
   * The encoding is not injective once `%` occurs: the literal `%2F` is kept as it is, so `a/b`
   * and `a%2Fb` are written to the same component.
   */
  lemma EncodeCollision()
    ensures Encode([0x61, 0x2F, 0x62]) == Encode([0x61, 0x25, 0x32, 0x46, 0x62]) == "a%2Fb"
  {
  }

  /** UTF-8 encoding of one Unicode scalar value (`str::as_bytes`). */
  function Utf8Char(c: char): (r: seq<byte>)
    ensures 1 <= |r| <= 4
    ensures |r| == 1 <==> c as int < 0x80
    ensures |r| == 1 ==> r[0] as int == c as int
    ensures |r| > 1 ==> forall i | 0 <= i < |r| :: r[i] >= 0x80
  {
    var n := c as int;
    if n < 0x80 then [n as byte]
    else if n < 0x800 then [(0xC0 + n / 64) as byte, (0x80 + n % 64) as byte]
    else if n < 0x10000 then [(0xE0 + n / 4096) as byte, (0x80 + n / 64 % 64) as byte, (0x80 + n % 64) as byte]
    else [(0xF0 + n / 262144) as byte, (0x80 + n / 4096 % 64) as byte, (0x80 + n / 64 % 64) as byte, (0x80 + n % 64) as byte]
  }

  function Utf8(s: string): seq<byte> {
    if |s| == 0 then [] else Utf8Char(s[0]) + Utf8(s[1..])
  }

  /** `percent_encode(s.as_bytes(), &ENCODE_SET).to_string()` for a Rust `str`. */
  function EncodeStr(s: string): (r: string)
    ensures forall i | 0 <= i < |r| :: SafeChar(r[i]) || r[i] == '%'
  {
    Encode(Utf8(s))
  }
}

=== FILE: prepare.dfy ===
/**
 * `Prepare` (src/prepare.rs): the control flow that gets a crate's source ready for a build.
 * Every effect is an input: the outcome of copying the source, which files exist, the manifest as
 * read from disk, and the lines and result of each cargo invocation (the n-th `generate-lockfile`
 * and the n-th `fetch`). The model records the effects it performs, in order, as a trace.
 */
module Prepare {
  import opened Wrappers
  import opened Base
  import opened Text
  import Toml
  import TomlTweaker
  import Crates

  /** One cargo invocation as seen by `prepare`: the lines it printed and how it ended. */
  datatype CargoRun = CargoRun(lines: seq<string>, result: Result<(), Error>)

  /** What reading `Cargo.toml` gives `TomlTweaker::new`. */
  datatype ManifestSource = Unreadable | Unparsable | Parsed(table: Toml.Table)

  /** The outside world as `prepare` observes it. */
  datatype Env = Env(
    copySource: Result<(), Error>,
    cargoTomlIsFile: bool,
    metadata: Result<(), Error>,
    cargoConfigExists: bool,
    removeCargoConfig: Result<(), IoError>,
    manifest: ManifestSource,
    present: Path -> bool,
    saveManifest: Result<(), IoError>,
    lockfileExists: bool,
    fetchRegistryIndexDuringBuilds: bool,
    generateLockfile: nat -> CargoRun,
    fetch: nat -> CargoRun)

  /** An effect `prepare` performs. */
  datatype Event =
    | CopiedSource
    | RanCargo(args: seq<string>, env: seq<(string, string)>)
    | RemovedCargoConfig
    | WroteManifest(table: Toml.Table)

  /** The mutable part of `Prepare`, plus the trace and how many runs of each command happened. */
  datatype State = State(lockfileCaptured: bool, generateRuns: nat, fetchRuns: nat, trace: seq<Event>)

  const MetadataArgs: seq<string> := ["metadata", "--manifest-path", "Cargo.toml", "--no-deps"]
  const FetchArgs: seq<string> := ["fetch", "--locked", "--manifest-path", "Cargo.toml"]
  const YankedMarker: string := "failed to select a version for the requirement"
  const OutdatedMarker: string := "Cargo.lock needs to be updated but --locked was passed to prevent this"

  /** The `generate-lockfile` arguments; the offline flag is added when the index is not fetched during builds. */
  function GenerateArgs(fetchIndex: bool): seq<string> {
    ["generate-lockfile", "--manifest-path", "Cargo.toml"] + (if fetchIndex then [] else ["-Zno-index-update"])
  }

  function GenerateEnv(fetchIndex: bool): seq<(string, string)> {
    if fetchIndex then [] else [("__CARGO_TEST_CHANNEL_OVERRIDE_DO_NOT_USE_THIS", "nightly")]
  }

  /** Some line satisfies the `process_lines` callback's test. */
  predicate AnyContains(lines: seq<string>, marker: string) {
    exists i | 0 <= i < |lines| :: Contains(lines[i], marker)
  }

  predicate AnyEndsWith(lines: seq<string>, marker: string) {
    exists i | 0 <= i < |lines| :: EndsWith(lines[i], marker)
  }

  /** `validate_manifest`. */
  function ValidateManifest(env: Env): (r: Result<(), Error>)
    ensures r.Ok? <==> env.cargoTomlIsFile && env.metadata.Ok?
    ensures !env.cargoTomlIsFile ==> r == Err(Prepare(MissingCargoToml))
    ensures env.cargoTomlIsFile && env.metadata.Err? ==> r == Err(Prepare(InvalidCargoTomlSyntax))
  {
    if !env.cargoTomlIsFile then Err(Prepare(MissingCargoToml))
    else if env.metadata.Err? then Err(Prepare(InvalidCargoTomlSyntax))
    else Ok(())
  }

  /**
   * `tweak_toml`: read, tweak and save the manifest; `Panicked` when the tweaker panics, which
   * includes every crate whose display panics.
   */
  function TweakToml(env: Env, sourceDir: Path, krate: Crates.Crate, patches: seq<CratePatch>): (r: Exit<Result<Toml.Table, Error>>)
    ensures env.manifest.Unreadable? ==> r == Returned(Err(Prepare(MissingCargoToml)))
    ensures env.manifest.Unparsable? ==> r == Returned(Err(Prepare(InvalidCargoTomlSyntax)))
    ensures r.Panicked? <==>
      env.manifest.Parsed?
      && (Crates.DisplayPanics(krate) || TomlTweaker.Tweak(env.manifest.table, Some(sourceDir), env.present, patches).Panicked?)
    ensures r.Returned? && r.value.Ok? ==>
      env.manifest.Parsed? && env.saveManifest.Ok? && !Crates.DisplayPanics(krate)
      && TomlTweaker.Tweak(env.manifest.table, Some(sourceDir), env.present, patches) == Returned(r.value.value)
    ensures env.manifest.Parsed? && !Crates.DisplayPanics(krate) ==>
      var tweaked := TomlTweaker.Tweak(env.manifest.table, Some(sourceDir), env.present, patches);
      && (tweaked.Returned? && env.saveManifest.Ok? ==> r == Returned(Ok(tweaked.value)))
      && (tweaked.Returned? && env.saveManifest.Err? ==> r == Returned(Err(Io(env.saveManifest.error))))
  {
    match env.manifest
    case Unreadable => Returned(Err(Prepare(MissingCargoToml)))
    case Unparsable => Returned(Err(Prepare(InvalidCargoTomlSyntax)))
    case Parsed(table) =>
      var tweaked :- TomlTweaker.TweakCrate(table, Some(sourceDir), env.present, patches, !Crates.DisplayPanics(krate));
      if env.saveManifest.Err? then Returned(Err(Io(env.saveManifest.error)))
      else Returned(Ok(tweaked))
  }

  /**
   * `capture_lockfile(force)`: skipped when not forced and a lockfile exists; otherwise one
   * `generate-lockfile` run, whose failure after a "failed to select a version" line is
   * `YankedDependencies`. Success marks the lockfile as captured.
   */
  function CaptureLockfile(env: Env, st: State, force: bool): (r: (State, Result<(), Error>))
    ensures !force && env.lockfileExists ==> r == (st, Ok(()))
    ensures r.1.Ok? && (force || !env.lockfileExists) ==> r.0.lockfileCaptured
    ensures r.1.Err? ==> r.0.lockfileCaptured == st.lockfileCaptured
    ensures r.0.fetchRuns == st.fetchRuns
    ensures r.0.generateRuns <= st.generateRuns + 1
    ensures st.trace <= r.0.trace
    ensures force || !env.lockfileExists ==>
      var run := env.generateLockfile(st.generateRuns);
      && r.0.generateRuns == st.generateRuns + 1
      && r.0.trace == st.trace + [RanCargo(GenerateArgs(env.fetchRegistryIndexDuringBuilds), GenerateEnv(env.fetchRegistryIndexDuringBuilds))]
      && (run.result.Ok? <==> r.1.Ok?)
      && (run.result.Err? && AnyContains(run.lines, YankedMarker) ==> r.1 == Err(Prepare(YankedDependencies)))
      && (run.result.Err? && !AnyContains(run.lines, YankedMarker) ==> r.1 == run.result)
  {
    if !force && env.lockfileExists then (st, Ok(()))
    else
      var fetchIndex := env.fetchRegistryIndexDuringBuilds;
      var run := env.generateLockfile(st.generateRuns);
      var st' := st.(generateRuns := st.generateRuns + 1,
                     trace := st.trace + [RanCargo(GenerateArgs(fetchIndex), GenerateEnv(fetchIndex))]);
      if run.result.Err? && AnyContains(run.lines, YankedMarker) then (st', Err(Prepare(YankedDependencies)))
      else if run.result.Err? then (st', run.result)
      else (st'.(lockfileCaptured := true), Ok(()))
  }

  /**
   * `fetch_deps`: `cargo fetch --locked`; when it fails with the outdated-lockfile message and the
   * lockfile was not captured yet, the lockfile is regenerated (forced) and the fetch retried.
   */
  function FetchDeps(env: Env, st: State): (r: (State, Result<(), Error>))
    ensures st.lockfileCaptured ==>
      r.0.fetchRuns == st.fetchRuns + 1 && r.0.generateRuns == st.generateRuns && r.0.trace == st.trace + [RanCargo(FetchArgs, [])]
    ensures st.fetchRuns + 1 <= r.0.fetchRuns <= st.fetchRuns + 2
    ensures r.0.generateRuns <= st.generateRuns + 1
    ensures st.trace < r.0.trace && r.0.trace[|st.trace|] == RanCargo(FetchArgs, [])
    ensures r.0.generateRuns == st.generateRuns + 1 ==>
      var first := env.fetch(st.fetchRuns);
      && !st.lockfileCaptured && first.result.Err? && AnyEndsWith(first.lines, OutdatedMarker)
    ensures env.fetch(st.fetchRuns).result.Ok? ==> r == (st.(fetchRuns := st.fetchRuns + 1, trace := st.trace + [RanCargo(FetchArgs, [])]), Ok(()))
    ensures var first := env.fetch(st.fetchRuns);
      first.result.Err? && !(AnyEndsWith(first.lines, OutdatedMarker) && !st.lockfileCaptured) ==>
        r == (st.(fetchRuns := st.fetchRuns + 1, trace := st.trace + [RanCargo(FetchArgs, [])]), first.result)
    ensures var first := env.fetch(st.fetchRuns);
      first.result.Err? && AnyEndsWith(first.lines, OutdatedMarker) && !st.lockfileCaptured ==>
        var fetchIndex := env.fetchRegistryIndexDuringBuilds;
        var regen := env.generateLockfile(st.generateRuns);
        && r.0.generateRuns == st.generateRuns + 1
        && |r.0.trace| > |st.trace| + 1
        && r.0.trace[|st.trace| + 1] == RanCargo(GenerateArgs(fetchIndex), GenerateEnv(fetchIndex))
        && (regen.result.Err? ==>
              r.0.fetchRuns == st.fetchRuns + 1
              && r.1 == (if AnyContains(regen.lines, YankedMarker) then Err(Prepare(YankedDependencies)) else regen.result))
        && (regen.result.Ok? ==>
              var second := env.fetch(st.fetchRuns + 1);
              r.0.fetchRuns == st.fetchRuns + 2 && (r.1.Ok? <==> second.result.Ok?) && (r.1.Err? ==> r.1 == second.result))
    decreases if st.lockfileCaptured then 0 else 1
  {
    var run := env.fetch(st.fetchRuns);
    var st' := st.(fetchRuns := st.fetchRuns + 1, trace := st.trace + [RanCargo(FetchArgs, [])]);
    if run.result.Ok? then (st', Ok(()))
    else if AnyEndsWith(run.lines, OutdatedMarker) && !st.lockfileCaptured then
      var (st'', captured) := CaptureLockfile(env, st', true);
      if captured.Err? then (st'', captured)
      else
        assert st''.lockfileCaptured && st''.fetchRuns == st.fetchRuns + 1;
        FetchDeps(env, st'')
    else
      (st', run.result)
  }

  /** The state a fresh `Prepare::new` starts from. */
  const Initial: State := State(false, 0, 0, [])

  /** The effects of the steps before the manifest is tweaked, when they all succeed. */
  function SetupTrace(env: Env): seq<Event> {
    [CopiedSource, RanCargo(MetadataArgs, [])] + (if env.cargoConfigExists then [RemovedCargoConfig] else [])
  }

  /** The first three steps of `prepare`: copy the source, `validate_manifest`, `remove_cargo_config`. */
  function Setup(env: Env): (r: (State, Result<(), Error>))
    ensures r.1.Ok? <==>
      env.copySource.Ok? && env.cargoTomlIsFile && env.metadata.Ok?
      && !(env.cargoConfigExists && env.removeCargoConfig.Err?)
    ensures r.1.Ok? ==> r.0 == Initial.(trace := SetupTrace(env))
    ensures env.copySource.Err? ==> r == (Initial, env.copySource)
    ensures env.copySource.Ok? && !env.cargoTomlIsFile ==>
      r == (Initial.(trace := [CopiedSource]), Err(Prepare(MissingCargoToml)))
  {
    if env.copySource.Err? then (Initial, env.copySource)
    else
      var st0 := Initial.(trace := [CopiedSource]);
      var validated := ValidateManifest(env);
      var st1 := if env.cargoTomlIsFile then st0.(trace := st0.trace + [RanCargo(MetadataArgs, [])]) else st0;
      if validated.Err? then (st1, validated)
      else if env.cargoConfigExists && env.removeCargoConfig.Err? then
        (st1, Err(Io(env.removeCargoConfig.error)))
      else
        (if env.cargoConfigExists then st1.(trace := st1.trace + [RemovedCargoConfig]) else st1, Ok(()))
  }

  /** The last two steps: `capture_lockfile(false)` and `fetch_deps`. */
  function LockAndFetch(env: Env, st: State): (r: (State, Result<(), Error>))
    requires !st.lockfileCaptured
    ensures st.trace <= r.0.trace
    ensures r.1.Ok? && env.lockfileExists ==> |r.0.trace| > |st.trace| && r.0.trace[|st.trace|] == RanCargo(FetchArgs, [])
    ensures r.1.Ok? && !env.lockfileExists ==>
      r.0.trace == st.trace + [RanCargo(GenerateArgs(env.fetchRegistryIndexDuringBuilds), GenerateEnv(env.fetchRegistryIndexDuringBuilds)),
                               RanCargo(FetchArgs, [])]
  {
    var (st4, captured) := CaptureLockfile(env, st, false);
    if captured.Err? then (st4, captured)
    else FetchDeps(env, st4)
  }

  /**
   * `prepare`: copy the source, validate the manifest, remove `.cargo/config`, tweak the manifest,
   * capture the lockfile unless one exists, fetch the dependencies. The first error ends it.
   */
  function RunPrepare(env: Env, sourceDir: Path, krate: Crates.Crate, patches: seq<CratePatch>): (r: Exit<(State, Result<(), Error>)>)
    ensures env.copySource.Err? ==> r == Returned((Initial, env.copySource))
    ensures r.Returned? && r.value.1.Ok? ==>
      env.copySource.Ok? && env.cargoTomlIsFile && env.metadata.Ok?
      && (env.cargoConfigExists ==> env.removeCargoConfig.Ok?)
      && env.manifest.Parsed? && !Crates.DisplayPanics(krate)
      && var k := |SetupTrace(env)|;
      && var trace := r.value.0.trace;
      && |trace| >= k + 2
      && trace[..k] == SetupTrace(env)
      && trace[k].WroteManifest?
      && TomlTweaker.Tweak(env.manifest.table, Some(sourceDir), env.present, patches) == Returned(trace[k].table)
      && (env.lockfileExists ==> trace[k + 1] == RanCargo(FetchArgs, []))
      && (!env.lockfileExists ==>
            trace[k + 1..] == [RanCargo(GenerateArgs(env.fetchRegistryIndexDuringBuilds), GenerateEnv(env.fetchRegistryIndexDuringBuilds)),
                               RanCargo(FetchArgs, [])])
    ensures env.copySource.Ok? && !env.cargoTomlIsFile ==>
      r == Returned((Initial.(trace := [CopiedSource]), Err(Prepare(MissingCargoToml))))
    ensures r.Panicked? <==>
      Setup(env).1.Ok? && env.manifest.Parsed?
      && (Crates.DisplayPanics(krate) || TomlTweaker.Tweak(env.manifest.table, Some(sourceDir), env.present, patches).Panicked?)
  {
    var (st2, setup) := Setup(env);
    if setup.Err? then Returned((st2, setup))
    else
      var tweaked :- TweakToml(env, sourceDir, krate, patches);
      if tweaked.Err? then Returned((st2, Err(tweaked.error)))
      else
        var st3 := st2.(trace := st2.trace + [WroteManifest(tweaked.value)]);
        var done := LockAndFetch(env, st3);
        TraceExtends(st2.trace, WroteManifest(tweaked.value), done.0.trace);
        Returned(done)
  }

  /** A trace that extends `setup` followed by `w` starts with `setup`, then `w`, then the rest. */
  lemma TraceExtends(setup: seq<Event>, w: Event, full: seq<Event>)
    requires setup + [w] <= full
    ensures |full| > |setup| && full[..|setup|] == setup && full[|setup|] == w
    ensures full == setup + [w] + full[|setup| + 1..]
  {
    assert full[..|setup| + 1] == setup + [w];
    assert full[..|setup|] == full[..|setup| + 1][..|setup|];
  }

  // ---------------------------------------------------------------------------------------
  // Properties
  // ---------------------------------------------------------------------------------------

  /**
   * Fetching runs `cargo fetch` at most twice and `generate-lockfile` at most once, and a retry needs
   * a failed first fetch that printed the outdated-lockfile message before any lockfile was captured.
   */
  lemma {:induction false} FetchRetriesAtMostOnce(env: Env, st: State)
    ensures var r := FetchDeps(env, st);
      && r.0.fetchRuns - st.fetchRuns <= 2
      && (r.0.fetchRuns == st.fetchRuns + 2 ==>
            !st.lockfileCaptured && env.fetch(st.fetchRuns).result.Err?
            && AnyEndsWith(env.fetch(st.fetchRuns).lines, OutdatedMarker))
  {
    var run := env.fetch(st.fetchRuns);
    var st' := st.(fetchRuns := st.fetchRuns + 1, trace := st.trace + [RanCargo(FetchArgs, [])]);
    if run.result.Err? && AnyEndsWith(run.lines, OutdatedMarker) && !st.lockfileCaptured {
      var (st'', captured) := CaptureLockfile(env, st', true);
      if captured.Ok? {
        assert st''.lockfileCaptured;
        assert FetchDeps(env, st'').0.fetchRuns == st''.fetchRuns + 1;
      }
    }
  }
}

=== FILE: registry.dfy ===
/**
 * Crates from a registry (src/crates/registry.rs): where their archives are cached, the URL
 * they are downloaded from, the cache check before a download, purging, and unpacking an
 * archive with its top directory dropped. Downloads, the index clone and the archive reader are
 * inputs.
 */
module Registry {
  import opened Wrappers
  import opened Text
  import opened Seqs
  import opened Base

  /** `Registry`: crates.io, or an alternative registry by index URL. */
  datatype Registry = CratesIo | Alternative(index: string)

  /** `RegistryCrate`. */
  datatype RegistryCrate = RegistryCrate(registry: Registry, name: string, version: string)

  /** `CRATES_ROOT`. */
  const CratesRoot := "https://static.crates.io/crates"

  /** The characters `index_folder` replaces: those some file systems refuse in a name, and `.`. */
  const UnsafeChars: set<char> := {'/', '\\', '<', '>', '|', '?', '*', '"', ':', '.'}

  /** No character of `s` is one `index_folder` would replace. */
  predicate Safe(s: string) {
    forall i | 0 <= i < |s| :: s[i] !in UnsafeChars
  }

  /** `AlternativeRegistry::index_folder`: every unsafe character becomes `-`, the others stay. */
  function IndexFolder(index: string): (r: string)
    ensures |r| == |index|
    ensures forall i | 0 <= i < |index| :: r[i] == (if index[i] in UnsafeChars then '-' else index[i])
  {
    ReplaceChars(index, UnsafeChars, '-')
  }

  /** An index folder never holds an unsafe character, so it is one plain directory name. */
  lemma IndexFolderIsSafe(index: string)
    ensures Safe(IndexFolder(index))
  {
  }

  /** Sanitising twice changes nothing more. */
  lemma IndexFolderIdempotent(index: string)
    ensures IndexFolder(IndexFolder(index)) == IndexFolder(index)
  {
  }

  /** `Registry::cache_folder` as written: an alternative registry uses the raw index URL. */
  function CacheFolderAsWritten(r: Registry): string {
    match r
    case CratesIo => "cratesios-sources"
    case Alternative(index) => index + "-sources"
  }

  /**
   * For every `https://` index URL the folder name as written keeps the URL's colon and slashes,
   * so joining it under the cache directory nests `https:`, the host and the URL's path instead
   * of adding one directory.
   */
  lemma CacheFolderAsWrittenHasSeparators(index: string)
    requires StartsWith(index, "https://")
    ensures index[5] == ':' && index[6] == '/'
    ensures CacheFolderAsWritten(Alternative(index))[5] == ':' && CacheFolderAsWritten(Alternative(index))[6] == '/'
    ensures !Safe(CacheFolderAsWritten(Alternative(index)))
  {
    var f := CacheFolderAsWritten(Alternative(index));
    assert index[..8] == "https://";
    assert index[5] == index[..8][5] == ':';
    assert index[6] == index[..8][6] == '/';
    assert f == index + "-sources";
    assert f[6] == index[6];
    assert f[5] == index[5];
  }

  /** `Registry::cache_folder`, with the alternative registry's name sanitised as for its index. */
  function CacheFolder(r: Registry): string {
    match r
    case CratesIo => "cratesios-sources"
    case Alternative(index) => IndexFolder(index) + "-sources"
  }

  /** Every cache folder is a single safe directory name. */
  lemma CacheFolderIsSafe(r: Registry)
    ensures Safe(CacheFolder(r))
  {
    assert Safe("-sources");
    if r.Alternative? {
      IndexFolderIsSafe(r.index);
      SafeConcat(IndexFolder(r.index), "-sources");
    }
  }

  lemma SafeConcat(a: string, b: string)
    requires Safe(a) && Safe(b)
    ensures Safe(a + b)
  {
    assert forall i | |a| <= i < |a + b| :: (a + b)[i] == b[i - |a|];
  }

  /** The archive's file name, `<name>-<version>.crate`. */
  function ArchiveName(c: RegistryCrate): string {
    c.name + "-" + c.version + ".crate"
  }

  /**
   * `cache_path`: `<cache>/<cache folder>/<name>/<name>-<version>.crate`, with the cache folder as
   * rustwide writes it. An alternative registry's folder is the raw index URL, kept here as one
   * component whose display is the path rustwide builds.
   */
  function CachePath(c: RegistryCrate, ws: Workspace): (p: Path)
    ensures p.root == ws.cacheDir.root
    ensures p.parts == ws.cacheDir.parts + [CacheFolderAsWritten(c.registry), c.name, ArchiveName(c)]
  {
    ws.cacheDir.Join(CacheFolderAsWritten(c.registry)).Join(c.name).Join(ArchiveName(c))
  }

  /** Two crates of one registry share a cache path only when they are the same name and version. */
  lemma CachePathInjective(c1: RegistryCrate, c2: RegistryCrate, ws: Workspace)
    requires c1.registry == c2.registry
    requires CachePath(c1, ws) == CachePath(c2, ws)
    ensures c1 == c2
  {
    var n := |ws.cacheDir.parts|;
    assert CachePath(c1, ws).parts[n + 1] == c1.name;
    assert CachePath(c2, ws).parts[n + 1] == c2.name;
    var a1 := ArchiveName(c1);
    var a2 := ArchiveName(c2);
    assert a1 == CachePath(c1, ws).parts[n + 2] == a2;
    assert c1.version + ".crate" == a1[|c1.name| + 1..];
    assert c2.version + ".crate" == a2[|c2.name| + 1..];
    assert c1.version == (c1.version + ".crate")[..|c1.version|];
    assert c2.version == (c2.version + ".crate")[..|c2.version|];
  }

  /** The crates.io download URL. */
  function CratesIoUrl(name: string, version: string): string {
    CratesRoot + "/" + name + "/" + name + "-" + version + ".crate"
  }

  /**
   * The URL an alternative registry's `dl` template gives: with a `{crate}` or `{version}`
   * placeholder, both are substituted everywhere; otherwise `<dl>/<name>/<version>/download`.
   */
  function TemplateUrl(dl: string, name: string, version: string): string {
    if Contains(dl, "{crate}") || Contains(dl, "{version}") then
      ReplaceAll(ReplaceAll(dl, "{crate}", name), "{version}", version)
    else
      dl + "/" + name + "/" + version + "/download"
  }

  /** A template without placeholders gets the name and version appended as path segments. */
  lemma TemplateWithoutPlaceholders(dl: string, name: string, version: string)
    requires '{' !in dl
    ensures TemplateUrl(dl, name, version) == dl + "/" + name + "/" + version + "/download"
  {
    NotContainsFirstChar(dl, "{crate}");
    NotContainsFirstChar(dl, "{version}");
  }

  /** `{version}` followed by anything is not a `{crate}` occurrence and survives that replacement. */
  lemma VersionPlaceholderSurvives(c: string, name: string)
    requires '{' !in c
    ensures ReplaceAll("{version}" + c, "{crate}", name) == "{version}" + c
  {
    var s := "{version}" + c;
    var rest := "version}" + c;
    assert s[1] == 'v' && "{crate}"[1] == 'c';
    assert !StartsWith(s, "{crate}");
    assert s[1..] == rest;
    assert '{' !in rest;
    NotContainsFirstChar(rest, "{crate}");
    ReplaceAllAbsent(rest, "{crate}", name);
    assert [s[0]] + rest == s;
  }

  /**
   * A template of the form `a{crate}b{version}c`, with no other braces, becomes
   * `a<name>b<version>c`.
   */
  lemma TemplateSubstitutes(a: string, b: string, c: string, name: string, version: string)
    requires '{' !in a && '{' !in b && '{' !in c && '{' !in name
    ensures TemplateUrl(a + "{crate}" + b + "{version}" + c, name, version) == a + name + b + version + c
  {
    var dl := a + "{crate}" + b + "{version}" + c;
    assert Contains(dl, "{crate}") by {
      ContainsAfter(a, "{crate}", b + "{version}" + c);
      assert dl == a + "{crate}" + (b + "{version}" + c);
    }
    CrateSubstituted(a, b, c, name);
    VersionSubstituted(a + name + b, c, version);
  }

  lemma CrateSubstituted(a: string, b: string, c: string, name: string)
    requires '{' !in a && '{' !in b && '{' !in c && '{' !in name
    ensures ReplaceAll(a + "{crate}" + b + "{version}" + c, "{crate}", name) == a + name + b + "{version}" + c
  {
    var tail := b + ("{version}" + c);
    Regroup(a, "{crate}", b, "{version}", c);
    Regroup(a, name, b, "{version}", c);
    CrateSkipped(b, c, name);
    ReplaceAllSplice(a, "{crate}", name, tail);
  }

  /** Only the first `{crate}` is followed by text the substitution leaves alone. */
  lemma CrateSkipped(b: string, c: string, name: string)
    requires '{' !in b && '{' !in c
    ensures ReplaceAll(b + ("{version}" + c), "{crate}", name) == b + ("{version}" + c)
  {
    ReplaceAllSkip(b, "{crate}", name, "{version}" + c);
    VersionPlaceholderSurvives(c, name);
  }

  lemma Regroup(a: string, x: string, b: string, y: string, c: string)
    ensures a + x + b + y + c == a + x + (b + (y + c))
  {
  }

  lemma VersionSubstituted(prefix: string, c: string, version: string)
    requires '{' !in prefix && '{' !in c
    ensures ReplaceAll(prefix + "{version}" + c, "{version}", version) == prefix + version + c
  {
    ReplaceAllSplice(prefix, "{version}", version, c);
    NotContainsFirstChar(c, "{version}");
    ReplaceAllAbsent(c, "{version}", version);
  }

  /** A pattern found right after `a` is contained in the whole. */
  lemma ContainsAfter(a: string, pattern: string, b: string)
    ensures Contains(a + pattern + b, pattern)
    decreases |a|
  {
    var s := a + pattern + b;
    if |a| == 0 {
      assert s[..|pattern|] == pattern;
    } else {
      assert s[1..] == a[1..] + pattern + b;
      ContainsAfter(a[1..], pattern, b);
    }
  }

  /** What reading an alternative registry's index gives: whether it is cloned already, the clone, the `config.json` text and its `dl` field. */
  datatype IndexEnv = IndexEnv(
    indexExists: bool,
    clone: Result<(), Error>,
    config: Result<string, IoError>,
    parseDl: string -> Result<string, Error>)

  /** The directory an alternative registry's index is cloned into. */
  function IndexPath(ws: Workspace, index: string): Path {
    ws.cacheDir.Join("registry-index").Join(IndexFolder(index))
  }

  /**
   * `fetch_url`: crates.io has a fixed layout; an alternative registry clones its index when
   * missing, reads `config.json` and fills in its `dl` template.
   */
  function FetchUrl(c: RegistryCrate, env: IndexEnv): (r: Result<string, Error>)
    ensures c.registry.CratesIo? ==> r == Ok(CratesIoUrl(c.name, c.version))
    ensures c.registry.Alternative? && !env.indexExists && env.clone.Err? ==>
      r == Err(Context("unable to update_index at " + c.registry.index, env.clone.error))
    ensures c.registry.Alternative? && (env.indexExists || env.clone.Ok?) ==>
      && (env.config.Err? ==> r == Err(Io(env.config.error)))
      && (env.config.Ok? && env.parseDl(env.config.value).Err? ==>
            r == Err(Context("registry has invalid config.json", env.parseDl(env.config.value).error)))
      && (env.config.Ok? && env.parseDl(env.config.value).Ok? ==>
            r == Ok(TemplateUrl(env.parseDl(env.config.value).value, c.name, c.version)))
  {
    match c.registry
    case CratesIo => Ok(CratesIoUrl(c.name, c.version))
    case Alternative(index) =>
      if !env.indexExists && env.clone.Err? then Err(Context("unable to update_index at " + index, env.clone.error))
      else if env.config.Err? then Err(Io(env.config.error))
      else
        match env.parseDl(env.config.value)
        case Err(e) => Err(Context("registry has invalid config.json", e))
        case Ok(dl) => Ok(TemplateUrl(dl, c.name, c.version))
  }

  /** What `fetch` did: nothing (the archive was cached), or a download of `url` into `dest`. */
  datatype Fetched = AlreadyCached | Downloaded(url: string, dest: Path)

  /**
   * `RegistryCrate::fetch`: nothing when the cache file exists; otherwise create its directory,
   * compute the URL and download into the cache path.
   */
  function Fetch(c: RegistryCrate, ws: Workspace, present: Path -> bool, createDir: Result<(), IoError>,
                 index: IndexEnv, download: string -> Result<(), Error>): (r: Result<Fetched, Error>)
    ensures present(CachePath(c, ws)) ==> r == Ok(AlreadyCached)
    ensures !present(CachePath(c, ws)) && createDir.Err? ==> r == Err(Io(createDir.error))
    ensures !present(CachePath(c, ws)) && createDir.Ok? && FetchUrl(c, index).Err? ==> r == Err(FetchUrl(c, index).error)
    ensures r.Ok? && r.value.Downloaded? ==>
      && !present(CachePath(c, ws))
      && r.value == Downloaded(FetchUrl(c, index).value, CachePath(c, ws))
      && download(r.value.url).Ok?
    ensures !present(CachePath(c, ws)) && createDir.Ok? && FetchUrl(c, index).Ok? ==>
      var url := FetchUrl(c, index).value;
      && (download(url).Ok? ==> r == Ok(Downloaded(url, CachePath(c, ws))))
      && (download(url).Err? ==> r == Err(download(url).error))
  {
    var local := CachePath(c, ws);
    if present(local) then Ok(AlreadyCached)
    else if createDir.Err? then Err(Io(createDir.error))
    else
      var url :- FetchUrl(c, index);
      var _ :- download(url);
      Ok(Downloaded(url, local))
  }

  /** `purge_from_cache`: remove the archive when it is there. */
  function PurgeFromCache(c: RegistryCrate, ws: Workspace, present: Path -> bool,
                          remove: Path -> Result<(), Error>): (r: (seq<Path>, Result<(), Error>))
    ensures !present(CachePath(c, ws)) ==> r == ([], Ok(()))
    ensures present(CachePath(c, ws)) ==> r == ([CachePath(c, ws)], remove(CachePath(c, ws)))
  {
    var path := CachePath(c, ws);
    if present(path) then ([path], remove(path)) else ([], Ok(()))
  }

  /** Where `unpack_without_first_dir` writes an archive entry: its path below `dest`, first component dropped. */
  function UnpackTarget(dest: Path, entry: seq<string>): (p: Path)
    ensures StripPrefix(p, dest) == Some(if |entry| == 0 then [] else entry[1..])
  {
    dest.JoinAll(if |entry| == 0 then [] else entry[1..])
  }

  /** `unpack_without_first_dir`: each entry in order, the first failing one stopping it. */
  function Unpack(entries: seq<Result<seq<string>, IoError>>, dest: Path,
                  unpack: Path -> Result<(), IoError>): (r: Result<seq<Path>, Error>)
    ensures r.Ok? ==> |r.value| == |entries|
    ensures r.Ok? ==> forall i | 0 <= i < |entries| ::
      entries[i].Ok? && r.value[i] == UnpackTarget(dest, entries[i].value) && unpack(r.value[i]).Ok?
    ensures r.Ok? <==> forall i | 0 <= i < |entries| ::
      entries[i].Ok? && unpack(UnpackTarget(dest, entries[i].value)).Ok?
  {
    var steps := seq(|entries|, i requires 0 <= i < |entries| =>
      match entries[i]
      case Err(e) => Err(Io(e))
      case Ok(path) =>
        var target := UnpackTarget(dest, path);
        match unpack(target)
        case Err(e) => Err(Io(e))
        case Ok(_) => Ok(target));
    assert forall i | 0 <= i < |entries| :: steps[i].Ok? <==> entries[i].Ok? && unpack(UnpackTarget(dest, entries[i].value)).Ok?;
    assert forall i | 0 <= i < |entries| :: steps[i].Ok? ==> steps[i].value == UnpackTarget(dest, entries[i].value);
    Collect(steps)
  }

  /**
   * `copy_source_to`: open the cached archive and unpack it into `dest`; on an unpack failure
   * `dest` is removed (its own failure ignored) and the error names the crate. The first component
   * of the result says whether `dest` was removed.
   */
  function CopySourceTo(c: RegistryCrate, dest: Path, open: Result<seq<Result<seq<string>, IoError>>, IoError>,
                        unpack: Path -> Result<(), IoError>): (r: (bool, Result<seq<Path>, Error>))
    ensures open.Err? ==> r == (false, Err(Io(open.error)))
    ensures open.Ok? ==> (r.0 <==> Unpack(open.value, dest, unpack).Err?)
    ensures open.Ok? && r.1.Ok? ==> r.1 == Unpack(open.value, dest, unpack)
    ensures open.Ok? && r.1.Err? ==>
      Unpack(open.value, dest, unpack).Err? &&
      r.1.error == Context("unable to download " + c.name + " version " + c.version, Unpack(open.value, dest, unpack).error)
  {
    match open
    case Err(e) => (false, Err(Io(e)))
    case Ok(entries) =>
      match Unpack(entries, dest, unpack)
      case Ok(paths) => (false, Ok(paths))
      case Err(e) => (true, Err(Context("unable to download " + c.name + " version " + c.version, e)))
  }

  /** `Registry::name` as written: an alternative registry reaches `todo!()`. */
  function NameAsWritten(r: Registry): Exit<string> {
    match r
    case CratesIo => Returned("crates.io")
    case Alternative(_) => Panicked
  }

  /** Displaying any crate of an alternative registry panics. */
  lemma DisplayAsWrittenPanics(c: RegistryCrate)
    requires c.registry.Alternative?
    ensures DisplayAsWritten(c).Panicked?
  {
  }

  /** `Display for RegistryCrate` as written. */
  function DisplayAsWritten(c: RegistryCrate): Exit<string> {
    var registry :- NameAsWritten(c.registry);
    Returned(registry + " crate " + c.name + " " + c.version)
  }

  /** `Registry::name` with the alternative registry named by its index URL. */
  function Name(r: Registry): string {
    match r
    case CratesIo => "crates.io"
    case Alternative(index) => index
  }

  /**
   * `Display for RegistryCrate`, total: it agrees with rustwide wherever rustwide does not
   * panic, and names the registry, crate and version.
   */
  function Display(c: RegistryCrate): (s: string)
    ensures DisplayAsWritten(c).Returned? ==> s == DisplayAsWritten(c).value
    ensures s == Name(c.registry) + " crate " + c.name + " " + c.version
  {
    Name(c.registry) + " crate " + c.name + " " + c.version
  }
}

=== FILE: sandbox.dfy ===
/**
 * The Docker sandbox (src/cmd/sandbox.rs): mount arguments, the `docker create` argument list,
 * the size check and pull reference of a remote image, the out-of-memory reclassification and the
 * container life cycle. Docker itself is a set of inputs: the result of each `docker` invocation.
 */
module Sandbox {
  import opened Wrappers
  import opened Text
  import opened Base

  // ---------------------------------------------------------------------------------------
  // Mounts
  // ---------------------------------------------------------------------------------------

  /** `MountConfig`. */
  datatype MountConfig = MountConfig(hostPath: Path, sandboxPath: Path, perm: MountKind)

  /**
   * Inside a container, the host-side path of `p`: the first mount of the current container
   * whose (normalised) destination is a prefix of `p`, with the rest of `p` joined to its source.
   */
  function Rebase(p: Path, mounts: seq<ContainerMount>, norm: Path -> Path): (r: Option<Path>)
    ensures r.Some? <==> exists i | 0 <= i < |mounts| :: StripPrefix(p, norm(mounts[i].destination)).Some?
    ensures r.Some? ==> exists i | 0 <= i < |mounts| ::
      && StripPrefix(p, norm(mounts[i].destination)).Some?
      && (forall j | 0 <= j < i :: StripPrefix(p, norm(mounts[j].destination)).None?)
      && r.value == mounts[i].source.JoinAll(StripPrefix(p, norm(mounts[i].destination)).value)
    decreases |mounts|
  {
    if |mounts| == 0 then None
    else
      var shared := StripPrefix(p, norm(mounts[0].destination));
      if shared.Some? then Some(mounts[0].source.JoinAll(shared.value))
      else
        var r := Rebase(p, mounts[1..], norm);
        assert forall i | 1 <= i < |mounts| :: mounts[1..][i - 1] == mounts[i];
        r
  }

  /** `MountConfig::host_path`; `norm` is `normalize_path`. */
  function HostPath(m: MountConfig, ws: Workspace, norm: Path -> Path): (r: Result<Path, CommandError>)
    ensures ws.currentContainer.None? ==> r == Ok(norm(m.hostPath))
    ensures ws.currentContainer.Some? ==>
      && (r.Err? <==> Rebase(norm(m.hostPath), ws.currentContainer.value, norm).None?)
      && (r.Err? ==> r.error == WorkspaceNotMountedCorrectly)
      && (r.Ok? ==> exists i | 0 <= i < |ws.currentContainer.value| ::
            var mount := ws.currentContainer.value[i];
            && StripPrefix(norm(m.hostPath), norm(mount.destination)).Some?
            && (forall j | 0 <= j < i :: StripPrefix(norm(m.hostPath), norm(ws.currentContainer.value[j].destination)).None?)
            && r.value == mount.source.JoinAll(StripPrefix(norm(m.hostPath), norm(mount.destination)).value))
  {
    match ws.currentContainer
    case None => Ok(norm(m.hostPath))
    case Some(mounts) =>
      match Rebase(norm(m.hostPath), mounts, norm)
      case Some(host) => Ok(host)
      case None => Err(WorkspaceNotMountedCorrectly)
  }

  function PermText(perm: MountKind): string {
    if perm == ReadWrite then "rw" else "ro"
  }

  /** `to_volume_arg`: `<host>:<sandbox>:rw,Z` or `<host>:<sandbox>:ro,Z`. */
  function ToVolumeArg(m: MountConfig, ws: Workspace, norm: Path -> Path): (r: Result<string, CommandError>)
    ensures r.Ok? <==> HostPath(m, ws, norm).Ok?
    ensures r.Err? ==> r.error == HostPath(m, ws, norm).error
  {
    var host :- HostPath(m, ws, norm);
    Ok(Display(host, ws.platform) + ":" + Display(m.sandboxPath, ws.platform) + ":" + PermText(m.perm) + ",Z")
  }

  /** `to_mount_arg`: `type=bind,src=<host>,dst=<sandbox>`, plus `,readonly` for read-only mounts. */
  function ToMountArg(m: MountConfig, ws: Workspace, norm: Path -> Path): (r: Result<string, CommandError>)
    ensures r.Ok? <==> HostPath(m, ws, norm).Ok?
    ensures r.Err? ==> r.error == HostPath(m, ws, norm).error
  {
    var host :- HostPath(m, ws, norm);
    Ok(MountText(Display(host, ws.platform), Display(m.sandboxPath, ws.platform), m.perm == ReadOnly))
  }

  /**
   * A volume argument splits at `:` back into the host path, the sandbox path and the permission,
   * provided neither path holds a colon (a Windows drive does, which is why Windows uses `--mount`).
   */
  lemma VolumeArgParses(m: MountConfig, ws: Workspace, norm: Path -> Path)
    requires HostPath(m, ws, norm).Ok?
    requires ':' !in Display(HostPath(m, ws, norm).value, ws.platform)
    requires ':' !in Display(m.sandboxPath, ws.platform)
    ensures Split(ToVolumeArg(m, ws, norm).value, ':')
         == [Display(HostPath(m, ws, norm).value, ws.platform), Display(m.sandboxPath, ws.platform), PermText(m.perm) + ",Z"]
  {
    var host := Display(HostPath(m, ws, norm).value, ws.platform);
    var sandbox := Display(m.sandboxPath, ws.platform);
    var perm := PermText(m.perm) + ",Z";
    assert ToVolumeArg(m, ws, norm).value == host + [':'] + (sandbox + [':'] + perm);
    SplitAfterPiece(host, ':', sandbox + [':'] + perm);
    SplitAfterPiece(sandbox, ':', perm);
    SplitNoSeparator(perm, ':');
  }

  /** `type=bind,src=<host>,dst=<sandbox>`, with `,readonly` appended for a read-only mount. */
  function MountText(host: string, sandbox: string, readOnly: bool): string {
    "type=bind" + "," + ("src=" + host) + "," + ("dst=" + sandbox) + (if readOnly then "," + "readonly" else "")
  }

  /** Three or four fields joined by `c`, none holding `c`, split back into themselves. */
  lemma SplitFields(kind: string, src: string, dst: string, flag: string, withFlag: bool, c: char)
    requires c !in kind && c !in src && c !in dst && c !in flag
    ensures Split(kind + [c] + (src + [c] + (if withFlag then dst + [c] + flag else dst)), c)
         == [kind, src, dst] + (if withFlag then [flag] else [])
  {
    var rest := if withFlag then dst + [c] + flag else dst;
    assert Split(rest, c) == [dst] + (if withFlag then [flag] else []) by {
      if withFlag {
        SplitAfterPiece(dst, c, flag);
        SplitNoSeparator(flag, c);
      } else {
        SplitNoSeparator(dst, c);
      }
    }
    SplitAfterPiece(src, c, rest);
    SplitAfterPiece(kind, c, src + [c] + rest);
  }

  /** The text of a mount argument, split at `,`. */
  lemma MountTextFields(host: string, sandbox: string, readOnly: bool)
    requires ',' !in host && ',' !in sandbox
    ensures Split(MountText(host, sandbox, readOnly), ',')
         == ["type=bind", "src=" + host, "dst=" + sandbox] + (if readOnly then ["readonly"] else [])
  {
    var src := "src=" + host;
    var dst := "dst=" + sandbox;
    assert MountText(host, sandbox, readOnly)
        == "type=bind" + [','] + (src + [','] + (if readOnly then dst + [','] + "readonly" else dst));
    SplitFields("type=bind", src, dst, "readonly", readOnly, ',');
  }

  /** A mount argument splits at `,` into its fields; `readonly` is present exactly for read-only mounts. */
  lemma MountArgParses(m: MountConfig, ws: Workspace, norm: Path -> Path)
    requires HostPath(m, ws, norm).Ok?
    requires ',' !in Display(HostPath(m, ws, norm).value, ws.platform)
    requires ',' !in Display(m.sandboxPath, ws.platform)
    ensures Split(ToMountArg(m, ws, norm).value, ',')
         == ["type=bind", "src=" + Display(HostPath(m, ws, norm).value, ws.platform), "dst=" + Display(m.sandboxPath, ws.platform)]
            + (if m.perm == ReadOnly then ["readonly"] else [])
  {
    MountTextFields(Display(HostPath(m, ws, norm).value, ws.platform), Display(m.sandboxPath, ws.platform), m.perm == ReadOnly);
  }

  // ---------------------------------------------------------------------------------------
  // The builder and `docker create`
  // ---------------------------------------------------------------------------------------

  /** `SandboxBuilder`; the CPU limit is kept as the text `f32::to_string` gives. */
  datatype SandboxBuilder = SandboxBuilder(
    mounts: seq<MountConfig>,
    env: seq<(string, string)>,
    memoryLimit: Option<nat>,
    cpuLimit: Option<string>,
    workdir: Option<string>,
    user: Option<string>,
    cmd: seq<string>,
    enableNetworking: bool,
    image: Option<string>)

  /** `SandboxBuilder::new`: networking on, nothing else set. */
  function New(): (b: SandboxBuilder)
    ensures b.mounts == [] && b.env == [] && b.cmd == []
    ensures b.memoryLimit.None? && b.cpuLimit.None? && b.workdir.None? && b.user.None? && b.image.None?
    ensures b.enableNetworking
  {
    SandboxBuilder([], [], None, None, None, None, [], true, None)
  }

  function Mount(b: SandboxBuilder, host: Path, sandbox: Path, kind: MountKind): SandboxBuilder {
    b.(mounts := b.mounts + [MountConfig(host, sandbox, kind)])
  }

  function Env(b: SandboxBuilder, key: string, value: string): SandboxBuilder {
    b.(env := b.env + [(key, value)])
  }

  function Cmd(b: SandboxBuilder, cmd: seq<string>): SandboxBuilder {
    b.(cmd := cmd)
  }

  function Workdir(b: SandboxBuilder, workdir: string): SandboxBuilder {
    b.(workdir := Some(workdir))
  }

  function MemoryLimit(b: SandboxBuilder, limit: Option<nat>): SandboxBuilder {
    b.(memoryLimit := limit)
  }

  function EnableNetworking(b: SandboxBuilder, enable: bool): SandboxBuilder {
    b.(enableNetworking := enable)
  }

  function Image(b: SandboxBuilder, image: SandboxImage): SandboxBuilder {
    b.(image := Some(image.name))
  }

  /** `user(uid, gid)`: the `uid:gid` text, which reads back as the two numbers. */
  function User(b: SandboxBuilder, uid: nat, gid: nat): (r: SandboxBuilder)
    ensures r.user.Some?
    ensures var parts := Split(r.user.value, ':');
      && |parts| == 2
      && (forall k | 0 <= k < |parts[0]| :: IsDigit(parts[0][k]))
      && (forall k | 0 <= k < |parts[1]| :: IsDigit(parts[1][k]))
      && ParseDigits(parts[0]) == uid && ParseDigits(parts[1]) == gid
  {
    var u := NatToString(uid);
    var g := NatToString(gid);
    assert ':' !in u by { assert forall k | 0 <= k < |u| :: IsDigit(u[k]); }
    assert ':' !in g by { assert forall k | 0 <= k < |g| :: IsDigit(g[k]); }
    SplitAfterPiece(u, ':', g);
    SplitNoSeparator(g, ':');
    ParseNatToString(uid);
    ParseNatToString(gid);
    b.(user := Some(u + ":" + g))
  }

  /** The flag that precedes each mount: `--mount` on Windows, `-v` elsewhere. */
  function MountFlag(platform: Platform): string {
    if platform == Windows then "--mount" else "-v"
  }

  function MountArg(m: MountConfig, ws: Workspace, norm: Path -> Path): Result<string, CommandError> {
    if ws.platform == Windows then ToMountArg(m, ws, norm) else ToVolumeArg(m, ws, norm)
  }

  /** One mount of `create`: its host directory is created (`create_dir_all`), then its argument built. */
  function MountStep(m: MountConfig, ws: Workspace, norm: Path -> Path, mkdir: Path -> Option<IoError>): (r: Result<string, CommandError>)
    ensures r.Ok? <==> mkdir(m.hostPath).None? && MountArg(m, ws, norm).Ok?
    ensures r.Ok? ==> r.value == MountArg(m, ws, norm).value
    ensures mkdir(m.hostPath).Some? ==> r == Err(IO(mkdir(m.hostPath).value))
  {
    if mkdir(m.hostPath).Some? then Err(IO(mkdir(m.hostPath).value)) else MountArg(m, ws, norm)
  }

  function MountSteps(mounts: seq<MountConfig>, ws: Workspace, norm: Path -> Path, mkdir: Path -> Option<IoError>)
    : (r: seq<Result<string, CommandError>>)
    ensures |r| == |mounts|
    ensures forall i | 0 <= i < |mounts| :: r[i] == MountStep(mounts[i], ws, norm, mkdir)
    decreases |mounts|
  {
    if |mounts| == 0 then []
    else
      var n := |mounts| - 1;
      assert forall i | 0 <= i < n :: mounts[..n][i] == mounts[i];
      MountSteps(mounts[..n], ws, norm, mkdir) + [MountStep(mounts[n], ws, norm, mkdir)]
  }

  /** Each step's argument after `flag`, in order; the first failing step ends it. */
  function FlagPairs(flag: string, steps: seq<Result<string, CommandError>>): (r: Result<seq<string>, CommandError>)
    ensures r.Ok? <==> forall i | 0 <= i < |steps| :: steps[i].Ok?
    ensures r.Ok? ==> |r.value| == 2 * |steps|
    ensures r.Ok? ==> forall i | 0 <= i < |steps| :: r.value[2 * i] == flag && r.value[2 * i + 1] == steps[i].value
    ensures r.Err? ==> exists i | 0 <= i < |steps| ::
      (forall j | 0 <= j < i :: steps[j].Ok?) && steps[i].Err? && r.error == steps[i].error
    decreases |steps|
  {
    if |steps| == 0 then Ok([])
    else
      var n := |steps| - 1;
      var front := FlagPairs(flag, steps[..n]);
      assert forall i | 0 <= i < n :: steps[..n][i] == steps[i];
      if front.Err? then front
      else if steps[n].Err? then Err(steps[n].error)
      else Ok(front.value + [flag, steps[n].value])
  }

  /** `-e K=V` for every variable, in order. */
  function EnvArgs(env: seq<(string, string)>): (r: seq<string>)
    ensures |r| == 2 * |env|
    ensures forall j | 0 <= j < |env| :: r[2 * j] == "-e" && r[2 * j + 1] == env[j].0 + "=" + env[j].1
    decreases |env|
  {
    if |env| == 0 then []
    else
      var n := |env| - 1;
      var front := EnvArgs(env[..n]);
      assert forall j | 0 <= j < n :: env[..n][j] == env[j];
      front + ["-e", env[n].0 + "=" + env[n].1]
  }

  function OptionalFlag(flag: string, value: Option<string>): seq<string> {
    if value.Some? then [flag, value.value] else []
  }

  /** The flags between the environment and the image: -w, -m, --cpus, --user, --network none, isolation. */
  function OptionArgs(b: SandboxBuilder, platform: Platform): seq<string> {
    OptionalFlag("-w", b.workdir)
    + OptionalFlag("-m", if b.memoryLimit.Some? then Some(NatToString(b.memoryLimit.value)) else None)
    + OptionalFlag("--cpus", b.cpuLimit)
    + OptionalFlag("--user", b.user)
    + (if b.enableNetworking then [] else ["--network", "none"])
    + (if platform == Windows then ["--isolation=process"] else [])
  }

  /** The image the container is created from: the builder's override, else the workspace default. */
  function ImageName(b: SandboxBuilder, ws: Workspace): string {
    if b.image.Some? then b.image.value else ws.sandboxImage
  }

  /** `s` is `a`, `b`, `c`, `d`, `e`, `f` laid end to end, each found at its offset. */
  ghost predicate Layout<T>(s: seq<T>, a: seq<T>, b: seq<T>, c: seq<T>, d: seq<T>, e: seq<T>, f: seq<T>) {
    var i := |a| + |b|;
    var j := i + |c|;
    var k := j + |d|;
    && |s| == k + |e| + |f|
    && s[..|a|] == a
    && s[|a|..i] == b
    && s[i..j] == c
    && s[j..k] == d
    && s[k..k + |e|] == e
    && s[k + |e|..] == f
  }

  /** The pieces of a six-part concatenation are found again at their offsets. */
  lemma Pieces<T>(s: seq<T>, a: seq<T>, b: seq<T>, c: seq<T>, d: seq<T>, e: seq<T>, f: seq<T>)
    requires s == a + b + c + d + e + f
    ensures Layout(s, a, b, c, d, e, f)
  {
  }

  /** The arguments `create` passes to `docker`. */
  function CreateArgs(b: SandboxBuilder, ws: Workspace, norm: Path -> Path, mkdir: Path -> Option<IoError>)
    : (r: Result<seq<string>, CommandError>)
    ensures var mounts := FlagPairs(MountFlag(ws.platform), MountSteps(b.mounts, ws, norm, mkdir));
      && (r.Ok? <==> mounts.Ok?)
      && (r.Err? ==> r.error == mounts.error)
  {
    match FlagPairs(MountFlag(ws.platform), MountSteps(b.mounts, ws, norm, mkdir))
    case Err(e) => Err(e)
    case Ok(mountArgs) => Ok(["create"] + mountArgs + EnvArgs(b.env) + OptionArgs(b, ws.platform) + [ImageName(b, ws)] + b.cmd)
  }

  /**
   * The order of `create`'s arguments: "create", the mount flags in mount order, the environment
   * in order, the optional flags, the image, the command.
   */
  lemma CreateArgsOrder(b: SandboxBuilder, ws: Workspace, norm: Path -> Path, mkdir: Path -> Option<IoError>)
    requires CreateArgs(b, ws, norm, mkdir).Ok?
    ensures var mounts := FlagPairs(MountFlag(ws.platform), MountSteps(b.mounts, ws, norm, mkdir)).value;
      && |mounts| == 2 * |b.mounts|
      && Layout(CreateArgs(b, ws, norm, mkdir).value,
                ["create"], mounts, EnvArgs(b.env), OptionArgs(b, ws.platform), [ImageName(b, ws)], b.cmd)
  {
    var steps := MountSteps(b.mounts, ws, norm, mkdir);
    var mounts := FlagPairs(MountFlag(ws.platform), steps).value;
    assert |steps| == |b.mounts|;
    Pieces(CreateArgs(b, ws, norm, mkdir).value, ["create"], mounts, EnvArgs(b.env), OptionArgs(b, ws.platform), [ImageName(b, ws)], b.cmd);
  }

  // ---------------------------------------------------------------------------------------
  // Running a container
  // ---------------------------------------------------------------------------------------

  /** `Container::run`'s last step: an out-of-memory kill turns success or a failed exit into `SandboxOOM`. */
  function ClassifyOom(res: Result<ProcessOutput, CommandError>, oomKilled: bool): (r: Result<ProcessOutput, CommandError>)
    ensures !oomKilled ==> r == res
    ensures oomKilled ==> r.Err?
    ensures oomKilled && (res.Ok? || res.error.ExecutionFailed?) ==> r == Err(SandboxOOM)
    ensures oomKilled && res.Err? && !res.error.ExecutionFailed? ==> r == res
  {
    if !oomKilled then res
    else if res.Ok? || res.error.ExecutionFailed? then Err(SandboxOOM)
    else res
  }

  /**
   * The results of the `docker` invocations one sandboxed run makes. `start` is the result of
   * `docker start -a`, which `Cmd.RunInner` computes by running it through `log_command`.
   */
  datatype DockerEnv = DockerEnv(
    norm: Path -> Path,
    mkdir: Path -> Option<IoError>,
    create: Result<ProcessOutput, CommandError>,
    start: Result<ProcessOutput, CommandError>,
    inspect: Exit<Result<bool, CommandError>>,
    delete: Result<(), CommandError>)

  /** The `docker` invocations made, in order, and how the run ended. */
  datatype SandboxRun = SandboxRun(calls: seq<seq<string>>, outcome: Exit<Result<ProcessOutput, CommandError>>)

  function StartArgs(id: string): seq<string> { ["start", "-a", id] }

  function InspectArgs(id: string): seq<string> { ["inspect", id] }

  function DeleteArgs(id: string): seq<string> { ["rm", "-f", id] }

  /**
   * `SandboxBuilder::run`: create the container (its id is the first line `docker create` prints;
   * no line is an index panic), start it attached, inspect it, and on every way out of that, delete
   * it. A failed delete is only logged, so it never changes the outcome.
   */
  function Run(b: SandboxBuilder, ws: Workspace, d: DockerEnv): (r: SandboxRun)
    ensures CreateArgs(b, ws, d.norm, d.mkdir).Err? ==> r == SandboxRun([], Returned(Err(CreateArgs(b, ws, d.norm, d.mkdir).error)))
    ensures CreateArgs(b, ws, d.norm, d.mkdir).Ok? ==> |r.calls| > 0 && r.calls[0] == CreateArgs(b, ws, d.norm, d.mkdir).value
    ensures CreateArgs(b, ws, d.norm, d.mkdir).Ok? && d.create.Err? ==>
      r == SandboxRun([CreateArgs(b, ws, d.norm, d.mkdir).value], Returned(Err(d.create.error)))
    ensures CreateArgs(b, ws, d.norm, d.mkdir).Ok? && d.create.Ok? && |d.create.value.stdout| == 0 ==>
      r == SandboxRun([CreateArgs(b, ws, d.norm, d.mkdir).value], Panicked)
    ensures CreateArgs(b, ws, d.norm, d.mkdir).Ok? && d.create.Ok? && |d.create.value.stdout| > 0 ==>
      var id := d.create.value.stdout[0];
      && r.calls[1..] == [StartArgs(id), InspectArgs(id), DeleteArgs(id)]
      && (d.inspect.Panicked? ==> r.outcome.Panicked?)
      && (d.inspect.Returned? && d.inspect.value.Err? ==> r.outcome == Returned(Err(d.inspect.value.error)))
      && (d.inspect.Returned? && d.inspect.value.Ok? ==> r.outcome == Returned(ClassifyOom(d.start, d.inspect.value.value)))
    ensures !(d.create.Ok? && |d.create.value.stdout| > 0) ==> |r.calls| <= 1
  {
    match CreateArgs(b, ws, d.norm, d.mkdir)
    case Err(e) => SandboxRun([], Returned(Err(e)))
    case Ok(args) =>
      if d.create.Err? then SandboxRun([args], Returned(Err(d.create.error)))
      else if |d.create.value.stdout| == 0 then SandboxRun([args], Panicked)
      else
        var id := d.create.value.stdout[0];
        var outcome :=
          match d.inspect
          case Panicked => Panicked
          case Returned(Err(e)) => Returned(Err(e))
          case Returned(Ok(oom)) => Returned(ClassifyOom(d.start, oom));
        SandboxRun([args, StartArgs(id), InspectArgs(id), DeleteArgs(id)], outcome)
  }

  /** Once the container exists it is deleted exactly once, as the last call, whether the run returned or panicked. */
  lemma DeletedOnEveryPath(b: SandboxBuilder, ws: Workspace, d: DockerEnv)
    requires CreateArgs(b, ws, d.norm, d.mkdir).Ok? && d.create.Ok? && |d.create.value.stdout| > 0
    ensures var r := Run(b, ws, d);
      && r.calls[|r.calls| - 1] == DeleteArgs(d.create.value.stdout[0])
      && (forall k | 0 <= k < |r.calls| - 1 :: r.calls[k] != DeleteArgs(d.create.value.stdout[0]))
  {
    var r := Run(b, ws, d);
    var args := CreateArgs(b, ws, d.norm, d.mkdir).value;
    assert args[0] == "create";
  }

  /** The result of the delete never reaches the caller. */
  lemma DeleteFailureIgnored(b: SandboxBuilder, ws: Workspace, d: DockerEnv, delete: Result<(), CommandError>)
    ensures Run(b, ws, d.(delete := delete)) == Run(b, ws, d)
  {
  }

  // ---------------------------------------------------------------------------------------
  // Remote images
  // ---------------------------------------------------------------------------------------

  /** The parts of `docker manifest inspect` output the size check reads. */
  datatype DockerManifest = DockerManifest(digest: string, layerSizes: seq<nat>)

  /** The total layer size, folded from the left as rustwide does. */
  function TotalSize(sizes: seq<nat>): nat
    decreases |sizes|
  {
    if |sizes| == 0 then 0 else TotalSize(sizes[..|sizes| - 1]) + sizes[|sizes| - 1]
  }

  /** Every layer counts towards the total. */
  lemma {:induction false} LayerWithinTotal(sizes: seq<nat>, k: nat)
    requires k < |sizes|
    ensures sizes[k] <= TotalSize(sizes)
    decreases |sizes|
  {
    if k < |sizes| - 1 {
      LayerWithinTotal(sizes[..|sizes| - 1], k);
    }
  }

  /** The position of the tag separator: the last `:` with no `/` after it. */
  function TagColon(name: string): (r: Option<nat>)
    ensures r.Some? ==> r.value < |name| && name[r.value] == ':'
    ensures r.Some? ==> forall k | r.value < k < |name| :: name[k] != ':' && name[k] != '/'
    ensures r.None? ==> forall k | 0 <= k < |name| && name[k] == ':' :: exists j | k < j < |name| :: name[j] == '/'
    decreases |name|
  {
    if |name| == 0 then None
    else if name[|name| - 1] == ':' then Some(|name| - 1)
    else if name[|name| - 1] == '/' then None
    else
      var r := TagColon(name[..|name| - 1]);
      assert forall k | 0 <= k < |name| - 1 :: name[..|name| - 1][k] == name[k];
      r
  }

  /** The repository part of an image name: the name without its tag. */
  function Repository(name: string): (r: string)
    ensures |r| <= |name| && r == name[..|r|]
  {
    match TagColon(name)
    case Some(i) => name[..i]
    case None => name
  }

  /** `name.split(':').next()`: everything before the first colon, as `remote` computes it. */
  function RepositoryAsWritten(name: string): string {
    Split(name, ':')[0]
  }

  /** The repository of `<repo>:<tag>` is `<repo>`, even when `<repo>` names a registry with a port. */
  lemma RepositoryStripsTag(repo: string, tag: string)
    requires ':' !in tag && '/' !in tag
    ensures Repository(repo + ":" + tag) == repo
  {
    var name := repo + ":" + tag;
    assert name[|repo|] == ':';
    assert forall k | |repo| < k < |name| :: name[k] == tag[k - |repo| - 1];
    match TagColon(name)
    case Some(i) =>
      assert i == |repo|;
      assert name[..i] == repo;
    case None =>
      assert false;
  }

  /** A name with no tag is its own repository. */
  lemma RepositoryWithoutTag(repo: string)
    requires ':' !in repo
    ensures Repository(repo) == repo
  {
  }

  /** With a registry port in the name rustwide keeps only the host: `localhost:5000/img:v1` becomes `localhost`. */
  lemma RepositoryAsWrittenDropsPort(name: string)
    requires name == "localhost:5000/img:v1"
    ensures RepositoryAsWritten(name) == "localhost"
  {
    assert name == "localhost" + [':'] + "5000/img:v1";
    SplitAfterPiece("localhost", ':', "5000/img:v1");
  }

  /**
   * Without a registry port the two agree: for `<repo>:<tag>` with no colon in `<repo>`, both the
   * first piece and the tag-free name are `<repo>`.
   */
  lemma RepositoryAgreesWithoutPort(repo: string, tag: string)
    requires ':' !in repo && ':' !in tag && '/' !in tag
    ensures RepositoryAsWritten(repo + ":" + tag) == repo
    ensures Repository(repo + ":" + tag) == repo
  {
    assert repo + ":" + tag == repo + [':'] + tag;
    SplitAfterPiece(repo, ':', tag);
    RepositoryStripsTag(repo, tag);
  }

  /** The corrected repository of the same name keeps the port and drops only the tag. */
  lemma RepositoryKeepsPort(name: string)
    requires name == "localhost:5000/img:v1"
    ensures Repository(name) == "localhost:5000/img"
  {
    assert name == "localhost:5000/img" + ":" + "v1";
    RepositoryStripsTag("localhost:5000/img", "v1");
  }

  /**
   * What `remote` pulls: the name itself without a size limit; with one, the manifest (or the
   * error getting it), a size check, and `<first piece of the name>@<digest>`, the repository
   * computed as rustwide does it.
   */
  function PullReference(name: string, sizeLimit: Option<nat>, manifest: Result<DockerManifest, CommandError>)
    : (r: Result<string, CommandError>)
    ensures sizeLimit.None? ==> r == Ok(name)
    ensures sizeLimit.Some? && manifest.Err? ==> r == Err(manifest.error)
    ensures sizeLimit.Some? && manifest.Ok? ==>
      var size := TotalSize(manifest.value.layerSizes);
      && (size > sizeLimit.value ==> r == Err(SandboxImageTooLarge(size)))
      && (size <= sizeLimit.value ==> r == Ok(RepositoryAsWritten(name) + "@" + manifest.value.digest))
  {
    if sizeLimit.None? then Ok(name)
    else
      var m :- manifest;
      var size := TotalSize(m.layerSizes);
      if size > sizeLimit.value then Err(SandboxImageTooLarge(size))
      else Ok(RepositoryAsWritten(name) + "@" + m.digest)
  }

  /** No single layer may exceed the limit in an image that passes the check. */
  lemma PassingImageLayersWithinLimit(name: string, limit: nat, m: DockerManifest, k: nat)
    requires PullReference(name, Some(limit), Ok(m)).Ok?
    requires k < |m.layerSizes|
    ensures m.layerSizes[k] <= limit
  {
    LayerWithinTotal(m.layerSizes, k);
  }

  /**
   * `SandboxImage::remote`: pull the reference (a failure is `SandboxImagePullFailed`), take the
   * name with its digest when `docker inspect` gives one, and check the image is present
   * (`SandboxImageMissing` otherwise).
   */
  function Remote(name: string, sizeLimit: Option<nat>, manifest: Result<DockerManifest, CommandError>,
                  pull: string -> Option<CommandError>, nameWithHash: Option<string>,
                  existsLocally: string -> Option<CommandError>): (r: Result<SandboxImage, CommandError>)
    ensures r.Ok? ==>
      && PullReference(name, sizeLimit, manifest).Ok?
      && pull(PullReference(name, sizeLimit, manifest).value).None?
      && r.value.name == (if nameWithHash.Some? then nameWithHash.value else name)
      && existsLocally(r.value.name).None?
    ensures PullReference(name, sizeLimit, manifest).Err? ==> r == Err(PullReference(name, sizeLimit, manifest).error)
    ensures PullReference(name, sizeLimit, manifest).Ok? && pull(PullReference(name, sizeLimit, manifest).value).Some? ==>
      r == Err(SandboxImagePullFailed(pull(PullReference(name, sizeLimit, manifest).value).value))
    ensures PullReference(name, sizeLimit, manifest).Ok? && pull(PullReference(name, sizeLimit, manifest).value).None? ==>
      var pulled := if nameWithHash.Some? then nameWithHash.value else name;
      && (existsLocally(pulled).Some? ==> r == Err(SandboxImageMissing(existsLocally(pulled).value)))
      && (existsLocally(pulled).None? ==> r == Ok(SandboxImage(pulled)))
  {
    var reference :- PullReference(name, sizeLimit, manifest);
    if pull(reference).Some? then Err(SandboxImagePullFailed(pull(reference).value))
    else
      var image := SandboxImage(if nameWithHash.Some? then nameWithHash.value else name);
      if existsLocally(image.name).Some? then Err(SandboxImageMissing(existsLocally(image.name).value))
      else Ok(image)
  }

  /** `SandboxImage::local`: the image is used as named once it is found. */
  function Local(name: string, existsLocally: string -> Option<CommandError>): (r: Result<SandboxImage, CommandError>)
    ensures r.Ok? <==> existsLocally(name).None?
    ensures r.Ok? ==> r.value.name == name
    ensures r.Err? ==> r.error == SandboxImageMissing(existsLocally(name).value)
  {
    if existsLocally(name).Some? then Err(SandboxImageMissing(existsLocally(name).value))
    else Ok(SandboxImage(name))
  }
}

=== FILE: seqs.dfy ===
/** Sequence helpers: order-preserving selection, collecting results. */
module Seqs {
  import opened Wrappers

  /** `a` is `b` with some elements left out and the others kept in their original order. */
  predicate IsSubsequence<T(==)>(a: seq<T>, b: seq<T>)
    decreases |b|
  {
    |a| == 0
    || (|b| > 0
        && ((a[0] == b[0] && IsSubsequence(a[1..], b[1..])) || IsSubsequence(a, b[1..])))
  }

  lemma {:induction false} SubsequenceOfSelf<T>(a: seq<T>)
    ensures IsSubsequence(a, a)
    decreases |a|
  {
    if |a| > 0 {
      SubsequenceOfSelf(a[1..]);
    }
  }

  /** Concatenation regroups freely. */
  lemma AppendAssoc<T>(a: seq<T>, b: seq<T>, c: seq<T>)
    ensures a + b + c == a + (b + c)
  {
  }

  /** `k` is the first failed result and every one before it succeeded. */
  predicate FirstFailure<T, E>(rs: seq<Result<T, E>>, k: nat) {
    k < |rs| && rs[k].Err? && forall i | 0 <= i < k :: rs[i].Ok?
  }

  /**
   * `iter.collect::<Result<Vec<_>, _>>()`: all the values in order when every result succeeded,
   * otherwise the first error.
   */
  function Collect<T, E>(rs: seq<Result<T, E>>): (r: Result<seq<T>, E>)
    ensures r.Ok? <==> forall i | 0 <= i < |rs| :: rs[i].Ok?
    ensures r.Ok? ==> |r.value| == |rs| && forall i | 0 <= i < |rs| :: r.value[i] == rs[i].value
    ensures r.Err? ==> exists k: nat :: FirstFailure(rs, k) && r.error == rs[k].error
    decreases |rs|
  {
    if |rs| == 0 then Ok([])
    else if rs[0].Err? then
      assert FirstFailure(rs, 0);
      Err(rs[0].error)
    else
      match Collect(rs[1..])
      case Err(e) =>
        assert exists k: nat :: FirstFailure(rs, k) && e == rs[k].error by {
          var k: nat :| FirstFailure(rs[1..], k) && e == rs[1..][k].error;
          assert FirstFailure(rs, k + 1) by {
            forall i | 0 <= i < k + 1 ensures rs[i].Ok? {
              if i > 0 { assert rs[i] == rs[1..][i - 1]; }
            }
          }
        }
        Err(e)
      case Ok(vs) =>
        assert forall i | 0 <= i < |rs| :: rs[i].Ok? by {
          forall i | 0 <= i < |rs| ensures rs[i].Ok? {
            if i > 0 { assert rs[i] == rs[1..][i - 1]; }
          }
        }
        Ok([rs[0].value] + vs)
  }
}

=== FILE: text.dfy ===
/** String helpers with the semantics of the Rust `str` methods the core relies on. */
module Text {

  predicate StartsWith(s: string, prefix: string) {
    |prefix| <= |s| && s[..|prefix|] == prefix
  }

  predicate EndsWith(s: string, suffix: string) {
    |suffix| <= |s| && s[|s| - |suffix|..] == suffix
  }

  /** `str::contains` with a string pattern. */
  predicate Contains(s: string, pattern: string)
    decreases |s|
  {
    StartsWith(s, pattern) || (|s| > 0 && Contains(s[1..], pattern))
  }

  /** A string that never holds the first character of a non-empty pattern cannot contain it. */
  lemma {:induction false} NotContainsFirstChar(s: string, pattern: string)
    requires |pattern| > 0 && pattern[0] !in s
    ensures !Contains(s, pattern)
    decreases |s|
  {
    if |s| > 0 {
      assert s[0] != pattern[0];
      NotContainsFirstChar(s[1..], pattern);
    }
  }

  /** `str::replace`: every non-overlapping occurrence of `pattern`, scanned left to right, becomes `replacement`. */
  function ReplaceAll(s: string, pattern: string, replacement: string): string
    requires |pattern| > 0
    decreases |s|
  {
    if |s| == 0 then ""
    else if StartsWith(s, pattern) then replacement + ReplaceAll(s[|pattern|..], pattern, replacement)
    else [s[0]] + ReplaceAll(s[1..], pattern, replacement)
  }

  /** Replacing a pattern that does not occur leaves the string unchanged. */
  lemma {:induction false} ReplaceAllAbsent(s: string, pattern: string, replacement: string)
    requires |pattern| > 0 && !Contains(s, pattern)
    ensures ReplaceAll(s, pattern, replacement) == s
    decreases |s|
  {
    if |s| > 0 {
      ReplaceAllAbsent(s[1..], pattern, replacement);
      assert [s[0]] + s[1..] == s;
    }
  }

  /** Text free of a pattern's first character passes through a replacement untouched. */
  lemma {:induction false} ReplaceAllSkip(a: string, pattern: string, replacement: string, b: string)
    requires |pattern| > 0 && pattern[0] !in a
    ensures ReplaceAll(a + b, pattern, replacement) == a + ReplaceAll(b, pattern, replacement)
    decreases |a|
  {
    if |a| == 0 {
      assert a + b == b;
    } else {
      var s := a + b;
      assert s[0] == a[0] && a[0] != pattern[0];
      assert !StartsWith(s, pattern);
      assert s[1..] == a[1..] + b;
      ReplaceAllSkip(a[1..], pattern, replacement, b);
      assert [a[0]] + (a[1..] + ReplaceAll(b, pattern, replacement)) == a + ReplaceAll(b, pattern, replacement);
    }
  }

  /** An occurrence preceded by text free of the pattern's first character is replaced in place. */
  lemma {:induction false} ReplaceAllSplice(a: string, pattern: string, replacement: string, b: string)
    requires |pattern| > 0 && pattern[0] !in a
    ensures ReplaceAll(a + pattern + b, pattern, replacement) == a + replacement + ReplaceAll(b, pattern, replacement)
    decreases |a|
  {
    var s := a + pattern + b;
    if |a| == 0 {
      assert s == pattern + b;
      assert StartsWith(s, pattern);
      assert s[|pattern|..] == b;
    } else {
      assert s[0] == a[0] && a[0] != pattern[0];
      assert !StartsWith(s, pattern);
      assert s[1..] == a[1..] + pattern + b;
      ReplaceAllSplice(a[1..], pattern, replacement, b);
      assert [a[0]] + a[1..] == a;
    }
  }

  /** `[T]::join(sep)` on a list of strings. */
  function Join(parts: seq<string>, sep: string): string {
    if |parts| == 0 then ""
    else if |parts| == 1 then parts[0]
    else parts[0] + sep + Join(parts[1..], sep)
  }

  /** `str::split(c)` on a single character: always at least one piece. */
  function Split(s: string, c: char): (pieces: seq<string>)
    ensures |pieces| > 0
    decreases |s|
  {
    if |s| == 0 then [""]
    else if s[0] == c then [""] + Split(s[1..], c)
    else
      var rest := Split(s[1..], c);
      [[s[0]] + rest[0]] + rest[1..]
  }

  lemma {:induction false} SplitNoSeparator(a: string, c: char)
    requires c !in a
    ensures Split(a, c) == [a]
    decreases |a|
  {
    if |a| > 0 {
      SplitNoSeparator(a[1..], c);
      assert [a[0]] + a[1..] == a;
    }
  }

  lemma {:induction false} SplitAfterPiece(a: string, c: char, b: string)
    requires c !in a
    ensures Split(a + [c] + b, c) == [a] + Split(b, c)
    decreases |a|
  {
    var s := a + [c] + b;
    if |a| == 0 {
      assert s == [c] + b;
      assert s[1..] == b;
    } else {
      assert s[0] == a[0] && s[1..] == a[1..] + [c] + b;
      SplitAfterPiece(a[1..], c, b);
      assert [a[0]] + a[1..] == a;
    }
  }

  /** Splitting a join on a separator that no piece contains gives back the pieces. */
  lemma {:induction false} SplitJoin(parts: seq<string>, c: char)
    requires |parts| > 0
    requires forall i | 0 <= i < |parts| :: c !in parts[i]
    ensures Split(Join(parts, [c]), c) == parts
    decreases |parts|
  {
    if |parts| == 1 {
      SplitNoSeparator(parts[0], c);
    } else {
      SplitJoin(parts[1..], c);
      SplitAfterPiece(parts[0], c, Join(parts[1..], [c]));
      assert [parts[0]] + parts[1..] == parts;
    }
  }

  /** Every character of `s` found in `from` becomes `to`; the others are kept. */
  function ReplaceChars(s: string, from: set<char>, to: char): (r: string)
    ensures |r| == |s|
    ensures forall i | 0 <= i < |s| :: r[i] == (if s[i] in from then to else s[i])
  {
    if |s| == 0 then "" else [if s[0] in from then to else s[0]] + ReplaceChars(s[1..], from, to)
  }

  function DigitChar(d: nat): char
    requires d < 10
  {
    (48 + d) as char
  }

  predicate IsDigit(c: char) {
    '0' <= c <= '9'
  }

  /** `usize::to_string` / `u32` formatting: decimal without leading zeros. */
  function NatToString(n: nat): (r: string)
    ensures |r| > 0 && forall i | 0 <= i < |r| :: IsDigit(r[i])
    decreases n
  {
    if n < 10 then [DigitChar(n)] else NatToString(n / 10) + [DigitChar(n % 10)]
  }

  function ParseDigits(s: string): nat
    requires forall i | 0 <= i < |s| :: IsDigit(s[i])
    decreases |s|
  {
    if |s| == 0 then 0
    else
      assert IsDigit(s[|s| - 1]);
      ParseDigits(s[..|s| - 1]) * 10 + (s[|s| - 1] as int - 48)
  }

  /** Decimal formatting is injective: parsing the digits gives the number back. */
  lemma {:induction false} ParseNatToString(n: nat)
    ensures ParseDigits(NatToString(n)) == n
    decreases n
  {
    if n >= 10 {
      var s := NatToString(n);
      ParseNatToString(n / 10);
      assert s[..|s| - 1] == NatToString(n / 10);
    }
  }
}

=== FILE: toml.dfy ===
/** The `toml::Value` tree a manifest is parsed into. */
module Toml {

  /** A TOML value; floats are not represented. Tables are maps from key to value. */
  datatype Value =
    | Str(s: string)
    | Integer(i: int)
    | Boolean(b: bool)
    | Datetime(text: string)
    | Array(items: seq<Value>)
    | Table(entries: map<string, Value>)

  type Table = map<string, Value>

  /** `table.get(key)` is a sub-table that holds `inner`. */
  predicate TableHas(t: Table, key: string, inner: string) {
    key in t && t[key].Table? && inner in t[key].entries
  }
}

=== FILE: toml_tweaker.dfy ===
/**
 * `TomlTweaker` (src/prepare.rs): the rewrite of a crate's `Cargo.toml` before it is built.
 * Every step is a pure function from the manifest's top-level table to the rewritten table;
 * a step that would panic in rustwide returns `Panicked`. File existence is a parameter.
 */
module TomlTweaker {
  import opened Wrappers
  import opened Seqs
  import opened Base
  import opened Toml

  // ---------------------------------------------------------------------------------------
  // remove_missing_items / test_existance
  // ---------------------------------------------------------------------------------------

  /** An entry `test_existance` considers: a table whose `name` is a string. */
  predicate Named(v: Value) {
    v.Table? && "name" in v.entries && v.entries["name"].Str?
  }

  /** A considered entry whose `path` is not a string: `path.as_str().unwrap()` panics on it. */
  predicate BadPath(v: Value) {
    Named(v) && "path" in v.entries && !v.entries["path"].Str?
  }

  /** Where the item's source file is expected: its explicit `path`, else `<folder>/<name>.rs`. */
  function ItemPath(dir: Path, v: Value, folder: string): Path
    requires Named(v) && !BadPath(v)
  {
    if "path" in v.entries then dir.Join(v.entries["path"].s)
    else dir.Join(folder).Join(v.entries["name"].s + ".rs")
  }

  /** An entry survives when it is named and its source file exists. */
  predicate Keeps(dir: Path, folder: string, present: Path -> bool, v: Value) {
    Named(v) && !BadPath(v) && present(ItemPath(dir, v, folder))
  }

  /** `test_existance`: the entries kept, in their original order. */
  function TestExistence(dir: Path, items: seq<Value>, folder: string, present: Path -> bool): (r: Exit<seq<Value>>)
    ensures r.Panicked? <==> exists i | 0 <= i < |items| :: BadPath(items[i])
    ensures r.Returned? ==> IsSubsequence(r.value, items)
    ensures r.Returned? ==> forall v :: v in r.value <==> v in items && Keeps(dir, folder, present, v)
    ensures r.Returned? ==> forall v :: multiset(r.value)[v] == if Keeps(dir, folder, present, v) then multiset(items)[v] else 0
    decreases |items|
  {
    if |items| == 0 then Returned([])
    else if BadPath(items[0]) then Panicked
    else
      var tail := TestExistence(dir, items[1..], folder, present);
      assert tail.Panicked? ==> exists i | 0 <= i < |items| :: BadPath(items[i]) by {
        if tail.Panicked? {
          var j :| 0 <= j < |items[1..]| && BadPath(items[1..][j]);
          assert BadPath(items[j + 1]);
        }
      }
      assert tail.Returned? ==> forall i | 0 <= i < |items| :: !BadPath(items[i]) by {
        if tail.Returned? {
          forall i | 0 <= i < |items|
            ensures !BadPath(items[i])
          {
            if i > 0 {
              assert items[i] == items[1..][i - 1];
            }
          }
        }
      }
      assert items == [items[0]] + items[1..];
      assert multiset(items) == multiset{items[0]} + multiset(items[1..]);
      if tail.Panicked? then Panicked
      else if Keeps(dir, folder, present, items[0]) then Returned([items[0]] + tail.value)
      else Returned(tail.value)
  }

  /** `remove_missing_items(category)`: only acts when a directory is known and the entry is an array. */
  function RemoveMissingItems(t: Table, category: string, dir: Option<Path>, present: Path -> bool): (r: Exit<Table>)
    ensures dir.None? || category !in t || !t[category].Array? ==> r == Returned(t)
    ensures r.Panicked? <==>
      dir.Some? && category in t && t[category].Array?
      && exists i | 0 <= i < |t[category].items| :: BadPath(t[category].items[i])
    ensures r.Returned? ==> r.value.Keys == t.Keys
    ensures r.Returned? ==> forall k | k in t && k != category :: r.value[k] == t[k]
    ensures r.Returned? && dir.Some? && category in t && t[category].Array? ==>
      r.value[category].Array?
      && IsSubsequence(r.value[category].items, t[category].items)
      && (forall v :: v in r.value[category].items <==> v in t[category].items && Keeps(dir.value, category + "s", present, v))
      && forall v :: multiset(r.value[category].items)[v]
                     == if Keeps(dir.value, category + "s", present, v) then multiset(t[category].items)[v] else 0
  {
    if dir.Some? && category in t && t[category].Array? then
      var kept :- TestExistence(dir.value, t[category].items, category + "s", present);
      Returned(t[category := Array(kept)])
    else
      Returned(t)
  }

  // ---------------------------------------------------------------------------------------
  // remove_parent_workspaces / remove_unwanted_cargo_features
  // ---------------------------------------------------------------------------------------

  /** `package.remove(key)` when `package` is a table; anything else is left alone. */
  function RemovePackageKey(t: Table, key: string): (r: Table)
    ensures r.Keys == t.Keys
    ensures forall k | k in t && k != "package" :: r[k] == t[k]
    ensures !TableHas(r, "package", key)
    ensures forall other | other != key :: TableHas(r, "package", other) <==> TableHas(t, "package", other)
    ensures forall other | other != key && TableHas(t, "package", other) ::
      TableHas(r, "package", other) && r["package"].entries[other] == t["package"].entries[other]
    ensures "package" in t && !t["package"].Table? ==> r["package"] == t["package"]
  {
    if "package" in t && t["package"].Table? then t["package" := Table(t["package"].entries - {key})] else t
  }

  /** `remove_parent_workspaces`: only `package.workspace` goes. */
  function RemoveParentWorkspaces(t: Table): (r: Table)
    ensures r.Keys == t.Keys
    ensures forall k | k in t && k != "package" :: r[k] == t[k]
    ensures !TableHas(r, "package", "workspace")
    ensures forall other | other != "workspace" :: TableHas(r, "package", other) <==> TableHas(t, "package", other)
    ensures forall other | other != "workspace" && TableHas(t, "package", other) ::
      TableHas(r, "package", other) && r["package"].entries[other] == t["package"].entries[other]
    ensures !TableHas(t, "package", "workspace") ==> r == t
  {
    var r := RemovePackageKey(t, "workspace");
    assert !TableHas(t, "package", "workspace") ==> r == t by {
      if !TableHas(t, "package", "workspace") && "package" in t && t["package"].Table? {
        assert t["package"].entries - {"workspace"} == t["package"].entries;
      }
    }
    r
  }

  /** A `cargo-features` entry that `retain` keeps: a string other than the two stripped features. */
  predicate KeptFeature(v: Value) {
    v.Str? && v.s != "publish-lockfile" && v.s != "default-run"
  }

  /** What the `retain` closure leaves behind: the kept entries and which stripped features it saw. */
  datatype FeatureScan = FeatureScan(kept: seq<Value>, publishLockfile: bool, defaultRun: bool)

  function ScanFeatures(items: seq<Value>): (r: FeatureScan)
    ensures IsSubsequence(r.kept, items)
    ensures forall v :: v in r.kept <==> v in items && KeptFeature(v)
    ensures forall v :: multiset(r.kept)[v] == if KeptFeature(v) then multiset(items)[v] else 0
    ensures r.publishLockfile <==> Str("publish-lockfile") in items
    ensures r.defaultRun <==> Str("default-run") in items
    decreases |items|
  {
    if |items| == 0 then FeatureScan([], false, false)
    else
      var rest := ScanFeatures(items[1..]);
      var v := items[0];
      assert items == [v] + items[1..];
      assert forall w :: w in items <==> w == v || w in items[1..];
      assert multiset(items) == multiset{v} + multiset(items[1..]);
      if KeptFeature(v) then rest.(kept := [v] + rest.kept)
      else if v == Str("publish-lockfile") then rest.(publishLockfile := true)
      else if v == Str("default-run") then rest.(defaultRun := true)
      else rest
  }

  /** A feature list that holds only kept features comes through unchanged. */
  lemma {:induction false} ScanFeaturesKeepsAll(items: seq<Value>)
    requires forall i | 0 <= i < |items| :: KeptFeature(items[i])
    ensures ScanFeatures(items).kept == items
    decreases |items|
  {
    if |items| > 0 {
      ScanFeaturesKeepsAll(items[1..]);
      assert [items[0]] + items[1..] == items;
    }
  }

  /** `cargo-features` is an array that lists `feature`. */
  predicate Listed(t: Table, feature: string) {
    "cargo-features" in t && t["cargo-features"].Array? && Str(feature) in t["cargo-features"].items
  }

  /**
   * `remove_unwanted_cargo_features`: `cargo-features` keeps, in order and as often as listed, its
   * string entries other than the two stripped ones; each stripped feature that was listed takes its `package` key along.
   */
  function RemoveUnwantedCargoFeatures(t: Table): (r: Table)
    ensures r.Keys == t.Keys
    ensures forall k | k in t && k != "cargo-features" && k != "package" :: r[k] == t[k]
    ensures "cargo-features" in t && t["cargo-features"].Array? ==>
      r["cargo-features"].Array?
      && IsSubsequence(r["cargo-features"].items, t["cargo-features"].items)
      && (forall v :: v in r["cargo-features"].items <==> v in t["cargo-features"].items && KeptFeature(v))
      && forall v :: multiset(r["cargo-features"].items)[v]
           == if KeptFeature(v) then multiset(t["cargo-features"].items)[v] else 0
    ensures "cargo-features" in t && !t["cargo-features"].Array? ==> r["cargo-features"] == t["cargo-features"]
    ensures TableHas(r, "package", "publish-lockfile")
      <==> TableHas(t, "package", "publish-lockfile") && !Listed(t, "publish-lockfile")
    ensures TableHas(r, "package", "default-run")
      <==> TableHas(t, "package", "default-run") && !Listed(t, "default-run")
    ensures forall key | key != "publish-lockfile" && key != "default-run" ::
      TableHas(r, "package", key) <==> TableHas(t, "package", key)
    ensures forall key | TableHas(r, "package", key) ::
      TableHas(t, "package", key) && r["package"].entries[key] == t["package"].entries[key]
    ensures "package" in t && !t["package"].Table? ==> r["package"] == t["package"]
  {
    var listed := "cargo-features" in t && t["cargo-features"].Array?;
    var scan := if listed then ScanFeatures(t["cargo-features"].items) else FeatureScan([], false, false);
    var t1 := if listed then t["cargo-features" := Array(scan.kept)] else t;
    var t2 := if scan.publishLockfile then RemovePackageKey(t1, "publish-lockfile") else t1;
    if scan.defaultRun then RemovePackageKey(t2, "default-run") else t2
  }

  // ---------------------------------------------------------------------------------------
  // remove_dependencies / remove_dependencies_from_table
  // ---------------------------------------------------------------------------------------

  const DependencySections: set<string> := {"dependencies", "dev-dependencies", "build-dependencies"}

  /** A dependency entry after the rewrite: a table loses exactly its `path` key, anything else is kept. */
  predicate PathStripped(before: Value, after: Value) {
    if before.Table? then
      after.Table? && after.entries.Keys == before.entries.Keys - {"path"}
      && forall k | k in after.entries :: after.entries[k] == before.entries[k]
    else
      after == before
  }

  /** Every dependency of a section, by name, is rewritten as `PathStripped`. */
  predicate DepsStripped(before: Table, after: Table) {
    before.Keys == after.Keys && forall n | n in before :: PathStripped(before[n], after[n])
  }

  /** The top-level entry `k` after `remove_dependencies_from_table`. */
  predicate SectionStripped(before: Table, after: Table, k: string)
    requires k in before && k in after
  {
    if k in DependencySections && before[k].Table? then
      after[k].Table? && DepsStripped(before[k].entries, after[k].entries)
    else
      after[k] == before[k]
  }

  predicate SectionsStripped(before: Table, after: Table) {
    before.Keys == after.Keys && forall k | k in before :: SectionStripped(before, after, k)
  }

  function StripPath(v: Value): (r: Value)
    ensures PathStripped(v, r)
  {
    if v.Table? then Table(v.entries - {"path"}) else v
  }

  /** `remove_dependencies_from_table`: drops `path` from table-valued dependencies of the three sections. */
  function RemoveDependenciesFromTable(t: Table): (r: Table)
    ensures SectionsStripped(t, r)
  {
    map k | k in t ::
      if k in DependencySections && t[k].Table? then
        Table(map n | n in t[k].entries :: StripPath(t[k].entries[n]))
      else
        t[k]
  }

  /** `remove_dependencies`: the top level, then every table under `target`. */
  function RemoveDependencies(t: Table): (r: Table)
    ensures r.Keys == t.Keys
    ensures forall k | k in t && k != "target" :: SectionStripped(t, r, k)
    ensures "target" in t && t["target"].Table? ==>
      r["target"].Table? && r["target"].entries.Keys == t["target"].entries.Keys
      && forall name | name in t["target"].entries ::
           if t["target"].entries[name].Table? then
             r["target"].entries[name].Table?
             && SectionsStripped(t["target"].entries[name].entries, r["target"].entries[name].entries)
           else
             r["target"].entries[name] == t["target"].entries[name]
    ensures "target" in t && !t["target"].Table? ==> r["target"] == t["target"]
  {
    var top := RemoveDependenciesFromTable(t);
    if "target" in top && top["target"].Table? then
      var targets := top["target"].entries;
      assert "target" !in DependencySections;
      assert top["target"] == t["target"];
      top["target" := Table(map name | name in targets ::
        if targets[name].Table? then Table(RemoveDependenciesFromTable(targets[name].entries)) else targets[name])]
    else
      assert "target" in t ==> top["target"] == t["target"] by {
        if "target" in t {
          assert "target" !in DependencySections;
        }
      }
      top
  }

  // ---------------------------------------------------------------------------------------
  // apply_patches
  // ---------------------------------------------------------------------------------------

  /** The `{ git = …, branch = … }` table written for a patch. */
  function PatchEntry(p: CratePatch): Value {
    Table(map["git" := Str(p.uri), "branch" := Str(p.branch)])
  }

  /** The names the patches insert. */
  function PatchNames(patches: seq<CratePatch>): set<string> {
    if |patches| == 0 then {} else {patches[0].name} + PatchNames(patches[1..])
  }

  /** Patch `i` is the last in the list with this name, so its `insert` is the one that stays. */
  predicate LastPatchFor(patches: seq<CratePatch>, name: string, i: int) {
    0 <= i < |patches| && patches[i].name == name
    && forall j | i < j < |patches| :: patches[j].name != name
  }

  /** The patch list names `k`. */
  lemma {:induction false} PatchNamesHas(patches: seq<CratePatch>, i: int)
    requires 0 <= i < |patches|
    ensures patches[i].name in PatchNames(patches)
    decreases i
  {
    if i > 0 {
      PatchNamesHas(patches[1..], i - 1);
    }
  }

  /** The loop that inserts every patch into `patch.crates-io`, in order. */
  function InsertPatches(t: Table, patches: seq<CratePatch>): (r: Table)
    ensures r.Keys == t.Keys + PatchNames(patches)
    ensures forall k | k in t && k !in PatchNames(patches) :: r[k] == t[k]
    decreases |patches|
  {
    if |patches| == 0 then t
    else InsertPatches(t[patches[0].name := PatchEntry(patches[0])], patches[1..])
  }

  /** After the loop, the entry of each patched name holds the last patch with that name. */
  lemma {:induction false} InsertPatchesLastWins(t: Table, patches: seq<CratePatch>, k: string)
    requires k in PatchNames(patches)
    ensures exists i | 0 <= i < |patches| && LastPatchFor(patches, k, i) :: InsertPatches(t, patches)[k] == PatchEntry(patches[i])
    decreases |patches|
  {
    var p := patches[0];
    var rest := patches[1..];
    var t' := t[p.name := PatchEntry(p)];
    if k in PatchNames(rest) {
      InsertPatchesLastWins(t', rest, k);
      var i :| 0 <= i < |rest| && LastPatchFor(rest, k, i) && InsertPatches(t', rest)[k] == PatchEntry(rest[i]);
      forall j | i + 1 < j < |patches|
        ensures patches[j].name != k
      {
        assert patches[j] == rest[j - 1];
      }
      assert LastPatchFor(patches, k, i + 1);
    } else {
      forall j | 0 < j < |patches|
        ensures patches[j].name != k
      {
        PatchNamesHas(rest, j - 1);
        assert patches[j] == rest[j - 1];
      }
      assert LastPatchFor(patches, k, 0);
    }
  }

  /** `after` is `before` with one entry per patch name, each holding the last patch of that name. */
  predicate PatchesInserted(before: Table, after: Table, patches: seq<CratePatch>) {
    after.Keys == before.Keys + PatchNames(patches)
    && (forall k | k in before && k !in PatchNames(patches) :: after[k] == before[k])
    && forall k | k in PatchNames(patches) ::
         exists i | 0 <= i < |patches| && LastPatchFor(patches, k, i) :: after[k] == PatchEntry(patches[i])
  }

  lemma InsertPatchesSpec(t: Table, patches: seq<CratePatch>)
    ensures PatchesInserted(t, InsertPatches(t, patches), patches)
  {
    forall k | k in PatchNames(patches)
      ensures exists i | 0 <= i < |patches| && LastPatchFor(patches, k, i) :: InsertPatches(t, patches)[k] == PatchEntry(patches[i])
    {
      InsertPatchesLastWins(t, patches, k);
    }
  }

  /** The current `patch` table, or the empty one `apply_patches` would insert. */
  function PatchTable(t: Table): Table {
    if "patch" in t && t["patch"].Table? then t["patch"].entries else map[]
  }

  /** The current `patch.crates-io` table, or the empty one `apply_patches` would insert. */
  function CratesIoTable(t: Table): Table {
    var patch := PatchTable(t);
    if "crates-io" in patch && patch["crates-io"].Table? then patch["crates-io"].entries else map[]
  }

  /** A `patch` or `patch.crates-io` entry exists but is not a table: the `unwrap` panics. */
  predicate PatchPanics(t: Table) {
    "patch" in t
    && (!t["patch"].Table? || ("crates-io" in t["patch"].entries && !t["patch"].entries["crates-io"].Table?))
  }

  /**
   * `apply_patches`: nothing for an empty list; otherwise `patch` and `patch.crates-io` are reused
   * (or created) and each patch becomes `patch.crates-io.<name> = { git, branch }`.
   */
  function ApplyPatches(t: Table, patches: seq<CratePatch>): (r: Exit<Table>)
    ensures |patches| == 0 ==> r == Returned(t)
    ensures r.Panicked? <==> |patches| > 0 && PatchPanics(t)
    ensures r.Returned? && |patches| > 0 ==>
      r.value.Keys == t.Keys + {"patch"}
      && (forall k | k in t && k != "patch" :: r.value[k] == t[k])
      && r.value["patch"].Table?
      && r.value["patch"].entries.Keys == PatchTable(t).Keys + {"crates-io"}
      && (forall k | k in PatchTable(t) && k != "crates-io" :: r.value["patch"].entries[k] == PatchTable(t)[k])
      && r.value["patch"].entries["crates-io"].Table?
      && PatchesInserted(CratesIoTable(t), r.value["patch"].entries["crates-io"].entries, patches)
  {
    if |patches| == 0 then Returned(t)
    else if PatchPanics(t) then Panicked
    else
      var patch := PatchTable(t);
      InsertPatchesSpec(CratesIoTable(t), patches);
      Returned(t["patch" := Table(patch["crates-io" := Table(InsertPatches(CratesIoTable(t), patches))])])
  }

  // ---------------------------------------------------------------------------------------
  // tweak
  // ---------------------------------------------------------------------------------------

  /** The top-level keys some step of `tweak` may rewrite. */
  const TouchedKeys: set<string> := {
    "example", "test", "package", "cargo-features", "dependencies", "dev-dependencies",
    "build-dependencies", "target", "patch"
  }

  /** The three steps of `tweak` that cannot fail: workspaces, features, then path dependencies. */
  function Rewrite(t: Table): (r: Table)
    ensures r.Keys == t.Keys
    ensures !TableHas(r, "package", "workspace")
  {
    var t3 := RemoveParentWorkspaces(t);
    var t4 := RemoveUnwantedCargoFeatures(t3);
    assert !TableHas(t4, "package", "workspace");
    var t5 := RemoveDependencies(t4);
    assert "package" in t4 ==> t5["package"] == t4["package"] by {
      if "package" in t4 {
        assert "package" !in DependencySections;
        assert SectionStripped(t4, t5, "package");
      }
    }
    t5
  }

  /** A top-level entry outside `TouchedKeys` survives the rewriting steps as it was. */
  lemma RewriteFrame(t: Table, k: string)
    requires k in t && k !in TouchedKeys
    ensures Rewrite(t)[k] == t[k]
  {
    var t3 := RemoveParentWorkspaces(t);
    var t4 := RemoveUnwantedCargoFeatures(t3);
    var t5 := RemoveDependencies(t4);
    assert k != "package" && k != "cargo-features";
    assert k !in DependencySections && k != "target";
    assert SectionStripped(t4, t5, k);
  }

  /** `tweak`: the six steps in the order rustwide runs them. */
  function Tweak(t: Table, dir: Option<Path>, present: Path -> bool, patches: seq<CratePatch>): (r: Exit<Table>)
    ensures r.Returned? ==> !TableHas(r.value, "package", "workspace")
  {
    var t1 :- RemoveMissingItems(t, "example", dir, present);
    var t2 :- RemoveMissingItems(t1, "test", dir, present);
    var t5 := Rewrite(t2);
    assert "package" in t5 ==> "package" != "patch";
    ApplyPatches(t5, patches)
  }

  /**
   * `tweak` on a tweaker whose crate may not format: `remove_parent_workspaces` formats the crate
   * whatever the manifest holds, so once the missing items are removed a crate that cannot be
   * formatted panics there.
   */
  function TweakCrate(t: Table, dir: Option<Path>, present: Path -> bool, patches: seq<CratePatch>, crateFormats: bool)
    : (r: Exit<Table>)
    ensures crateFormats ==> r == Tweak(t, dir, present, patches)
    ensures !crateFormats ==> r.Panicked?
  {
    var t1 :- RemoveMissingItems(t, "example", dir, present);
    var t2 :- RemoveMissingItems(t1, "test", dir, present);
    if !crateFormats then Panicked
    else ApplyPatches(Rewrite(t2), patches)
  }

  // ---------------------------------------------------------------------------------------
  // Properties
  // ---------------------------------------------------------------------------------------

  /** No dependency entry of the table is a table with a `path` key. */
  predicate NoPathDeps(t: Table) {
    forall k | k in t && k in DependencySections && t[k].Table? ::
      forall n | n in t[k].entries :: !(t[k].entries[n].Table? && "path" in t[k].entries[n].entries)
  }

  /** A manifest with nothing for `tweak` to do. */
  predicate Untouchable(t: Table) {
    !TableHas(t, "package", "workspace")
    && ("cargo-features" in t && t["cargo-features"].Array? ==>
          forall i | 0 <= i < |t["cargo-features"].items| :: KeptFeature(t["cargo-features"].items[i]))
    && NoPathDeps(t)
    && ("target" in t && t["target"].Table? ==>
          forall name | name in t["target"].entries && t["target"].entries[name].Table? ::
            NoPathDeps(t["target"].entries[name].entries))
  }

  lemma RemoveDependenciesFromTableNoop(t: Table)
    requires NoPathDeps(t)
    ensures RemoveDependenciesFromTable(t) == t
  {
    var r := RemoveDependenciesFromTable(t);
    forall k | k in t
      ensures r[k] == t[k]
    {
      if k in DependencySections && t[k].Table? {
        var deps := t[k].entries;
        var after := r[k].entries;
        forall n | n in deps
          ensures after[n] == deps[n]
        {
          if deps[n].Table? {
            assert deps[n].entries - {"path"} == deps[n].entries;
          }
        }
        assert after == deps;
      }
    }
  }

  /** With no directory and no patches, a manifest that has nothing to rewrite comes back unchanged. */
  lemma TweakNoop(t: Table, present: Path -> bool)
    requires Untouchable(t)
    ensures Tweak(t, None, present, []) == Returned(t)
  {
    var t3 := RemoveParentWorkspaces(t);
    assert t3 == t;
    if "cargo-features" in t && t["cargo-features"].Array? {
      ScanFeaturesKeepsAll(t["cargo-features"].items);
      assert t["cargo-features" := Array(t["cargo-features"].items)] == t;
    }
    var t4 := RemoveUnwantedCargoFeatures(t);
    assert t4 == t;
    RemoveDependenciesFromTableNoop(t);
    if "target" in t && t["target"].Table? {
      var targets := t["target"].entries;
      forall name | name in targets && targets[name].Table?
        ensures RemoveDependenciesFromTable(targets[name].entries) == targets[name].entries
      {
        RemoveDependenciesFromTableNoop(targets[name].entries);
      }
      var rewritten := map name | name in targets ::
        if targets[name].Table? then Table(RemoveDependenciesFromTable(targets[name].entries)) else targets[name];
      assert rewritten == targets;
    }
    assert RemoveDependencies(t) == t;
  }

  /** `tweak` adds at most the `patch` entry at the top level, and removes none. */
  lemma TweakKeys(t: Table, dir: Option<Path>, present: Path -> bool, patches: seq<CratePatch>)
    requires Tweak(t, dir, present, patches).Returned?
    ensures Tweak(t, dir, present, patches).value.Keys == t.Keys + (if |patches| > 0 then {"patch"} else {})
  {
  }

  /** A top-level entry outside `TouchedKeys` survives `tweak` as it was. */
  lemma TweakFrame(t: Table, dir: Option<Path>, present: Path -> bool, patches: seq<CratePatch>, k: string)
    requires Tweak(t, dir, present, patches).Returned?
    requires k in t && k !in TouchedKeys
    ensures k in Tweak(t, dir, present, patches).value
    ensures Tweak(t, dir, present, patches).value[k] == t[k]
  {
    var t1 := RemoveMissingItems(t, "example", dir, present).value;
    var t2 := RemoveMissingItems(t1, "test", dir, present).value;
    assert k != "example" && k != "test" && k != "patch";
    RewriteFrame(t2, k);
  }

  /** `tweak` with patches is `tweak` without them followed by `apply_patches`. */
  lemma TweakThenPatch(t: Table, dir: Option<Path>, present: Path -> bool, patches: seq<CratePatch>)
    requires Tweak(t, dir, present, []).Returned?
    ensures Tweak(t, dir, present, patches) == ApplyPatches(Tweak(t, dir, present, []).value, patches)
  {
  }

  /** One patch on a manifest without `[patch]` creates `[patch.crates-io]` holding just that patch. */
  lemma ApplyOnePatchFresh(t: Table, p: CratePatch)
    requires "patch" !in t
    ensures ApplyPatches(t, [p]) == Returned(t["patch" := Table(map["crates-io" := Table(map[p.name := PatchEntry(p)])])])
  {
    var r := InsertPatches(map[], [p]);
    assert r.Keys == {p.name};
    assert r == map[p.name := PatchEntry(p)];
  }

  // The manifests of the unit tests in src/prepare.rs.

  function Dep(version: string, path: string): Value {
    Table(map["version" := Str(version), "path" := Str(path)])
  }

  function VersionOnly(version: string): Value {
    Table(map["version" := Str(version)])
  }

  /** The input of `test_tweak_table_changes`. */
  function ChangesInput(): Table {
    map[
      "cargo-features" := Array([Str("foobar"), Str("publish-lockfile"), Str("default-run")]),
      "package" := Table(map[
        "name" := Str("foo"), "version" := Str("1.0"), "workspace" := Str(".."),
        "publish-lockfile" := Boolean(true), "default-run" := Str("foo")]),
      "dependencies" := Table(map["bar" := Dep("1.0", "../bar")]),
      "dev-dependencies" := Table(map["baz" := Dep("1.0", "../baz")]),
      "target" := Table(map["cfg(unix)" := Table(map["dependencies" := Table(map["quux" := Dep("1.0", "../quux")])])]),
      "workspace" := Table(map["members" := Array([])])
    ]
  }

  /** The expected output of `test_tweak_table_changes`. */
  function ChangesExpected(): Table {
    map[
      "cargo-features" := Array([Str("foobar")]),
      "package" := Table(ChangesStrippedPackage()),
      "dependencies" := Table(map["bar" := VersionOnly("1.0")]),
      "dev-dependencies" := Table(map["baz" := VersionOnly("1.0")]),
      "target" := Table(map["cfg(unix)" := Table(map["dependencies" := Table(map["quux" := VersionOnly("1.0")])])]),
      "workspace" := Table(map["members" := Array([])])
    ]
  }

  /** The `[package]` table of `test_tweak_table_changes` once `workspace` is gone. */
  function ChangesPackage(): map<string, Value> {
    map["name" := Str("foo"), "version" := Str("1.0"),
        "publish-lockfile" := Boolean(true), "default-run" := Str("foo")]
  }

  /** The `[package]` table of `test_tweak_table_changes` once the stripped features are gone too. */
  function ChangesStrippedPackage(): map<string, Value> {
    map["name" := Str("foo"), "version" := Str("1.0")]
  }

  /** The manifest of `test_tweak_table_changes` after the feature step. */
  function ChangesAfterFeatures(): Table {
    ChangesInput()["cargo-features" := Array([Str("foobar")])]["package" := Table(ChangesStrippedPackage())]
  }

  lemma ChangesStep3(t: Table)
    requires t == ChangesInput()
    ensures RemoveParentWorkspaces(t) == t["package" := Table(ChangesPackage())]
  {
    assert t["package"].entries - {"workspace"} == ChangesPackage();
  }

  lemma ChangesScan()
    ensures ScanFeatures([Str("foobar"), Str("publish-lockfile"), Str("default-run")]) == FeatureScan([Str("foobar")], true, true)
  {
    var items := [Str("foobar"), Str("publish-lockfile"), Str("default-run")];
    assert ScanFeatures(items[2..]) == FeatureScan([], false, true);
    assert ScanFeatures(items[1..]) == FeatureScan([], true, true);
  }

  lemma ChangesPackageStripped()
    ensures ChangesPackage() - {"publish-lockfile"} - {"default-run"} == ChangesStrippedPackage()
  {
  }

  lemma UpdateTwice(m: Table, k: string, x: Value, y: Value)
    ensures m[k := x][k := y] == m[k := y]
  {
  }

  /** A feature list naming both stripped features loses them, and so does the `[package]` table. */
  lemma FeaturesStripped(t: Table, pkg: map<string, Value>)
    requires "cargo-features" in t && t["cargo-features"] == Array([Str("foobar"), Str("publish-lockfile"), Str("default-run")])
    requires "package" in t && t["package"] == Table(pkg)
    ensures RemoveUnwantedCargoFeatures(t)
         == t["cargo-features" := Array([Str("foobar")])]["package" := Table(pkg - {"publish-lockfile"} - {"default-run"})]
  {
    ChangesScan();
    var t1 := t["cargo-features" := Array([Str("foobar")])];
    var t2 := RemovePackageKey(t1, "publish-lockfile");
    assert t2 == t1["package" := Table(pkg - {"publish-lockfile"})];
    UpdateTwice(t1, "package", Table(pkg - {"publish-lockfile"}), Table(pkg - {"publish-lockfile"} - {"default-run"}));
  }

  lemma ChangesStep4(t: Table)
    requires t == ChangesInput()["package" := Table(ChangesPackage())]
    ensures RemoveUnwantedCargoFeatures(t) == ChangesAfterFeatures()
  {
    FeaturesStripped(t, ChangesPackage());
    ChangesPackageStripped();
    UpdateOver(ChangesInput(), "package", Table(ChangesPackage()), "cargo-features", Array([Str("foobar")]),
               Table(ChangesStrippedPackage()));
  }

  lemma UpdateOver(m: Table, k: string, x: Value, j: string, y: Value, z: Value)
    requires k != j
    ensures m[k := x][j := y][k := z] == m[j := y][k := z]
  {
  }

  lemma StrippedDep(version: string, path: string, after: Value)
    requires PathStripped(Dep(version, path), after)
    ensures after == VersionOnly(version)
  {
    assert after.entries == VersionOnly(version).entries;
  }

  lemma StrippedSection(name: string, version: string, path: string, after: Value)
    requires after.Table? && DepsStripped(map[name := Dep(version, path)], after.entries)
    ensures after == Table(map[name := VersionOnly(version)])
  {
    StrippedDep(version, path, after.entries[name]);
    assert after.entries == map[name := VersionOnly(version)];
  }

  /** One target table with one path dependency loses the path. */
  lemma StrippedTarget(t: Table, target: string, dep: string, version: string, path: string)
    requires "target" in t
    requires t["target"] == Table(map[target := Table(map["dependencies" := Table(map[dep := Dep(version, path)])])])
    ensures RemoveDependencies(t)["target"]
         == Table(map[target := Table(map["dependencies" := Table(map[dep := VersionOnly(version)])])])
  {
    var r := RemoveDependencies(t);
    var unix := r["target"].entries[target];
    var unixBefore := t["target"].entries[target].entries;
    assert SectionStripped(unixBefore, unix.entries, "dependencies");
    StrippedSection(dep, version, path, unix.entries["dependencies"]);
    assert unix.entries == map["dependencies" := Table(map[dep := VersionOnly(version)])];
    assert r["target"].entries == map[target := Table(map["dependencies" := Table(map[dep := VersionOnly(version)])])];
  }

  /** A table with six keys is the display of those keys and their values. */
  lemma SixEntries(r: Table, k1: string, v1: Value, k2: string, v2: Value, k3: string, v3: Value,
                   k4: string, v4: Value, k5: string, v5: Value, k6: string, v6: Value)
    requires r.Keys == {k1, k2, k3, k4, k5, k6}
    requires r[k1] == v1 && r[k2] == v2 && r[k3] == v3 && r[k4] == v4 && r[k5] == v5 && r[k6] == v6
    ensures r == map[k1 := v1, k2 := v2, k3 := v3, k4 := v4, k5 := v5, k6 := v6]
  {
  }

  /** Entries that are neither dependency sections nor `target` pass `remove_dependencies` untouched. */
  lemma RemoveDependenciesKeeps(t: Table, k: string)
    requires k in t && k !in DependencySections && k != "target"
    ensures k in RemoveDependencies(t) && RemoveDependencies(t)[k] == t[k]
  {
    assert SectionStripped(t, RemoveDependencies(t), k);
  }

  lemma ChangesStep5Keys(t: Table)
    requires t == ChangesAfterFeatures()
    ensures RemoveDependencies(t).Keys == {"cargo-features", "package", "dependencies", "dev-dependencies", "target", "workspace"}
  {
  }

  lemma ChangesStep5Package(t: Table)
    requires t == ChangesAfterFeatures()
    ensures RemoveDependencies(t)["package"] == Table(ChangesStrippedPackage())
  {
    RemoveDependenciesKeeps(t, "package");
  }

  lemma ChangesStep5Features(t: Table)
    requires t == ChangesAfterFeatures()
    ensures RemoveDependencies(t)["cargo-features"] == Array([Str("foobar")])
  {
    RemoveDependenciesKeeps(t, "cargo-features");
  }

  lemma ChangesStep5Workspace(t: Table)
    requires t == ChangesAfterFeatures()
    ensures RemoveDependencies(t)["workspace"] == Table(map["members" := Array([])])
  {
    RemoveDependenciesKeeps(t, "workspace");
  }

  lemma ChangesStep5Deps(t: Table)
    requires t == ChangesAfterFeatures()
    ensures RemoveDependencies(t)["dependencies"] == Table(map["bar" := VersionOnly("1.0")])
  {
    var r := RemoveDependencies(t);
    assert SectionStripped(t, r, "dependencies");
    StrippedSection("bar", "1.0", "../bar", r["dependencies"]);
  }

  lemma ChangesStep5DevDeps(t: Table)
    requires t == ChangesAfterFeatures()
    ensures RemoveDependencies(t)["dev-dependencies"] == Table(map["baz" := VersionOnly("1.0")])
  {
    var r := RemoveDependencies(t);
    assert SectionStripped(t, r, "dev-dependencies");
    StrippedSection("baz", "1.0", "../baz", r["dev-dependencies"]);
  }

  lemma ChangesStep5(t: Table)
    requires t == ChangesAfterFeatures()
    ensures RemoveDependencies(t) == ChangesExpected()
  {
    var r := RemoveDependencies(t);
    ChangesStep5Keys(t);
    ChangesStep5Package(t);
    ChangesStep5Features(t);
    ChangesStep5Workspace(t);
    ChangesStep5Deps(t);
    ChangesStep5DevDeps(t);
    StrippedTarget(t, "cfg(unix)", "quux", "1.0", "../quux");
    SixEntries(r,
      "cargo-features", Array([Str("foobar")]),
      "package", Table(ChangesStrippedPackage()),
      "dependencies", Table(map["bar" := VersionOnly("1.0")]),
      "dev-dependencies", Table(map["baz" := VersionOnly("1.0")]),
      "target", Table(map["cfg(unix)" := Table(map["dependencies" := Table(map["quux" := VersionOnly("1.0")])])]),
      "workspace", Table(map["members" := Array([])]));
  }

  /** `test_tweak_table_changes`. */
  lemma TweakChangesExample(t: Table, present: Path -> bool)
    requires t == ChangesInput()
    ensures Tweak(t, None, present, []) == Returned(ChangesExpected())
  {
    ChangesStep3(t);
    ChangesStep4(t["package" := Table(ChangesPackage())]);
    ChangesStep5(ChangesAfterFeatures());
  }

  /** The input of `test_tweak_table_noop` and `test_tweak_table_patches`. */
  function PlainManifest(): Table {
    map[
      "cargo-features" := Array([Str("foobar")]),
      "package" := Table(map["name" := Str("foo"), "version" := Str("1.0")]),
      "dependencies" := Table(map["bar" := Str("1.0")]),
      "dev-dependencies" := Table(map["baz" := Str("1.0")]),
      "target" := Table(map["cfg(unix)" := Table(map["dependencies" := Table(map["quux" := Str("1.0")])])])
    ]
  }

  lemma PlainManifestUntouchable(t: Table)
    requires t == PlainManifest()
    ensures Untouchable(t)
  {
    PlainNoPathDeps(t);
    PlainTargetNoPathDeps(t);
  }

  lemma PlainNoPathDeps(t: Table)
    requires t == PlainManifest()
    ensures NoPathDeps(t)
  {
  }

  lemma PlainTargetNoPathDeps(t: Table)
    requires t == PlainManifest()
    ensures forall name | name in t["target"].entries && t["target"].entries[name].Table? ::
      NoPathDeps(t["target"].entries[name].entries)
  {
    assert t["target"].entries.Keys == {"cfg(unix)"};
    var unix := t["target"].entries["cfg(unix)"].entries;
    assert NoPathDeps(unix);
  }

  /** `test_tweak_table_noop`. */
  lemma TweakNoopExample(t: Table, present: Path -> bool)
    requires t == PlainManifest()
    ensures Tweak(t, None, present, []) == Returned(t)
  {
    PlainManifestUntouchable(t);
    TweakNoop(t, present);
  }

  /** With nothing else to rewrite, one patch only adds `[patch.crates-io]` holding that patch. */
  lemma TweakOnePatch(t: Table, present: Path -> bool, p: CratePatch)
    requires Untouchable(t) && "patch" !in t
    ensures Tweak(t, None, present, [p]) == Returned(t["patch" := Table(map["crates-io" := Table(map[p.name := PatchEntry(p)])])])
  {
    TweakNoop(t, present);
    TweakThenPatch(t, None, present, [p]);
    ApplyOnePatchFresh(t, p);
  }

  /** `test_tweak_table_patches`: the output is the input plus `[patch.crates-io]` with the one patch. */
  lemma TweakPatchesExample(t: Table, present: Path -> bool)
    requires t == PlainManifest()
    ensures Tweak(t, None, present, [CratePatch("quux", "https://git.example.com/quux", "dev")])
         == Returned(t["patch" := Table(map["crates-io" := Table(map[
              "quux" := Table(map["git" := Str("https://git.example.com/quux"), "branch" := Str("dev")])])])])
  {
    PlainManifestUntouchable(t);
    TweakOnePatch(t, present, CratePatch("quux", "https://git.example.com/quux", "dev"));
  }
}

=== FILE: toolchain.dfy ===
/**
 * Toolchains (src/toolchain.rs): their rustup names, the runnables that go through the rustup
 * proxy, the rustup command lines for installing and changing targets and components, how the
 * listing of installed targets is read back, and how installed toolchain directories are
 * classified. Toolchains built by CI are modelled (the `unstable-toolchain-ci` feature on).
 */
module Toolchain {
  import opened Wrappers
  import opened Text
  import opened Seqs
  import opened Base
  import Cmd
  import BinaryCrates

  /** `Toolchain`: a rustup dist toolchain by name, or a CI build by commit hash and alt flag. */
  datatype Toolchain = Dist(name: string) | Ci(sha: string, alt: bool)

  /** `MAIN_TOOLCHAIN_NAME`. */
  const MainToolchainName := "stable"

  /** `Toolchain::MAIN`. */
  const Main := Dist(MainToolchainName)

  /** `as_dist`: the dist name, for dist toolchains only. */
  function AsDist(t: Toolchain): (r: Option<string>)
    ensures r.Some? <==> t.Dist?
    ensures r.Some? ==> t == Dist(r.value)
  {
    if t.Dist? then Some(t.name) else None
  }

  /** `as_ci`: the hash and alt flag, for CI toolchains only. */
  function AsCi(t: Toolchain): (r: Option<(string, bool)>)
    ensures r.Some? <==> t.Ci?
    ensures r.Some? ==> t == Ci(r.value.0, r.value.1)
  {
    if t.Ci? then Some((t.sha, t.alt)) else None
  }

  /** `is_needed_by_rustwide`: a dist toolchain whose name starts with `stable`. */
  function IsNeededByRustwide(t: Toolchain): (r: bool)
    ensures r <==> AsDist(t).Some? && StartsWith(AsDist(t).value, MainToolchainName)
  {
    match t
    case Dist(name) => StartsWith(name, MainToolchainName)
    case Ci(_, _) => false
  }

  /** `rustup_name`, which is also what `Display` prints: alt CI builds carry `-alt`. */
  function RustupName(t: Toolchain): string {
    match t
    case Dist(name) => name
    case Ci(sha, alt) => if alt then sha + "-alt" else sha
  }

  /** The doc-test of `is_needed_by_rustwide`. */
  lemma NeededByRustwideExamples()
    ensures IsNeededByRustwide(Dist("stable-x86_64-unknown-linux-gnu"))
    ensures !IsNeededByRustwide(Dist("nightly-x86_64-unknown-linux-gnu"))
  {
    assert Dist("nightly-x86_64-unknown-linux-gnu").name[0] == 'n';
  }

  /** `RustupProxy`: the managed binary `name`, with `+<rustup name>` as its first argument. */
  function RustupBinary(t: Toolchain, name: string): (r: Cmd.Runnable)
    ensures r.name == Cmd.ManagedByRustwide(name)
    ensures |r.defaultArgs| == 1 && |r.defaultArgs[0]| > 0 && r.defaultArgs[0][0] == '+' && r.defaultArgs[0][1..] == RustupName(t)
  {
    Cmd.Runnable(Cmd.ManagedByRustwide(name), ["+" + RustupName(t)])
  }

  /** `Toolchain::cargo`. */
  function Cargo(t: Toolchain): Cmd.Runnable {
    RustupBinary(t, "cargo")
  }

  /** `Toolchain::rustc`. */
  function Rustc(t: Toolchain): Cmd.Runnable {
    RustupBinary(t, "rustc")
  }

  /** A command for a proxied binary passes the toolchain selector before the caller's arguments. */
  lemma ProxyArgumentsFirst(ws: Workspace, t: Toolchain, name: string, args: seq<string>)
    ensures var c := Cmd.Args(Cmd.New(ws, RustupBinary(t, name)), args);
      && c.binary == Cmd.ManagedByRustwide(name)
      && c.args == ["+" + RustupName(t)] + args
  {
  }

  /** The command `install` runs: `rustup toolchain install` for dist, the install-master tool for CI. */
  function InstallCommand(ws: Workspace, t: Toolchain): (c: Cmd.Command)
    ensures t.Dist? ==> c == Cmd.Args(Cmd.New(ws, BinaryCrates.Rustup), ["toolchain", "install", t.name, "--profile", ws.rustupProfile])
    ensures t.Ci? ==> c.binary == Cmd.ManagedByRustwide(BinaryCrates.InstallMaster.binary)
    ensures t.Ci? ==> c.args == [t.sha, "-c", "cargo"] + (if t.alt then ["--alt"] else [])
  {
    match t
    case Dist(name) =>
      Cmd.Args(Cmd.New(ws, BinaryCrates.Rustup), ["toolchain", "install", name, "--profile", ws.rustupProfile])
    case Ci(sha, alt) =>
      Cmd.Args(Cmd.New(ws, BinaryCrates.AsRunnable(BinaryCrates.InstallMaster)),
               [sha, "-c", "cargo"] + (if alt then ["--alt"] else []))
  }

  /** `install`: a failed run is reported with the toolchain and the installer named. */
  function Install(t: Toolchain, run: Result<(), CommandError>): (r: Result<(), Error>)
    ensures r.Ok? <==> run.Ok?
    ensures run.Err? && t.Dist? ==>
      r.error == Context("unable to install toolchain " + t.name + " via rustup", Command(run.error))
    ensures run.Err? && t.Ci? ==>
      r.error == Context("unable to install toolchain " + t.sha + " via rustup-toolchain-install-master", Command(run.error))
  {
    match run
    case Ok(_) => Ok(())
    case Err(e) =>
      match t
      case Dist(name) => Err(Context("unable to install toolchain " + name + " via rustup", Command(e)))
      case Ci(sha, _) => Err(Context("unable to install toolchain " + sha + " via rustup-toolchain-install-master", Command(e)))
  }

  /** `toolchain uninstall`, by rustup name. */
  function UninstallCommand(ws: Workspace, t: Toolchain): (c: Cmd.Command)
    ensures c.binary == Cmd.ManagedByRustwide("rustup")
    ensures c.args == ["toolchain", "uninstall", RustupName(t)]
  {
    Cmd.Args(Cmd.New(ws, BinaryCrates.Rustup), ["toolchain", "uninstall", RustupName(t)])
  }

  /** `uninstall`: a failed run is reported with the toolchain's rustup name. */
  function Uninstall(t: Toolchain, run: Result<(), CommandError>): (r: Result<(), Error>)
    ensures r.Ok? <==> run.Ok?
    ensures run.Err? ==> r.error == Context("unable to uninstall toolchain " + RustupName(t) + " via rustup", Command(run.error))
  {
    match run
    case Ok(_) => Ok(())
    case Err(e) => Err(Context("unable to uninstall toolchain " + RustupName(t) + " via rustup", Command(e)))
  }

  datatype RustupAction = Add | Remove
  datatype RustupThing = Target | Component

  function ActionText(a: RustupAction): string {
    match a
    case Add => "add"
    case Remove => "remove"
  }

  function ActionIngText(a: RustupAction): string {
    match a
    case Add => "adding"
    case Remove => "removing"
  }

  function ThingText(t: RustupThing): string {
    match t
    case Target => "target"
    case Component => "component"
  }

  /**
   * `change_rustup_thing` (behind `add_component`, `remove_component`, `add_target` and
   * `remove_target`): CI toolchains are refused before anything runs; otherwise the command is
   * `rustup <thing> <action> --toolchain <name> <item>`.
   */
  function ChangeRustupThingCommand(ws: Workspace, t: Toolchain, action: RustupAction, thing: RustupThing, item: string)
    : (r: Result<Cmd.Command, Error>)
    ensures r.Err? <==> t.Ci?
    ensures r.Err? ==> r.error == Message(ActionIngText(action) + " " + ThingText(thing) + " on CI toolchains is not supported yet")
    ensures r.Ok? ==> r.value.binary == Cmd.ManagedByRustwide("rustup")
    ensures r.Ok? ==> r.value.args == [ThingText(thing), ActionText(action), "--toolchain", t.name, item]
  {
    if t.Ci? then Err(Message(ActionIngText(action) + " " + ThingText(thing) + " on CI toolchains is not supported yet"))
    else Ok(Cmd.Args(Cmd.New(ws, BinaryCrates.Rustup), [ThingText(thing), ActionText(action), "--toolchain", RustupName(t), item]))
  }

  /**
   * `change_rustup_thing`'s result: the refusal of a CI toolchain whatever else happens, otherwise
   * success exactly when rustup succeeded, a failure naming the action, thing, item and toolchain.
   */
  function ChangeRustupThing(ws: Workspace, t: Toolchain, action: RustupAction, thing: RustupThing, item: string,
                             run: Result<(), CommandError>): (r: Result<(), Error>)
    ensures t.Ci? ==> r == Err(Message(ActionIngText(action) + " " + ThingText(thing) + " on CI toolchains is not supported yet"))
    ensures t.Dist? ==> (r.Ok? <==> run.Ok?)
    ensures t.Dist? && run.Err? ==>
      r.error == Context("unable to " + ActionText(action) + " " + ThingText(thing) + " " + item
                         + " for toolchain " + t.name + " via rustup", Command(run.error))
  {
    var _ :- ChangeRustupThingCommand(ws, t, action, thing, item);
    match run
    case Ok(_) => Ok(())
    case Err(e) =>
      Err(Context("unable to " + ActionText(action) + " " + ThingText(thing) + " " + item
                  + " for toolchain " + RustupName(t) + " via rustup", Command(e)))
  }

  /** The argument words of the four public wrappers are distinct, so each asks rustup for something different. */
  lemma ChangeRustupThingDistinct(ws: Workspace, name: string, item: string,
                                  a1: RustupAction, th1: RustupThing, a2: RustupAction, th2: RustupThing)
    requires (a1, th1) != (a2, th2)
    ensures ChangeRustupThingCommand(ws, Dist(name), a1, th1, item).value.args
         != ChangeRustupThingCommand(ws, Dist(name), a2, th2, item).value.args
  {
    var x := ChangeRustupThingCommand(ws, Dist(name), a1, th1, item).value.args;
    var y := ChangeRustupThingCommand(ws, Dist(name), a2, th2, item).value.args;
    assert x[0] == ThingText(th1) && y[0] == ThingText(th2);
    assert x[1] == ActionText(a1) && y[1] == ActionText(a2);
    if th1 != th2 {
      assert ThingText(th1)[0] != ThingText(th2)[0];
    } else {
      assert ActionText(a1)[0] != ActionText(a2)[0];
    }
  }

  /** The line rustup prints for a toolchain that is not installed. */
  predicate NotInstalledLine(line: string) {
    StartsWith(line, "error: toolchain ") && EndsWith(line, " is not installed")
  }

  /** Some line seen while the command ran is the not-installed line. */
  predicate AnyNotInstalled(lines: seq<string>) {
    exists i | 0 <= i < |lines| :: NotInstalledLine(lines[i])
  }

  /** The non-empty lines, in order. */
  function NonEmptyLines(lines: seq<string>): (r: seq<string>)
    ensures forall i | 0 <= i < |r| :: r[i] != ""
    ensures IsSubsequence(r, lines)
    ensures forall l :: multiset(r)[l] == if l != "" then multiset(lines)[l] else 0
    decreases |lines|
  {
    if |lines| == 0 then []
    else
      assert lines == [lines[0]] + lines[1..];
      assert multiset(lines) == multiset{lines[0]} + multiset(lines[1..]);
      if lines[0] == "" then
        var rest := NonEmptyLines(lines[1..]);
        assert IsSubsequence(rest, lines) by { assert lines[1..] == lines[1..]; }
        rest
      else [lines[0]] + NonEmptyLines(lines[1..])
  }

  /** Every non-empty line survives the filter. */
  lemma {:induction false} NonEmptyLinesKeepsAll(lines: seq<string>, i: nat)
    requires i < |lines| && lines[i] != ""
    ensures lines[i] in NonEmptyLines(lines)
    decreases i
  {
    if i > 0 {
      NonEmptyLinesKeepsAll(lines[1..], i - 1);
      assert lines[1..][i - 1] == lines[i];
    }
  }

  /** The command `list_rustup_things` runs, without logging its output. */
  function ListCommand(ws: Workspace, name: string, thing: RustupThing): (c: Cmd.Command)
    ensures c.binary == Cmd.ManagedByRustwide("rustup") && !c.logOutput
    ensures c.args == [ThingText(thing), "list", "--installed", "--toolchain", name]
  {
    Cmd.WithLogOutput(Cmd.Args(Cmd.New(ws, BinaryCrates.Rustup), [ThingText(thing), "list", "--installed", "--toolchain", name]), false)
  }

  /**
   * How `list_rustup_things` (behind `installed_targets`) reads the run back: `seen` are the lines
   * its callback was shown, `out` the captured run. Only dist toolchains are supported; a failed
   * run after the not-installed line means `NotInstalled`.
   */
  function ListRustupThings(t: Toolchain, thing: RustupThing, seen: seq<string>, out: Result<ProcessOutput, CommandError>)
    : (r: Result<seq<string>, Error>)
    ensures t.Ci? ==> r == Err(Toolchain(UnsupportedOperation))
    ensures t.Dist? && out.Ok? ==> r == Ok(NonEmptyLines(out.value.stdout))
    ensures t.Dist? && out.Err? && AnyNotInstalled(seen) ==> r == Err(Toolchain(NotInstalled))
    ensures t.Dist? && out.Err? && !AnyNotInstalled(seen) ==>
      r == Err(Context("failed to read the list of installed " + ThingText(thing) + "s for " + t.name + " with rustup",
                       Command(out.error)))
  {
    match t
    case Ci(_, _) => Err(Toolchain(UnsupportedOperation))
    case Dist(name) =>
      match out
      case Ok(o) => Ok(NonEmptyLines(o.stdout))
      case Err(e) =>
        if AnyNotInstalled(seen) then Err(Toolchain(NotInstalled))
        else Err(Context("failed to read the list of installed " + ThingText(thing) + "s for " + name + " with rustup", Command(e)))
  }

  // ---------------------------------------------------------------------------------------
  // `list_installed_toolchains`
  // ---------------------------------------------------------------------------------------

  /**
   * The toolchain an installed directory stands for: a symlink or a directory with an
   * `update-hashes` entry is a dist toolchain, anything else a CI build, alt when named `-alt`.
   */
  function ClassifyInstalled(name: string, isDist: bool): (t: Toolchain)
    ensures isDist ==> t == Dist(name)
    ensures !isDist ==> t.Ci? && (t.alt <==> EndsWith(name, "-alt"))
  {
    if isDist then Dist(name)
    else if EndsWith(name, "-alt") then Ci(name[..|name| - 4], true)
    else Ci(name, false)
  }

  /**
   * The directory name of an installed toolchain reads back as the same toolchain, except for a
   * non-alt CI hash that itself ends in `-alt`.
   */
  lemma InstalledNameRoundTrip(t: Toolchain)
    requires t.Ci? ==> t.alt || !EndsWith(t.sha, "-alt")
    ensures ClassifyInstalled(RustupName(t), t.Dist?) == t
  {
    if t.Ci? && t.alt {
      var n := t.sha + "-alt";
      assert n[|n| - 4..] == "-alt";
      assert n[..|n| - 4] == t.sha;
    }
  }

  /** A non-alt CI hash ending in `-alt` is read back as the alt build of the shorter hash. */
  lemma AltSuffixIsAmbiguous(sha: string)
    requires sha == "abc-alt"
    ensures ClassifyInstalled(RustupName(Ci(sha, false)), false) == Ci("abc", true)
  {
    assert sha[|sha| - 4..] == "-alt";
  }

  /** An entry of `<rustup home>/toolchains`: its name (None when not UTF-8) and whether it is a symlink. */
  datatype DirEntry = DirEntry(fileName: Option<string>, isSymlink: Result<bool, IoError>)

  /** One entry of the listing, or the error it stops the listing with. */
  function EntryToolchain(entry: Result<DirEntry, IoError>, hashExists: string -> bool): (r: Result<Toolchain, Error>)
    ensures entry.Err? ==> r == Err(Io(entry.error))
    ensures entry.Ok? && entry.value.fileName.None? ==> r == Err(Message("non-utf8 toolchain name"))
    ensures entry.Ok? && entry.value.fileName.Some? && entry.value.isSymlink.Err? ==> r == Err(Io(entry.value.isSymlink.error))
    ensures entry.Ok? && entry.value.fileName.Some? && entry.value.isSymlink.Ok? ==>
      var name := entry.value.fileName.value;
      r == Ok(ClassifyInstalled(name, entry.value.isSymlink.value || hashExists(name)))
  {
    match entry
    case Err(e) => Err(Io(e))
    case Ok(DirEntry(fileName, isSymlink)) =>
      match fileName
      case None => Err(Message("non-utf8 toolchain name"))
      case Some(name) =>
        match isSymlink
        case Err(e) => Err(Io(e))
        case Ok(link) => Ok(ClassifyInstalled(name, link || hashExists(name)))
  }

  /**
   * `list_installed_toolchains`: every entry in directory order, or the first error (reading the
   * directory, an entry, a name, a file type).
   */
  function ListInstalled(readDir: Result<seq<Result<DirEntry, IoError>>, IoError>, hashExists: string -> bool)
    : (r: Result<seq<Toolchain>, Error>)
    ensures readDir.Err? ==> r == Err(Io(readDir.error))
    ensures readDir.Ok? ==>
      var entries := readDir.value;
      && (r.Ok? <==> forall i | 0 <= i < |entries| :: EntryToolchain(entries[i], hashExists).Ok?)
      && (r.Ok? ==> |r.value| == |entries|
                    && forall i | 0 <= i < |entries| :: r.value[i] == EntryToolchain(entries[i], hashExists).value)
  {
    match readDir
    case Err(e) => Err(Io(e))
    case Ok(entries) =>
      var rs := seq(|entries|, i requires 0 <= i < |entries| => EntryToolchain(entries[i], hashExists));
      assert forall i | 0 <= i < |entries| :: rs[i] == EntryToolchain(entries[i], hashExists);
      Collect(rs)
  }

  /** The `test_list_installed` unit test: a hashed dist toolchain, a symlink, a CI build and an alt CI build. */
  lemma ListInstalledExample(dist: string, link: string, sha: string, hashExists: string -> bool)
    requires dist == "stable-x86_64-unknown-linux-gnu" && link == "stage1"
    requires sha == "0000000000000000000000000000000000000000"
    requires hashExists(dist) && !hashExists(sha) && !hashExists(sha + "-alt")
    ensures ListInstalled(Ok([Ok(DirEntry(Some(dist), Ok(false))), Ok(DirEntry(Some(link), Ok(true))),
                              Ok(DirEntry(Some(sha), Ok(false))), Ok(DirEntry(Some(sha + "-alt"), Ok(false)))]), hashExists)
         == Ok([Dist(dist), Dist(link), Ci(sha, false), Ci(sha, true)])
  {
    var n := sha + "-alt";
    assert n[|n| - 4..] == "-alt" && n[..|n| - 4] == sha;
    assert sha[|sha| - 4..] != "-alt" by { assert sha[|sha| - 1] == '0'; }
    var entries := [Ok(DirEntry(Some(dist), Ok(false))), Ok(DirEntry(Some(link), Ok(true))),
                    Ok(DirEntry(Some(sha), Ok(false))), Ok(DirEntry(Some(n), Ok(false)))];
    var r := ListInstalled(Ok(entries), hashExists);
    assert EntryToolchain(entries[2], hashExists) == Ok(Ci(sha, false));
    assert EntryToolchain(entries[3], hashExists) == Ok(Ci(sha, true));
    assert forall i | 0 <= i < |entries| :: EntryToolchain(entries[i], hashExists).Ok?;
    assert r.value == [Dist(dist), Dist(link), Ci(sha, false), Ci(sha, true)];
  }
}

=== FILE: tools.dfy ===
/**
 * The tools the workspace keeps installed (src/tools/mod.rs, src/tools/binary_crates.rs): where
 * their binaries live, how a binary crate is installed, and the install-or-update loop. Whether a
 * file exists or is executable, and how each install or update went, are inputs.
 */
module Tools {
  import opened Wrappers
  import opened Base
  import Cmd
  import BinaryCrates
  import Toolchain

  /** The members of `INSTALLABLE_TOOLS`: rustup itself, or a binary crate. */
  datatype Tool = RustupTool | Crate(krate: BinaryCrates.BinaryCrate)

  /** `Tool::name`: "rustup", or the crate's binary. */
  function Name(t: Tool): string {
    match t
    case RustupTool => "rustup"
    case Crate(c) => c.binary
  }

  /** `INSTALLABLE_TOOLS`, in order. */
  const InstallableTools := [RustupTool, Crate(BinaryCrates.InstallMaster), Crate(BinaryCrates.GitCredentialNull)]

  /** `Tool::binary_path`: `<normalised cargo home>/bin/<name><EXE_SUFFIX>`. */
  function BinaryPath(t: Tool, ws: Workspace, norm: Path -> Path): (p: Path)
    ensures p.root == norm(ws.cargoHome).root
    ensures p.parts == norm(ws.cargoHome).parts + ["bin", Name(t) + ExeSuffix(ws.platform)]
  {
    norm(ws.cargoHome).Join("bin").Join(Name(t) + ExeSuffix(ws.platform))
  }

  /**
   * The path a tool is looked for at is the program an unsandboxed command for that tool runs, so
   * a tool counted as installed is the one the library starts.
   */
  lemma BinaryPathIsProgram(t: Tool, ws: Workspace, norm: Path -> Path)
    requires t.Crate? ==> t.krate.cargoSubcommand.None?
    ensures var r := if t.RustupTool? then BinaryCrates.Rustup else BinaryCrates.AsRunnable(t.krate);
      Cmd.HostInvocationOf(Cmd.New(ws, r), norm).value.program == BinaryPath(t, ws, norm)
  {
  }

  /** `is_installed`: not a file means not installed; otherwise whether it is executable. */
  function IsInstalled(t: Tool, ws: Workspace, norm: Path -> Path, isFile: Path -> bool,
                       isExecutable: Path -> Result<bool, Error>): (r: Result<bool, Error>)
    ensures !isFile(BinaryPath(t, ws, norm)) ==> r == Ok(false)
    ensures isFile(BinaryPath(t, ws, norm)) ==> r == isExecutable(BinaryPath(t, ws, norm))
  {
    var path := BinaryPath(t, ws, norm);
    if !isFile(path) then Ok(false) else isExecutable(path)
  }

  /**
   * The `cargo install` command for a binary crate: the main toolchain's cargo, `install <crate>`,
   * `--debug` for a fast install, and no timeout.
   */
  function InstallCommand(ws: Workspace, c: BinaryCrates.BinaryCrate, fastInstall: bool): (cmd: Cmd.Command)
    ensures cmd.binary == Cmd.ManagedByRustwide("cargo")
    ensures cmd.args == ["+stable", "install", c.crateName] + (if fastInstall then ["--debug"] else [])
    ensures cmd.timeout.None?
  {
    var cmd := Cmd.WithTimeout(Cmd.Args(Cmd.New(ws, Toolchain.Cargo(Toolchain.Main)), ["install", c.crateName]), None);
    assert Toolchain.RustupName(Toolchain.Main) == "stable";
    assert "+" + Toolchain.RustupName(Toolchain.Main) == "+stable";
    assert Toolchain.Cargo(Toolchain.Main).defaultArgs == ["+stable"];
    assert Cmd.New(ws, Toolchain.Cargo(Toolchain.Main)).args == ["+stable"];
    assert cmd.args == ["+stable"] + ["install", c.crateName];
    if fastInstall then Cmd.Args(cmd, ["--debug"]) else cmd
  }

  /** What the loop did for one tool. */
  datatype Step = Updated(updated: Tool) | Installed(installed: Tool)

  /** How the environment answers for each tool: the installed checks before and after, and the install and update runs. */
  datatype ToolEnv = ToolEnv(
    installedBefore: Tool -> Result<bool, Error>,
    update: Tool -> Result<(), Error>,
    install: Tool -> Result<(), Error>,
    installedAfter: Tool -> Result<bool, Error>)

  /** One iteration of `install`: update an installed tool, install a missing one and check it is there now. */
  function Visit(t: Tool, env: ToolEnv): (r: Result<Step, Error>)
    ensures env.installedBefore(t).Err? ==> r == Err(env.installedBefore(t).error)
    ensures env.installedBefore(t) == Ok(true) ==>
      (if env.update(t).Ok? then r == Ok(Updated(t)) else r == Err(env.update(t).error))
    ensures env.installedBefore(t) == Ok(false) && env.install(t).Err? ==> r == Err(env.install(t).error)
    ensures env.installedBefore(t) == Ok(false) && env.install(t).Ok? ==>
      && (env.installedAfter(t).Err? ==> r == Err(env.installedAfter(t).error))
      && (env.installedAfter(t) == Ok(false) ==> r == Err(Message("tool " + Name(t) + " is still missing after install")))
      && (env.installedAfter(t) == Ok(true) ==> r == Ok(Installed(t)))
  {
    var installed :- env.installedBefore(t);
    if installed then
      var _ :- env.update(t);
      Ok(Updated(t))
    else
      var _ :- env.install(t);
      var present :- env.installedAfter(t);
      if !present then Err(Message("tool " + Name(t) + " is still missing after install"))
      else Ok(Installed(t))
  }

  /**
   * `install`'s loop over a list of tools (`InstallableTools` for `install` itself): the steps
   * taken, in order, and the first error, which stops the loop.
   */
  function InstallAll(tools: seq<Tool>, env: ToolEnv): (r: (seq<Step>, Result<(), Error>))
    ensures r.1.Ok? ==> |r.0| == |tools| && forall i | 0 <= i < |tools| :: Visit(tools[i], env) == Ok(r.0[i])
    ensures r.1.Err? ==>
      && |r.0| < |tools|
      && (forall i | 0 <= i < |r.0| :: Visit(tools[i], env) == Ok(r.0[i]))
      && Visit(tools[|r.0|], env).Err?
      && r.1 == Err(Visit(tools[|r.0|], env).error)
    decreases |tools|
  {
    if |tools| == 0 then ([], Ok(()))
    else
      match Visit(tools[0], env)
      case Err(e) => ([], Err(e))
      case Ok(step) =>
        var (rest, res) := InstallAll(tools[1..], env);
        assert forall i | 0 < i <= |rest| :: tools[i] == tools[1..][i - 1];
        ([step] + rest, res)
  }

  /** A tool the loop reaches is updated exactly when it was installed before. */
  lemma UpdatedIffInstalled(tools: seq<Tool>, env: ToolEnv, i: nat)
    requires i < |InstallAll(tools, env).0|
    ensures InstallAll(tools, env).0[i].Updated? <==> env.installedBefore(tools[i]) == Ok(true)
    ensures InstallAll(tools, env).0[i].Updated? ==> InstallAll(tools, env).0[i].updated == tools[i]
    ensures InstallAll(tools, env).0[i].Installed? ==> InstallAll(tools, env).0[i].installed == tools[i]
  {
    var r := InstallAll(tools, env);
    assert Visit(tools[i], env) == Ok(r.0[i]);
  }

  /** When every tool is present already, the loop updates each of them, in `INSTALLABLE_TOOLS` order. */
  lemma AllPresentUpdatesInOrder(env: ToolEnv)
    requires forall t :: env.installedBefore(t) == Ok(true) && env.update(t).Ok?
    ensures InstallAll(InstallableTools, env).1.Ok?
    ensures InstallAll(InstallableTools, env).0 == [Updated(RustupTool), Updated(Crate(BinaryCrates.InstallMaster)),
                               Updated(Crate(BinaryCrates.GitCredentialNull))]
  {
    assert forall t :: Visit(t, env) == Ok(Updated(t));
    var r := InstallAll(InstallableTools, env);
    assert r.1.Ok?;
    assert Visit(InstallableTools[0], env) == Ok(r.0[0]);
    assert Visit(InstallableTools[1], env) == Ok(r.0[1]);
    assert Visit(InstallableTools[2], env) == Ok(r.0[2]);
    assert r.0 == [Updated(RustupTool), Updated(Crate(BinaryCrates.InstallMaster)), Updated(Crate(BinaryCrates.GitCredentialNull))];
  }
}

=== FILE: utils.dfy ===
/**
 * Helpers of src/utils.rs: escaping a path into one file name, the advisory file lock around a
 * closure, stripping the extended-length prefix of a Windows path, and the error raised when a
 * removal fails. The lock's system calls and the closure's outcome are inputs.
 */
module Utils {
  import opened Wrappers
  import opened Base
  import Text
  import Percent

  /** `escape_path`: percent-encoding with the controls and `/ \ < > : " | ? *` and space. */
  function EscapePath(unescaped: seq<Percent.byte>): (r: string)
    ensures forall i | 0 <= i < |r| :: Percent.SafeChar(r[i]) || r[i] == '%'
  {
    Percent.Encode(unescaped)
  }

  /** An escaped byte becomes `%` and its two upper-case hex digits. */
  lemma EscapesByte(b: Percent.byte)
    requires Percent.InEncodeSet(b)
    ensures var r := EscapePath([b]);
      |r| == 3 && r[0] == '%' && Percent.IsHexDigit(r[1]) && Percent.IsHexDigit(r[2])
      && Percent.HexValue(r[1]) * 16 + Percent.HexValue(r[2]) == b as int
  {
    assert EscapePath([b]) == Percent.EncodeByte(b) + Percent.Encode([]);
    Percent.HexRoundTrip(b as int / 16);
    Percent.HexRoundTrip(b as int % 16);
  }

  /** ASCII outside the set is left as it is. */
  lemma KeepsPlainAscii(bytes: seq<Percent.byte>)
    requires forall i | 0 <= i < |bytes| :: !Percent.Escaped(bytes[i])
    ensures |EscapePath(bytes)| == |bytes|
    ensures forall i | 0 <= i < |bytes| :: EscapePath(bytes)[i] as int == bytes[i] as int
  {
    Percent.EncodePlain(bytes);
  }

  /** Unescaping gives the bytes back when they hold no `%`. */
  lemma EscapeRoundTrip(bytes: seq<Percent.byte>)
    requires forall i | 0 <= i < |bytes| :: bytes[i] != 0x25
    ensures Percent.Decode(EscapePath(bytes)) == bytes
  {
    Percent.DecodeEncode(bytes);
  }

  // ---------------------------------------------------------------------------------------
  // file_lock
  // ---------------------------------------------------------------------------------------

  /**
   * One failed `try_lock_exclusive`: the kind of its error, and how the blocking
   * `lock_exclusive` that follows it went.
   */
  datatype TryFailure = TryFailure(kind: IoErrorKind, blocking: Result<(), IoError>)

  /** Something `file_lock` does besides taking the lock. */
  datatype LockEvent = WarnedContended | RanClosure | Unlocked

  /** The index of the first blocking lock that failed, or the number of failures when none did. */
  function FirstLockError(failures: seq<TryFailure>): (k: nat)
    ensures k <= |failures|
    ensures forall i | 0 <= i < k :: failures[i].blocking.Ok?
    ensures k < |failures| ==> failures[k].blocking.Err?
    decreases |failures|
  {
    if |failures| == 0 || failures[0].blocking.Err? then 0 else 1 + FirstLockError(failures[1..])
  }

  /** The warning, once, when any of the failures was contention (`lock_contended_error`, a would-block error). */
  function Warnings(failures: seq<TryFailure>): (w: seq<LockEvent>)
    ensures |w| <= 1
    ensures |w| == 1 <==> exists i | 0 <= i < |failures| :: failures[i].kind == WouldBlock
    ensures |w| == 1 ==> w[0] == WarnedContended
  {
    if exists i | 0 <= i < |failures| :: failures[i].kind == WouldBlock then [WarnedContended] else []
  }

  /**
   * `file_lock`: open (creating) the lock file, then retry `try_lock_exclusive` until it succeeds,
   * waiting in `lock_exclusive` after each failure and warning once about contention. Then run
   * the closure, unlock whatever the closure did, and hand back its result or its panic.
   * `failures` are the failed attempts, after which the next attempt succeeds.
   */
  method FileLock<T>(open: Result<(), IoError>, failures: seq<TryFailure>, f: Exit<Result<T, Error>>)
    returns (events: seq<LockEvent>, r: Exit<Result<T, Error>>)
    ensures open.Err? ==> events == [] && r == Returned(Err(Io(open.error)))
    ensures open.Ok? && FirstLockError(failures) < |failures| ==>
      var k := FirstLockError(failures);
      events == Warnings(failures[..k + 1]) && r == Returned(Err(Io(failures[k].blocking.error)))
    ensures open.Ok? && FirstLockError(failures) == |failures| ==>
      events == Warnings(failures) + [RanClosure, Unlocked] && r == f
  {
    if open.Err? {
      return [], Returned(Err(Io(open.error)));
    }
    var messageDisplayed := false;
    events := [];
    var i := 0;
    while i < |failures|
      invariant 0 <= i <= |failures|
      invariant forall j | 0 <= j < i :: failures[j].blocking.Ok?
      invariant events == Warnings(failures[..i])
      invariant messageDisplayed <==> |events| == 1
    {
      assert failures[..i + 1][..i] == failures[..i];
      assert failures[..i + 1][i] == failures[i];
      if !messageDisplayed && failures[i].kind == WouldBlock {
        events := events + [WarnedContended];
        messageDisplayed := true;
      }
      if failures[i].blocking.Err? {
        assert FirstLockError(failures) == i by { FirstLockErrorAt(failures, i); }
        return events, Returned(Err(Io(failures[i].blocking.error)));
      }
      i := i + 1;
    }
    assert failures[..i] == failures;
    assert FirstLockError(failures) == |failures| by { FirstLockErrorNone(failures); }
    events := events + [RanClosure, Unlocked];
    r := f;
  }

  lemma {:induction false} FirstLockErrorAt(failures: seq<TryFailure>, i: nat)
    requires i < |failures| && failures[i].blocking.Err?
    requires forall j | 0 <= j < i :: failures[j].blocking.Ok?
    ensures FirstLockError(failures) == i
    decreases i
  {
    if i > 0 {
      FirstLockErrorAt(failures[1..], i - 1);
    }
  }

  lemma {:induction false} FirstLockErrorNone(failures: seq<TryFailure>)
    requires forall j | 0 <= j < |failures| :: failures[j].blocking.Ok?
    ensures FirstLockError(failures) == |failures|
    decreases |failures|
  {
    if |failures| > 0 {
      FirstLockErrorNone(failures[1..]);
    }
  }

  // ---------------------------------------------------------------------------------------
  // Windows prefixes
  // ---------------------------------------------------------------------------------------

  /** `std::path::Prefix`. */
  datatype Prefix =
    | Verbatim(verbatim: string)
    | VerbatimUNC(server: string, share: string)
    | VerbatimDisk(drive: char)
    | DeviceNS(device: string)
    | UNC(uncServer: string, uncShare: string)
    | Disk(disk: char)

  predicate IsVerbatim(p: Prefix) {
    p.Verbatim? || p.VerbatimUNC? || p.VerbatimDisk?
  }

  /**
   * `strip_verbatim_from_prefix`: the prefix without `\\?\`, `None` for one that is not verbatim;
   * a verbatim UNC prefix reaches `unimplemented!()`.
   */
  function StripVerbatimFromPrefix(p: Prefix): (r: Exit<Option<string>>)
    ensures r.Panicked? <==> p.VerbatimUNC?
    ensures r.Returned? ==> (r.value.Some? <==> IsVerbatim(p))
    ensures p.VerbatimDisk? ==> r == Returned(Some([p.drive, ':', '\\']))
    ensures p.Verbatim? ==> r == Returned(Some(p.verbatim))
  {
    match p
    case Verbatim(s) => Returned(Some(s))
    case VerbatimDisk(d) => Returned(Some([d, ':', '\\']))
    case VerbatimUNC(_, _) => Panicked
    case _ => Returned(None)
  }

  /**
   * The Windows cases the library checks: `C:\Users\carl` and `\Users\carl` give nothing,
   * `\\?\C:\Users\carl` gives `C:\` and `\\?\Users\carl` gives `Users`.
   */
  lemma StripVerbatimExamples()
    ensures StripVerbatimFromPrefix(Disk('C')) == Returned(None)
    ensures StripVerbatimFromPrefix(VerbatimDisk('C')) == Returned(Some("C:\\"))
    ensures StripVerbatimFromPrefix(Verbatim("Users")) == Returned(Some("Users"))
  {
  }

  // ---------------------------------------------------------------------------------------
  // Removal errors
  // ---------------------------------------------------------------------------------------

  /** `RemoveError`: the error of a failed removal and the path it was removing. */
  datatype RemoveError = RemoveError(underlying: IoError, path: Path)

  /** `Display for RemoveError`: `failed to remove '<path>' : <underlying, debug-formatted>`. */
  function RemoveErrorText(e: RemoveError, platform: Platform): (s: string)
    ensures var shown := Display(e.path, platform);
      && |s| == |"failed to remove '"| + |shown| + |"' : "| + |e.underlying.debug|
      && Text.StartsWith(s, "failed to remove '")
      && s[|"failed to remove '"|..|"failed to remove '"| + |shown|] == shown
      && Text.EndsWith(s, "' : " + e.underlying.debug)
  {
    var shown := Display(e.path, platform);
    var s := "failed to remove '" + shown + "' : " + e.underlying.debug;
    assert s == "failed to remove '" + shown + ("' : " + e.underlying.debug);
    s
  }

  /** `improve_remove_error`: a new I/O error of the same kind, carrying the path. */
  function ImproveRemoveError(error: IoError, path: Path): (r: (IoErrorKind, RemoveError))
    ensures r.0 == error.kind && r.1.underlying == error && r.1.path == path
  {
    (error.kind, RemoveError(error, path))
  }

  /** The debug text of an I/O error built from a bare kind, as `io::Error::from(kind)` prints it. */
  function KindDebug(kind: IoErrorKind): string {
    match kind
    case NotFound => "Kind(NotFound)"
    case PermissionDenied => "Kind(PermissionDenied)"
    case AlreadyExists => "Kind(AlreadyExists)"
    case WouldBlock => "Kind(WouldBlock)"
    case Other => "Kind(Other)"
  }

  /** The library's own example: removing `test/path` without permission. */
  lemma RemoveErrorExample()
    ensures var e := ImproveRemoveError(IoError(PermissionDenied, KindDebug(PermissionDenied)), Path("", ["test", "path"]));
      && e.0 == PermissionDenied
      && RemoveErrorText(e.1, Unix) == "failed to remove '" + "test/path" + "' : " + "Kind(PermissionDenied)"
  {
    var e := ImproveRemoveError(IoError(PermissionDenied, KindDebug(PermissionDenied)), Path("", ["test", "path"]));
    assert Text.Join(["test", "path"], "/") == "test/path";
    assert Display(e.1.path, Unix) == "test/path";
  }

  /** `remove_file` and `remove_dir_all`: a failure is improved with the path, success passes through. */
  function Remove(path: Path, outcome: Result<(), IoError>): (r: Result<(), (IoErrorKind, RemoveError)>)
    ensures r.Ok? <==> outcome.Ok?
    ensures r.Err? ==> r.error.0 == outcome.error.kind && r.error.1 == RemoveError(outcome.error, path)
  {
    match outcome
    case Ok(_) => Ok(())
    case Err(e) => Err(ImproveRemoveError(e, path))
  }
}

=== FILE: wrappers.dfy ===
/** Failure-compatible wrappers used throughout the model: Rust's `Option` and `Result`. */
module Wrappers {

  /** Rust's `Option<T>`. */
  datatype Option<+T> = None | Some(value: T) {

    predicate IsFailure() {
      None?
    }

    function PropagateFailure<U>(): Option<U>
      requires None?
    {
      None
    }

    function Extract(): T
      requires Some?
    {
      value
    }

    function GetOr(default: T): T {
      match this
      case Some(v) => v
      case None => default
    }
  }

  /** Rust's `Result<T, E>`. */
  datatype Result<+T, +E> = Ok(value: T) | Err(error: E) {

    predicate IsFailure() {
      Err?
    }

    function PropagateFailure<U>(): Result<U, E>
      requires Err?
    {
      Err(error)
    }

    function Extract(): T
      requires Ok?
    {
      value
    }
  }
}
